=== FILE: README.md ===
# A Dafny model of the duplicate-video verdict

The system takes an uploaded video and answers one question: is this a copy of a known
reference, and if so, of which one? Its Go back end ("bff") and its Python workers decide
this in these steps:

- **Upload and dispatch.** The back end stores the upload and looks its hash up among the
  known originals. On a hit it records a finished task straight away (the *fast path*).
  Otherwise it records a task in progress and publishes one analysis request to the audio
  worker and one to the video worker (the *slow path*).
- **Collecting results.** Two collector loops read the workers' results from the broker.
  Each loop writes the raw result into that modality's column of the task row. It then
  marks the task done once both columns hold something.
- **Reading a task back.** Reading a task converts the row into the HTTP model.
  `isCopyrighted` then fuses the two candidate lists into a verdict `(name, isDuplicate)`.
- **The audio worker.** It cuts tracks into overlapping clips, names them, and reads
  reference names back out of clip paths. It scores each reference by the share of query
  clips that hit it, keeps the top ten, and merges time intervals.
- **The video worker.** It numbers and orders frames, gives reference frames their ids and
  payloads, and averages per-frame best scores into a video score.
- **Helper parsers.** There is a clock parser and formatter around ffprobe/ffmpeg, and a
  parser for the TMK clustering tool's output together with the tool's similar/not-similar
  verdict.

## How the model is built

Each piece is a Dafny module:

- `TaskModel`: the entities `Task`, `Copyright`, `KafkaResponse` and `KafkaLink`. JSON texts
  are modelled by what `json.Unmarshal` makes of them.
- `Mappers`: the row-to-model conversion.
- `TaskController`: the task lifecycle as a state machine over an abstract store, broker
  and dispatch queue.
- `Fusion`: `isCopyrighted`.
- `Ffmpeg`: `parseTime`, `timespan.Format` and the screenshot seek.
- `Wav2Vec` and `VideoClipper`: the audio worker.
- `Matcher`: the video worker.
- `Tmk`: the TMK output parser and classifier.
- Shared pieces: `Strs` (Python/Go string splitting, decimal numerals, zero padding),
  `Sorting` (a sort by a real key, and enumerations of a set) and `Wrappers` (`Option`,
  `Result`).

Some things are not deterministic, or happen outside the program, so they become parameters:

- Go map iteration order and Python set iteration order are an `order` argument that
  enumerates the keys.
- Store failures are a set of failing calls. Dispatch failures are the step that fails.
- Collector faults are three flags.
- The search hits of the vector database are an input sequence.
- A directory listing is a sequence of names.
- The standard output of an external tool is an `Option<string>`.

Probabilities and scores are exact `real`s.

Go's clock-only `time.Parse` yields 1 January of year 0, while `time.Time{}` is 1 January of
year 1. So `parseTime` returns the clock value minus 366 days, a negative duration. The model
keeps this offset. It proves that halving and formatting cancel it: the screenshot is still
taken at half the clock value.

## Model

| member | source | states |
|---|---|---|
| TaskModel.DecodeWireDecides | bff/internal/model/task.go:16-24 | Unknown keys are ignored. A field that no member stores keeps its zero value (id 0, no candidates). Otherwise the last member whose key selects the field decides it, and a `null` copyright gives no candidates. |
| TaskModel.EncodeResponse | bff/internal/model/task.go:16-19 | A `KafkaResponse` marshalled with its `task_id`/`copyright` tags decodes back to itself. |
| TaskModel.EncodeCopyright | bff/internal/model/task.go:21-24 | A bare `Copyright` marshals with the untagged keys `Name` and `Probability`. Decoded as a `KafkaResponse`, neither key selects a field, so it gives id 0 and no candidates. |
| TaskModel.WorkerResultDecodes | bff/internal/controller/task_controller/task_controller.go:193-198 | A result published by a worker passes the unmarshal step and yields exactly the published task id and candidates. |
| TaskModel.NullDecodesToZero | bff/internal/model/task.go:16-19 | The text `null` decodes to the zero response. |
| TaskModel.CaseInsensitiveLastWins | bff/internal/model/task.go:16-19 | Keys select their field whatever their letter case, and the last member wins: `{"TASK_ID":1,"Task_Id":7,"Copyright":null}` gives id 7 and no candidates. |
| TaskModel.MistypedIdRejected | bff/internal/controller/task_controller/task_controller.go:194-198 | A `task_id` given as a string is an unmarshal error, so the collector skips that message. |
| TaskModel.FractionalIdRejected | bff/internal/controller/task_controller/task_controller.go:194-198 | A `task_id` given as a fractional number cannot go into the int64 field, so it is an unmarshal error and the collector skips that message. |
| TaskModel.TagsAreLowerCase | bff/internal/model/task.go:17-18 | Each tag, written as it is, selects its own field. |
| Mappers.StatusToModel | bff/internal/controller/task_controller/mappers.go:12-23 | Done maps to Done and in-progress to InProgress, each in both directions. Fail and every unknown or NULL status map to Failed. |
| Mappers.DecodeColumn | bff/internal/controller/task_controller/mappers.go:49-57 | A NULL column gives an empty candidate list, and so does a stored text with no member selecting `copyright`, such as a bare copyright object. Otherwise the last member selecting `copyright` decides the list. |
| Mappers.TaskToModel | bff/internal/controller/task_controller/mappers.go:44-66 | The conversion never fails. It keeps the task id, maps the status, and feeds the video column to the video list and the audio column to the audio list, with no swap. |
| Mappers.TaskSliceToModel | bff/internal/controller/task_controller/mappers.go:26-41 | The slice conversion never fails. It keeps length and order, and element i is the conversion of row i. |
| TaskController.WriteColumn | bff/internal/controller/task_controller/task_controller.go:200-207 | Writing a result column touches only that row's column. It leaves the other column, the other row fields, every other row and the key set alone. A missing row is a no-op. |
| TaskController.SetStatus | bff/internal/controller/task_controller/task_controller.go:171-177 | On an existing row, a status update sets exactly that row's status to the given one and keeps its other fields. Every other row, the key set and the originals are unchanged. A missing row is a no-op. |
| TaskController.MarkIfAnswered | bff/internal/controller/task_controller/task_controller.go:168-180 | After the completion check a row is Done exactly when it was Done already or both columns were written. The columns and every other field stay the same, so only the status can change, and only to Done. |
| TaskController.CheckTaskDone | bff/internal/controller/task_controller/task_controller.go:160-181 | For every row: Done afterwards exactly when it was Done before, or when it is the checked task, both its columns are non-NULL, and neither the read nor the status update failed. The check works on raw bytes, so a result with an empty list counts as present. Columns never change. |
| TaskController.GetTask | bff/internal/controller/task_controller/task_controller.go:413-428 | Reading a task fails exactly when there is no row for the id. Otherwise it returns the row's id, the status mapped by `StatusToModel` (Done exactly when the row is Done), and the decoded video and audio columns. |
| TaskController.FastPathPayload | bff/internal/controller/task_controller/task_controller.go:283-293 | The fast path writes a bare copyright object, which decodes to no candidates. The envelope it evidently meant decodes to `[Copyright(videos[0], 1)]` for this task. |
| TaskController.CreateTask | bff/internal/controller/task_controller/task_controller.go:247-347 | An upload, lookup or insert failure changes nothing and returns an error. The broker is never written. A slow-path insert returns the new id in progress with empty columns and queues exactly one dispatch job. A fast-path insert with both writes succeeding returns the new id Done, with the same payload in both columns and no job. Existing rows are untouched. |
| TaskController.CheckForCopyright | bff/internal/controller/task_controller/task_controller.go:350-410 | Dispatch re-writes InProgress, then publishes the audio request, then the video one. A failing step stops every later step: an audio publish failure means no video request, and a failed status write changes nothing. |
| TaskController.RunDispatch | bff/internal/controller/task_controller/task_controller.go:338-343 | Running a queued dispatch job removes it from the queue. Without a failure it publishes the job's audio request and then its video request. |
| TaskController.HandleResult | bff/internal/controller/task_controller/task_controller.go:184-211 | Undecodable input or a failed write leaves the store unchanged, with no completion check. Otherwise the raw message goes into that modality's column of the decoded task. The row becomes Done exactly when it was Done, or when the other column was already written and the check did not fail. No other row changes. |
| TaskController.Landed | bff/internal/controller/task_controller/task_controller.go:200-210 | A landed result fills its column, keeps the other one, and leaves the row Done exactly when it was Done or the other column was written. |
| TaskController.HandleIsLanding | bff/internal/controller/task_controller/task_controller.go:184-211 | A fault-free collector step on a decodable message is the write followed by the check, landing on the decoded task id. |
| TaskController.DeliverCommute | bff/internal/controller/task_controller/task_controller.go:184-243 | A video result and an audio result commute, whatever task ids they carry. |
| TaskController.CollectorsCommute | bff/internal/controller/task_controller/task_controller.go:183-243 | One fault-free step of each collector commutes with the other's, for any two messages. |
| TaskController.RedeliveryIsHarmless | bff/internal/controller/task_controller/task_controller.go:201-210 | Redelivering the same result leaves the store exactly as the first delivery left it. |
| TaskController.BothResultsEndDone | bff/internal/controller/task_controller/task_controller.go:160-243 | Take the two loops' steps (write, check) on one task in any interleaving. The task ends Done holding both results, and no other row changes. |
| TaskController.CollectorKeepsDoneMeansAnswered | bff/internal/controller/task_controller/task_controller.go:160-243 | A collector step, with any faults, keeps the invariant "a Done row has both columns written". |
| TaskController.DispatchKeepsDoneMeansAnswered | bff/internal/controller/task_controller/task_controller.go:350-410 | A dispatch job, failing at any step, keeps the invariant "a Done row has both columns written". |
| TaskController.CreateKeepsDoneMeansAnswered | bff/internal/controller/task_controller/task_controller.go:247-347 | Creating a task keeps the invariant "a Done row has both columns written" when the fast path's column writes succeed. |
| TaskController.FastPathWriteFailureLeavesDoneTask | bff/internal/controller/task_controller/task_controller.go:270-307 | The fast path inserts its row Done before writing the columns. A failed video write therefore returns an error but leaves a Done task with no results, and reading it gives a Done task with empty lists. |
| TaskController.FastPathVerdictIsEmpty | bff/internal/controller/task_controller/task_controller.go:284-307 | As written, a fast-path task reads back Done with both candidate lists empty, so the fused verdict is `("", false)`. |
| TaskController.FastPathEnvelopeVerdict | bff/internal/controller/task_controller/task_controller.go:284-307 | With the envelope payload, a fast-path task reads back Done with `[Copyright(original, 1)]` in both lists, and the verdict names the original as a duplicate. |
| Fusion.ToMap | bff/http.go:282-290 | The name-to-probability map has exactly the listed names as keys. The last entry for a name wins. |
| Fusion.FusedOfLastEntries | bff/http.go:282-299 | After the intersection loop, the keys are exactly the names present in both lists. Each name's score is the harmonic mean `2va/(v+a)` of its last video and last audio probability. |
| Fusion.FinalProbabilities | bff/http.go:305-311 | The slice built by ranging over the fused map holds a pair exactly when the fused map gives that name that score. Names are distinct, the slice is as long as the map, and entry i is the i-th name in iteration order. |
| Sorting.EnumerationSize | bff/http.go:305-311 | An iteration order over a map's keys visits exactly as many names as the map has keys. |
| Fusion.KeepAtThreshold | bff/http.go:313-319 | The intended filter keeps exactly the entries scoring at least 0.75. |
| Fusion.SurvivorsAreAtThreshold | bff/http.go:313-323 | After the filter and the ascending sort, the survivors are exactly the fused pairs scoring at least 0.75. |
| Fusion.FirstSurvivorIsLowest | bff/http.go:321-329 | There are no survivors exactly when no fused score reaches 0.75. Otherwise the first survivor after the ascending sort has the lowest surviving score. |
| Fusion.Select | bff/http.go:305-329 | The verdict is a duplicate exactly when some fused score is at least 0.75, and then it names a survivor with the smallest such score, not the largest. Otherwise the name is empty. |
| Fusion.IsCopyrighted | bff/http.go:277-330 | An empty candidate list gives `("", false)`. Otherwise the verdict is a duplicate exactly when some name present in both lists fuses to at least 0.75, and it names the lowest such survivor. |
| Fusion.FilterLoop | bff/http.go:313-319 | The swap-remove loop as written panics with an index out of range exactly when some entry other than the last, in iteration order, is below 0.75. When it finishes, exactly the sub-threshold entries are gone. |
| Fusion.HarmonicMeanBetween | bff/http.go:298 | The fused score is symmetric in its two probabilities and lies between their minimum and maximum. |
| Fusion.FusedSymmetric | bff/http.go:292-299 | Swapping the video and audio lists gives the same fused map. A cross-wired pair of topics therefore cannot change the fused scores. |
| Fusion.VerdictSymmetric | bff/http.go:277-330 | Swapping the lists leaves the duplicate flag unchanged, and the named candidate has the same fused score. |
| Fusion.ExampleVerdict | bff/http.go:277-330 | Video [(A,0.9),(B,0.5)] with audio [(A,0.8),(C,0.6)] fuses to {A: 1.44/1.7 ≈ 0.847} and gives `("A", true)`. |
| Fusion.ThresholdBoundary | bff/http.go:314 | The comparison is strict: a fused score of exactly 0.75 is kept, and 0.7499 is dropped. |
| Fusion.NoOverlapIsNotDuplicate | bff/http.go:301-303 | Lists with no common name give `("", false)`, however high their probabilities. |
| Fusion.FilterLoopPanicExample | bff/http.go:313-319 | For fused scores {A: 0.5, B: 0.9}, the loop panics when A is iterated first but not when B is, so the outcome depends on map iteration order. |
| Sorting.SortBy | bff/http.go:321-323 | The sort returns a permutation of its input, ordered by the key. |
| Ffmpeg.GetNum | bff/internal/pkg/ffmpeg/ffmpeg.go:118 | A clock field has a value below 100 and consumes at least one character. A zero-padded field consumes exactly two. |
| Ffmpeg.ParseClock | bff/internal/pkg/ffmpeg/ffmpeg.go:118-121 | A clock parsed with layout "15:04:05" has an hour below 24, a minute and second below 60, and a fraction below one second. |
| Ffmpeg.ParseClockExactly | bff/internal/pkg/ffmpeg/ffmpeg.go:118-121 | Layout "15:04:05" accepts a text exactly when it has the layout's shape (a 1-2 digit hour, ':', two minute digits, ':', two second digits, then optionally ',' or '.' and one or more digits, nothing more) and the hour is below 24 and the minute and second below 60. The parsed clock is then the one the text spells. Everything else is an error. |
| Ffmpeg.GetNumReads | bff/internal/pkg/ffmpeg/ffmpeg.go:118 | A clock field is read exactly when it starts with a digit, and a zero-padded field also needs a second digit. The value is the one or two leading digits, taking the second one greedily. |
| Ffmpeg.FractionReads | bff/internal/pkg/ffmpeg/ffmpeg.go:118 | A fraction is accepted exactly when it is ',' or '.' followed by one or more digits and nothing else. Its value is those digits as nanoseconds. |
| Ffmpeg.Fraction | bff/internal/pkg/ffmpeg/ffmpeg.go:118 | Trailing fractional seconds are a separator followed only by digits, worth less than one second. |
| Ffmpeg.ParseTime | bff/internal/pkg/ffmpeg/ffmpeg.go:110-125 | Anything that does not split on "." into exactly two pieces is the wrong-output error. A parsed duration lies within one day of minus 366 days. |
| Ffmpeg.ReadingParses | bff/internal/pkg/ffmpeg/ffmpeg.go:110-125 | A reading "h:mm:ss.fraction" parses to the clock value minus 366 days, whatever the fraction. |
| Ffmpeg.SplitReading | bff/internal/pkg/ffmpeg/ffmpeg.go:112-115 | Splitting a reading on "." gives the clock text and the discarded fraction. |
| Ffmpeg.ClockTextParses | bff/internal/pkg/ffmpeg/ffmpeg.go:118-121 | A clock text with a 1-2 digit hour and two-digit minute and second parses to that clock. |
| Ffmpeg.TwoDigits | bff/internal/pkg/ffmpeg/ffmpeg.go:57-61 | Each rendered clock field is two digits whose decimal value is the field. |
| Ffmpeg.TimeOfDay | bff/internal/pkg/ffmpeg/ffmpeg.go:59-60 | Formatting sees only the second of the day, a value in [0, 86400). |
| Ffmpeg.Format | bff/internal/pkg/ffmpeg/ffmpeg.go:57-61 | The rendered text has the shape "hh:mm:ss". |
| Ffmpeg.FormatParsesBack | bff/internal/pkg/ffmpeg/ffmpeg.go:57-61 | Formatting any duration and parsing the text back with the same layout gives that duration's time of day. |
| Ffmpeg.FormatIgnoresWholeDays | bff/internal/pkg/ffmpeg/ffmpeg.go:57-61 | Adding whole days to a duration never changes its formatted text. |
| Ffmpeg.GoHalf | bff/internal/pkg/ffmpeg/ffmpeg.go:75 | `length /= 2` truncates toward zero, for negative lengths too. |
| Ffmpeg.ScreenshotSeek | bff/internal/pkg/ffmpeg/ffmpeg.go:64-78 | A seek position exists exactly when the probe output parses, and it is an eight-character clock. |
| Ffmpeg.HalfOfShifted | bff/internal/pkg/ffmpeg/ffmpeg.go:75 | Halving the offset clock value gives half the clock, rounded up, minus exactly 183 whole days. |
| Ffmpeg.ScreenshotSeekIsHalfClock | bff/internal/pkg/ffmpeg/ffmpeg.go:64-78 | For any parsable probe output, the seek is the formatted half of the clock value, rounded up to the nanosecond. The 366-day offset cancels. |
| Ffmpeg.ScreenshotOfReading | bff/internal/pkg/ffmpeg/ffmpeg.go:64-78 | For a whole-second reading, the seek is the formatted floor of half the seconds. |
| Ffmpeg.ScreenshotExample | bff/internal/pkg/ffmpeg/ffmpeg.go:64-78 | A probe reading of 0:01:23.x seeks to "00:00:41". |
| Strs.Split | bff/internal/pkg/ffmpeg/ffmpeg.go:112 | Splitting gives at least one piece, and no piece contains the separator. |
| Strs.JoinSplit | wav2vec/wav2vec.py:27 | Joining the pieces of a split with the same separator gives back the text. |
| Strs.SplitJoin | wav2vec/wav2vec.py:27 | Splitting a join of separator-free pieces gives back the pieces. |
| Strs.SliceTo | wav2vec/wav2vec.py:27 | Python's `xs[:k]` is a prefix of length k, or of length len(xs)+k for negative k, capped at the ends. |
| Strs.FormatInt04 | wav2vec/video_clipper.py:96 | `{n:04}` is at least four characters, has no leading zero beyond that width (so 5 gives exactly "0005"), is never truncated, reads back as n (with a leading '-' for negatives), and contains no '_', '/' or '.'. |
| Strs.ZeroPad | wav2vec/video_clipper.py:96 | Zero padding reaches the width, keeps longer numerals whole, and keeps the value. |
| Strs.DecimalRoundTrip | video_copy/matcher.py:65 | Reading back the decimal numeral of n gives n. |
| Strs.AsciiLower | tmk_full.py:247 | Lowercasing keeps the length. It turns each upper-case ASCII letter into its lower-case letter, keeps every other character, and leaves no upper-case ASCII letter behind. |
| Strs.LowerFixesOnlyLowercase | tmk_full.py:247 | Lowercasing leaves a text unchanged exactly when it has no upper-case ASCII letter. |
| Strs.LowerIdempotent | tmk_full.py:247 | Lowercasing twice is lowercasing once. |
| Strs.LowerOfConcat | tmk_full.py:247 | Lowercasing works character by character, so it distributes over concatenation. |
| VideoClipper.ClipName | wav2vec/video_clipper.py:95-96 | A clip name starts with the audio name and '_', ends in ".wav", and has room for two four-digit times. |
| VideoClipper.ClipTimesReadBack | wav2vec/video_clipper.py:95-96 | Splitting a clip name's stem on '_' gives at least three fields. The last two are the zero-padded start and end, with end = start + clip length. |
| VideoClipper.Trunc | wav2vec/video_clipper.py:58 | Python's `int()` of a float truncates toward zero. |
| VideoClipper.PyRangeAscending | wav2vec/video_clipper.py:58 | An ascending `range` has ⌈(stop-start)/step⌉ values, and its k-th value is start + k·step. |
| VideoClipper.SegmentTimes | wav2vec/video_clipper.py:46-60 | A zero step is the error `range` raises. For a positive step the starts are 0, step, 2·step, …, and each clip ends within the truncated track. There are (int(total) - clip) div step + 1 of them, or none when the track is shorter than a clip. |
| VideoClipper.WindowsWithinTrack | wav2vec/video_clipper.py:58-59 | Every window the range yields starts at a multiple of the step and ends within the whole seconds of the track. The count is maximal. |
| VideoClipper.SegmentExample | wav2vec/video_clipper.py:46-60 | Ten-second clips every second over a 12.9-second track start at 0, 1 and 2. |
| Wav2Vec.ExtractAudioName | wav2vec/wav2vec.py:18-28 | A base name with at most two '_' fields gives "". |
| Wav2Vec.ClipNameRoundTrip | wav2vec/wav2vec.py:27 | Extracting the name from `dir/{name}_{start:04}_{end:04}.wav` gives back `name`, for any name without '/'. This closes the loop with wav2vec/video_clipper.py:95-96. |
| Wav2Vec.NamesOf | wav2vec/wav2vec.py:43-51 | The names one query key contributes never include the empty name. |
| Wav2Vec.NamesOfMeaning | wav2vec/wav2vec.py:43-51 | A name is counted for a query key exactly when it is non-empty and some match of that key extracts to it. |
| Wav2Vec.MentionedIffNamed | wav2vec/wav2vec.py:42-51 | A name appears in the result exactly when at least one query key mentions it. |
| Wav2Vec.CountClip | wav2vec/wav2vec.py:43-51 | One query key adds exactly 1 to each distinct non-empty name among its matches, and leaves every other count alone. |
| Wav2Vec.CountAudioMatches | wav2vec/wav2vec.py:31-55 | Each score is the number of query keys that mention the name divided by the number of keys, and lies in (0, 1]. Empty input gives an empty result with no division. |
| Wav2Vec.GetTopKAudio | wav2vec/wav2vec.py:58-69 | The result holds min(k, n) of the input's pairs in non-increasing score order. No excluded pair outscores an included one. |
| Wav2Vec.MergeSorted | wav2vec/wav2vec.py:180-190 | Merging a start-sorted list gives intervals sorted by start, each beginning more than 100 after the previous one ends. Every input interval lies inside one of them, and each bound comes from the input. When every input has start ≤ end, every point of a merged interval lies within 50 of some input, so no gap wider than 100 is bridged. |
| Wav2Vec.AbsorbNear | wav2vec/wav2vec.py:183-188 | One loop step keeps "every merged point lies within 50 of an interval seen so far": a widened end gains only points within 50 of the old end or of the absorbed interval. |
| Wav2Vec.MergeTuples | wav2vec/wav2vec.py:169-190 | Empty input is the IndexError. Otherwise the output is non-empty, no longer than the input, sorted by start, and separated by more than 100. It covers every input interval, with every bound taken from the input. When every input has start ≤ end, every point of every output interval lies within 50 of some input, so the output never bridges a gap wider than 100. |
| Wav2Vec.HullIsNotClose | wav2vec/wav2vec.py:185-188 | For [(0, 10), (200, 210)] the single hull (0, 210) breaks the closeness clause, because the point 100 is more than 50 from both inputs. So the contract forbids merging these two intervals, as the source keeps them apart. |
| Wav2Vec.NoMatchesIffAllEmpty | wav2vec/wav2vec.py:201-214 | There are no matched paths at all exactly when every query key's list is empty. |
| Wav2Vec.ScoredPairsExactly | wav2vec/wav2vec.py:31-55 | Listed in any iteration order of the result set, a pair occurs exactly when it names a mentioned reference and carries that reference's share of the query clips. No name occurs twice. |
| Wav2Vec.ScoredPairsInRange | wav2vec/wav2vec.py:53 | Every scored pair names a mentioned reference and has a share in (0, 1]. |
| Wav2Vec.TopSharesInRange | wav2vec/wav2vec.py:217-222 | Any selection of scored pairs names mentioned references with shares in (0, 1]. |
| Wav2Vec.ProcessSearchResults | wav2vec/wav2vec.py:192-222 | The result is `{}` exactly when no key matched anything. Otherwise it is the top ten of the scored pairs: min(10, names) pairs, each naming a reference with a share in (0, 1]. |
| Matcher.Cut | video_copy/matcher.py:114 | A hit score above 0.5 counts as itself, and anything else as 0. |
| Matcher.FrameValueRange | video_copy/matcher.py:111-114 | A video's value in one frame is 0, or above 0.5 and at most the largest hit score. |
| Matcher.UnnamedIsZero | video_copy/matcher.py:111-114 | A video without a hit in a frame has value 0 there. |
| Matcher.FrameScores | video_copy/matcher.py:111-114 | The per-frame map has exactly the videos hit in the frame, each with its best cut score. |
| Matcher.AddFrame | video_copy/matcher.py:115-116 | Adding a frame keys the running map by the old keys plus the frame's videos. Each value grows by alpha times the frame value. |
| Matcher.WeightedIsScaled | video_copy/matcher.py:107-116 | Accumulating alpha-weighted frame values equals alpha times their sum. |
| Matcher.AccumulateFrame | video_copy/matcher.py:109-116 | One loop iteration extends "scores are the weighted sums over the frames so far" by one frame. |
| Matcher.Search | video_copy/matcher.py:92-117 | Zero frames is the ZeroDivisionError. Otherwise a video appears exactly when some frame hit it, even with score 0, and its score is the mean of its frame values over all frames. |
| Matcher.FrameSumRange | video_copy/matcher.py:111-116 | With hit scores at most `top`, a video's sum of frame values lies in [0, frames·top]. |
| Matcher.ScoreInUnitRange | video_copy/matcher.py:107-116 | With hit scores at most 1, every final score lies in [0, 1]. |
| Matcher.SortFrames | video_copy/matcher.py:65 | A listing sorts exactly when every name has a numeric stem. The result is then a permutation ordered by number, so "10.jpg" follows "9.jpg". |
| Matcher.ExtractFrames | video_copy/matcher.py:49-67 | The frame paths are the directory joined with the numerically sorted names. A non-numeric name is the ValueError. |
| Matcher.FrameFileNumber | video_copy/matcher.py:62-65 | The number read back from the file name ffmpeg writes for frame k is k. |
| Matcher.FramesComeInOrder | video_copy/matcher.py:62-65 | Any listing of the files "1.jpg"…"n.jpg" sorts into frame order. |
| Matcher.LoadReference | video_copy/matcher.py:82-89 | Payload i is frame i+1 of the uploaded video. The ids are the contiguous range from the collection's point count, both increasing. |
| Matcher.PayloadNamesItsFrame | video_copy/matcher.py:78-89 | The frame number in payload i names the i-th extracted frame file. |
| Matcher.SuccessiveUploadsDisjoint | video_copy/matcher.py:83-89 | Two successive uploads get disjoint ids that together form one contiguous range. |
| Tmk.Strip | tmk_full.py:223 | Stripping leaves no whitespace at either end, and whitespace-only text strips to "". |
| Tmk.StripIsTrimmedSlice | tmk_full.py:223 | The stripped text is a contiguous slice of the input, and only whitespace lies before and after it. |
| Tmk.SplitLines | tmk_full.py:223 | No line holds a line break, and only empty text has no lines. |
| Tmk.SplitLinesJoin | tmk_full.py:223 | Splitting '\n'-joined break-free lines, the last non-empty, gives back the lines. |
| Tmk.LastUuid | tmk_full.py:224 | The greedy `.*` picks the rightmost '/' that opens an id followed by ".tmk". No later '/' does so. |
| Tmk.PathUuid | tmk_full.py:224 | An id read from a path is a non-empty run of `[a-f0-9-]`. |
| Tmk.MatchLine | tmk_full.py:224-227 | A matching line has a valid header and a non-empty id of `[a-f0-9-]` characters. |
| Tmk.MatchIsAnchored | tmk_full.py:224 | `re.match` anchors the pattern: a line that matches begins with "clidx=". |
| Tmk.LeadingTextIsNoMatch | tmk_full.py:224 | A cluster line preceded by text that does not begin with 'c' does not match. |
| Tmk.HeadHeader | tmk_full.py:224 | A printed `clidx=<n>,clusz=<m>,filename=` head reads back its two numerals, whatever follows it. |
| Tmk.ClusterLineRoundTrip | tmk_full.py:224-227 | A line printed as `clidx=<n>,clusz=<m>,filename=<dir>/<id>.tmk` parses back to (n, m, id). |
| Tmk.IndexedIffListed | tmk_full.py:228-230 | A cluster index is a key exactly when its list of ids is non-empty. |
| Tmk.UuidsOfAppend | tmk_full.py:228-230 | A cluster's ids keep input line order across concatenated outputs, with repeats kept. |
| Tmk.ParseStep | tmk_full.py:225-230 | Each loop iteration extends "clusters are the matched lines so far" by one line. Non-matching lines are skipped. |
| Tmk.ParseClusterOutput | tmk_full.py:213-231 | The keys are exactly the cluster indices of matching lines. Each list holds that cluster's ids in line order, repeats kept, and is non-empty. |
| Tmk.BlankOutputHasNoClusters | tmk_full.py:222-225 | Empty or whitespace-only output gives no lines and no clusters. |
| Tmk.NotSimilarSaysSimilar | tmk_full.py:248-250 | Any output containing "not similar" also contains "similar". |
| Tmk.CompareOutcome | tmk_full.py:246-253 | As written, the result is never False. It is True exactly when the lowercased output contains "similar", and None otherwise or on an error. |
| Tmk.CompareIntended | tmk_full.py:242-253 | As documented: False exactly for "not similar", True for "similar" otherwise, and None when neither appears or on an error. |
| Tmk.CompareDiffersOnlyOnNotSimilar | tmk_full.py:247-253 | The written and documented classifiers disagree exactly on outputs containing "not similar". |
| Tmk.NotSimilarReadAsSimilar | tmk_full.py:247-253 | The output "Not similar" is read as True, where False was documented. |

## Left out

- **Storage and I/O.** Object storage, the broker client, the Postgres driver, temporary
  files and the ffmpeg/ffprobe/TMK subprocesses are I/O. Instead:
  - the store is a map of rows;
  - the broker is a sequence of published requests;
  - an upload is a parameter carrying its file names and hash;
  - a tool's output is a parameter.
- **Hashing.** MD5 hashing of the upload is an uninterpreted value inside the upload record.
- **`GetTasks`** (bff/internal/controller/task_controller/task_controller.go:431-455). Its
  paging and its count query are store calls. Its conversion is `Mappers.TaskSliceToModel`.
- **HTTP glue.** The catalogue notifications (`UploadToDatabaseAudio/Video`), the polling
  `runCopyright`, the HTTP routes and process start-up are network and timer glue.
  - The video notification sends the audio URL.
  - The polling loop only stops on Done or on an error, so a Failed task is polled forever.
- **Topic configuration.** bff/pkg/config/config.go:27-28 cross-wires the result topics.
  `Fusion.FusedSymmetric` shows that this cannot change the fused scores.
- **Concurrency.**
  - Goroutines are modelled as interleavings of atomic store steps.
  - A dispatch runs as a queued job at any later point.
  - The store's own concurrency control is not modelled.
- **Floats.** Floating point is exact `real`.
  - Go's 0/0 is NaN, and NaN passes the `< 0.75` filter. Fusion therefore requires every
    common name to have a non-zero probability sum.
  - Python float formatting and `int()` of very large floats are not modelled.
- **ML and vector search.** Model inference, embedding, vector-database calls and the
  workers' HTTP/consumer loops are foreign code. Search hits and matched paths are inputs.
  The hit limit of five per frame is not enforced.
- **JSON.** JSON is modelled by its decoded shape (`TaskModel.Wire`), not by bytes. Marshal
  errors cannot happen for these types and are not modelled.
  - Keys match tags by ASCII case folding. Go's folding also maps a few non-ASCII letters
    (the long s and the Kelvin sign) onto ASCII ones, which the model does not.
  - Numbers outside the int64 range are not modelled as errors for `task_id`: an integer
    value is any `int`. A fractional or exponent number for `task_id` is a `Decimal` value
    and is rejected, as Go rejects it (`TaskModel.FractionalIdRejected`).
  - A candidate array is one value; its elements are not decoded member by member.
- **Cluster key order.** `parse_tmk_cluster_output` returns a dict whose key order is the
  order in which clusters first appear, and that order reaches the JSON reply at
  tmk_full.py:374-376. `Tmk.ParseClusterOutput` returns a map, so the model drops that
  order and states only keys and lists.
- Ffmpeg.ParseClock: Go's `time.Parse` is modelled only for the layout "15:04:05":
  - an hour of one or two digits;
  - a two-digit minute and second;
  - an optional ','-fraction. A '.' cannot reach it after the split.
  Other layouts and time zones are not modelled.
- VideoClipper.SegmentTimes: a negative step is modelled (descending `range`), but the
  contract says nothing about that case. The source never passes a negative step.
- Wav2Vec.MergeTuples: the clause that no gap wider than 100 is bridged is promised only
  when every input interval has start ≤ end. Intervals with start > end are not time spans,
  and nothing in wav2vec/wav2vec.py calls `merge_tuples`, so no caller builds them.
- Wav2Vec.ProcessSearchResults: `max_inp_index` and `search_results_count` are computed
  and never used, so they are not modelled.
- Tmk.MatchLine: `\d` and the `int()` conversion are modelled for ASCII digits only.
  Python's `\d` also matches other Unicode decimal digits.
- Tmk.CompareOutcome: lowercasing is modelled for ASCII letters only. Python's
  `str.lower` also folds other alphabets, which cannot affect the ASCII words searched for.
- Matcher.SortFrames: `int()` of a stem is modelled as a non-empty ASCII digit string.
  Python also accepts a sign, surrounding whitespace and underscores. The contract does not
  state the sort's stability; only names such as "01.jpg" and "1.jpg" could tie.
- Sorting.SortBy: the model sort is one particular sort. The contracts state only what
  any sort gives (a key-ordered permutation), because Go's `sort.Slice` is not stable. So
  when scores tie, `Fusion.Select` promises only a survivor with the lowest score, not which
  one.

## Findings

| source | as written | input that shows it | evidently intended | confidence | as-written member | corrected member |
|---|---|---|---|---|---|---|
| bff/http.go:313-319 | `for i := range finProbs` fixes the bound at the original length while the body shrinks the slice | fused scores {A: 0.5, B: 0.9} iterated A first: the swap-remove leaves one entry, and i = 1 indexes past it | drop exactly the entries below 0.75 | not executed | Fusion.FilterLoop, Fusion.FilterLoopPanicExample | Fusion.KeepAtThreshold |
| bff/internal/controller/task_controller/task_controller.go:284-307 | the fast path stores a marshalled bare `Copyright`, which decodes as a `KafkaResponse` with no candidates | any upload whose hash matches an original | store the `{task_id, copyright: [{videos[0], 1}]}` envelope, so the task reads back as a duplicate of that original | not executed | TaskController.FastPathVerdictIsEmpty | TaskController.FastPathEnvelopeVerdict |
| tmk_full.py:247-253 | `"similar" in output` is tested before `"not similar" in output`, so the False branch is unreachable. The defect is latent: nothing in tmk_full.py calls `compare_two_tmks` (line 234) | tool output "Not similar" | False for "not similar", as the docstring says | not executed | Tmk.CompareOutcome, Tmk.NotSimilarReadAsSimilar | Tmk.CompareIntended |

`Fusion.IsCopyrighted` uses the corrected filter. `TaskController.CreateTask` takes the
payload encoding as a parameter, so both versions are modelled.

=== FILE: ffmpeg.dfy ===
/**
 * The duration arithmetic of the orchestrator's video helper
 * (bff/internal/pkg/ffmpeg/ffmpeg.go): reading ffprobe's sexagesimal
 * duration, halving it, and printing the seek position for the preview frame.
 *
 * Durations are Go `time.Duration` values, integers of nanoseconds.
 */
module Ffmpeg {
  import opened Wrappers
  import opened Strs

  const NanosPerSecond: int := 1_000_000_000
  const SecondsPerDay: int := 86400

  /**
   * From 0000-01-01, the date `time.Parse` gives a layout that names no date,
   * to 0001-01-01, the zero `time.Time`: 366 days, as year 0 is a leap year.
   */
  const YearZeroNanos: int := 366 * SecondsPerDay * NanosPerSecond

  datatype ParseError = WrongTimeOutput | BadClock

  /** A time of day as `time.Parse` reads it from layout "15:04:05". */
  datatype Clock = Clock(hour: nat, minute: nat, second: nat, nanos: nat)

  function ClockNanos(c: Clock): int {
    ((c.hour * 60 + c.minute) * 60 + c.second) * NanosPerSecond + c.nanos
  }

  // ---------------------------------------------------------------------------
  // time.Parse("15:04:05", s)
  // ---------------------------------------------------------------------------

  /** Go's `getnum(s, fixed)`: one or two leading digits, greedily; `fixed` demands two. */
  function GetNum(s: string, fixed: bool): (r: Option<(nat, string)>)
    ensures r.Some? ==> r.value.0 < 100
    ensures r.Some? ==> |r.value.1| < |s| && r.value.1 == s[|s| - |r.value.1|..]
    ensures r.Some? && fixed ==> |s| >= 2 && r.value.1 == s[2..]
  {
    if |s| == 0 || !IsDigit(s[0]) then None
    else if |s| < 2 || !IsDigit(s[1]) then (if fixed then None else Some((DigitValue(s[0]), s[1..])))
    else Some((DigitValue(s[0]) * 10 + DigitValue(s[1]), s[2..]))
  }

  /** The length of the run of digits that starts `s`. */
  function DigitRun(s: string): (n: nat)
    ensures n <= |s| && AllDigits(s[..n])
    ensures n < |s| ==> !IsDigit(s[n])
  {
    if |s| == 0 || !IsDigit(s[0]) then 0
    else
      var n := 1 + DigitRun(s[1..]);
      assert s[..n] == [s[0]] + s[1..][..n - 1];
      n
  }

  /** `parseNanoseconds`: up to nine fraction digits count, scaled to nanoseconds; later digits are ignored. */
  function FractionNanos(digits: string): (ns: nat)
    requires AllDigits(digits)
    ensures ns < NanosPerSecond
  {
    var used := if |digits| > 9 then digits[..9] else digits;
    DecimalBound(used);
    MultiplyStrict(DecimalValue(used), Pow10(|used|), Pow10(9 - |used|));
    Pow10Add(|used|, 9 - |used|);
    Pow10Nine();
    DecimalValue(used) * Pow10(9 - |used|)
  }

  /**
   * `time.Parse("15:04:05", s)`: an hour of one or two digits below 24, a
   * colon, two-digit minutes and seconds below 60, then optionally a comma or
   * period followed by fraction digits, and nothing else.
   */
  function ParseClock(s: string): (r: Result<Clock, ParseError>)
    ensures r.Success? ==> r.value.hour < 24 && r.value.minute < 60 && r.value.second < 60
    ensures r.Success? ==> r.value.nanos < NanosPerSecond
  {
    match GetNum(s, false)
    case None => Failure(BadClock)
    case Some((hour, s1)) =>
      if hour >= 24 || |s1| == 0 || s1[0] != ':' then Failure(BadClock)
      else match GetNum(s1[1..], true)
      case None => Failure(BadClock)
      case Some((minute, s2)) =>
        if minute >= 60 || |s2| == 0 || s2[0] != ':' then Failure(BadClock)
        else match GetNum(s2[1..], true)
        case None => Failure(BadClock)
        case Some((second, s3)) =>
          if second >= 60 then Failure(BadClock)
          else if |s3| == 0 then Success(Clock(hour, minute, second, 0))
          else match Fraction(s3)
            case None => Failure(BadClock)
            case Some(ns) => Success(Clock(hour, minute, second, ns))
  }

  /** What may follow the seconds: a comma or period and then only digits, read as nanoseconds. */
  function Fraction(s: string): (r: Option<nat>)
    ensures r.Some? ==> r.value < NanosPerSecond
    ensures r.Some? ==> |s| >= 2 && (s[0] == ',' || s[0] == '.') && AllDigits(s[1..])
  {
    if |s| >= 2 && (s[0] == ',' || s[0] == '.') && IsDigit(s[1]) then
      var n := 1 + DigitRun(s[1..]);
      if n < |s| then None
      else
        assert s[1..][..n - 1] == s[1..];
        Some(FractionNanos(s[1..]))
    else None
  }

  /** One or two digits read as a number. */
  lemma SmallDecimal(t: string)
    requires AllDigits(t) && 1 <= |t| <= 2
    ensures DecimalValue(t) == if |t| == 1 then DigitValue(t[0]) else DigitValue(t[0]) * 10 + DigitValue(t[1])
  {
    assert t[..|t| - 1][..0] == [];
    if |t| == 2 {
      assert t[..1][..0] == [] && t[..1][0] == t[0];
    }
  }

  /** What `getnum` accepts and consumes: a leading digit and, greedily, a second one, which `fixed` demands. */
  lemma GetNumReads(s: string, fixed: bool)
    ensures GetNum(s, fixed).Some? <==> |s| > 0 && IsDigit(s[0]) && (!fixed || (|s| >= 2 && IsDigit(s[1])))
    ensures GetNum(s, fixed).Some? ==>
      var w := if |s| >= 2 && IsDigit(s[1]) then 2 else 1;
      GetNum(s, fixed).value == (DecimalValue(s[..w]), s[w..])
  {
    if |s| > 0 && IsDigit(s[0]) {
      var w := if |s| >= 2 && IsDigit(s[1]) then 2 else 1;
      SmallDecimal(s[..w]);
    }
  }

  /** The fraction is accepted exactly when a comma or period is followed by one or more digits and nothing else. */
  lemma FractionReads(s: string)
    ensures Fraction(s).Some? <==> |s| >= 2 && (s[0] == ',' || s[0] == '.') && AllDigits(s[1..])
    ensures Fraction(s).Some? ==> Fraction(s).value == FractionNanos(s[1..])
  {
    if |s| >= 2 && (s[0] == ',' || s[0] == '.') && AllDigits(s[1..]) {
      assert IsDigit(s[1..][0]);
      var n := 1 + DigitRun(s[1..]);
      assert n == |s|;
    }
  }

  /**
   * `s` has the shape layout "15:04:05" demands, with an hour field `hw`
   * digits wide: the hour digits, ':', two minute digits, ':', two second
   * digits, then either nothing or a comma or period followed by one or more
   * digits and nothing else.
   */
  predicate ShapedWith(s: string, hw: nat) {
    && 1 <= hw <= 2 && hw + 6 <= |s|
    && AllDigits(s[..hw]) && s[hw] == ':'
    && AllDigits(s[hw + 1..hw + 3]) && s[hw + 3] == ':'
    && AllDigits(s[hw + 4..hw + 6])
    && (|s| == hw + 6 || (|s| >= hw + 8 && (s[hw + 6] == ',' || s[hw + 6] == '.') && AllDigits(s[hw + 7..])))
  }

  predicate ClockShaped(s: string) {
    ShapedWith(s, 1) || ShapedWith(s, 2)
  }

  /** The clock a well-shaped text spells: its three numerals, and its fraction digits as nanoseconds. */
  function Spelled(s: string): Clock
    requires ClockShaped(s)
  {
    var hw := if ShapedWith(s, 1) then 1 else 2;
    Clock(DecimalValue(s[..hw]), DecimalValue(s[hw + 1..hw + 3]), DecimalValue(s[hw + 4..hw + 6]),
          if |s| == hw + 6 then 0 else FractionNanos(s[hw + 7..]))
  }

  /** The fields lie in range: hour below 24, minute and second below 60. */
  predicate InDay(c: Clock) {
    c.hour < 24 && c.minute < 60 && c.second < 60
  }

  /**
   * `time.Parse("15:04:05", s)` succeeds exactly on the texts of the layout's
   * shape whose fields are in range, and then yields the clock they spell;
   * trailing text, a missing field, a one-digit minute or second, or a field
   * out of range is an error.
   */
  lemma ParseClockExactly(s: string)
    ensures ParseClock(s).Success? <==> ClockShaped(s) && InDay(Spelled(s))
    ensures ParseClock(s).Success? ==> ParseClock(s).value == Spelled(s)
  {
    if ParseClock(s).Success? {
      SuccessIsShaped(s);
    }
    if ShapedWith(s, 1) {
      ShapedParses(s, 1);
    } else if ShapedWith(s, 2) {
      ShapedParses(s, 2);
    }
  }

  /** Only a text of the layout's shape parses. */
  lemma SuccessIsShaped(s: string)
    requires ParseClock(s).Success?
    ensures ClockShaped(s)
  {
    GetNumReads(s, false);
    var w := if |s| >= 2 && IsDigit(s[1]) then 2 else 1;
    assert s[w] == ':' && AllDigits(s[..w]);
    assert s[w..][1..] == s[w + 1..];
    GetNumReads(s[w + 1..], true);
    assert s[w + 1..][2..] == s[w + 3..] && s[w + 1..][..2] == s[w + 1..w + 3];
    assert s[w + 3] == ':';
    assert s[w + 3..][1..] == s[w + 4..];
    GetNumReads(s[w + 4..], true);
    assert s[w + 4..][2..] == s[w + 6..] && s[w + 4..][..2] == s[w + 4..w + 6];
    var s3 := s[w + 6..];
    if |s3| > 0 {
      FractionReads(s3);
      assert s3[1..] == s[w + 7..];
    }
    assert ShapedWith(s, w);
  }

  /** A text of the layout's shape parses to the clock it spells when its fields are in range. */
  lemma ShapedParses(s: string, hw: nat)
    requires ShapedWith(s, hw)
    ensures ClockShaped(s)
    ensures ParseClock(s) == if InDay(Spelled(s)) then Success(Spelled(s)) else Failure(BadClock)
  {
    HourField(s, hw);
    assert s[hw..][1..] == s[hw + 1..];
    FixedField(s, hw + 1);
    assert s[hw + 3..][1..] == s[hw + 4..];
    FixedField(s, hw + 4);
    var s3 := s[hw + 6..];
    if |s3| > 0 {
      assert s3[1..] == s[hw + 7..];
      FractionReads(s3);
    }
  }

  /** The hour of a well-shaped text is read by `getnum` as its `hw` digits. */
  lemma HourField(s: string, hw: nat)
    requires ShapedWith(s, hw)
    ensures GetNum(s, false) == Some((DecimalValue(s[..hw]), s[hw..]))
    ensures Spelled(s).hour == DecimalValue(s[..hw])
    ensures Spelled(s).minute == DecimalValue(s[hw + 1..hw + 3]) && Spelled(s).second == DecimalValue(s[hw + 4..hw + 6])
    ensures Spelled(s).nanos == if |s| == hw + 6 then 0 else FractionNanos(s[hw + 7..])
  {
    assert IsDigit(s[..hw][0]);
    assert hw == 2 <==> IsDigit(s[1]) by {
      if hw == 2 { assert IsDigit(s[..hw][1]); }
    }
    GetNumReads(s, false);
  }

  /** Two digits at `k` are read by a fixed-width `getnum` as their value. */
  lemma FixedField(s: string, k: nat)
    requires k + 2 <= |s| && AllDigits(s[k..k + 2])
    ensures GetNum(s[k..], true) == Some((DecimalValue(s[k..k + 2]), s[k + 2..]))
  {
    assert IsDigit(s[k..k + 2][0]) && IsDigit(s[k..k + 2][1]);
    GetNumReads(s[k..], true);
    assert s[k..][2..] == s[k + 2..] && s[k..][..2] == s[k..k + 2];
  }

  /** A parsed time of day lies within one day. */
  lemma ClockWithinDay(c: Clock)
    requires c.hour < 24 && c.minute < 60 && c.second < 60 && c.nanos < NanosPerSecond
    ensures 0 <= ClockNanos(c) < SecondsPerDay * NanosPerSecond
  {
    var secs := (c.hour * 60 + c.minute) * 60 + c.second;
    assert secs < SecondsPerDay;
    MultiplyMono(secs, SecondsPerDay - 1, NanosPerSecond);
  }

  // ---------------------------------------------------------------------------
  // parseTime, Format and the preview seek position
  // ---------------------------------------------------------------------------

  /**
   * `parseTime`: the output must contain exactly one period; the text before
   * it is read as a clock time and whatever follows it is dropped. The result
   * is `tt.Sub(time.Time{})`, which measures from year 1 although `tt` lies in
   * year 0, so it is the clock reading minus 366 days.
   */
  function ParseTime(t: string): (r: Result<int, ParseError>)
    ensures |Split(t, '.')| != 2 ==> r == Failure(WrongTimeOutput)
    ensures r.Success? ==> -YearZeroNanos <= r.value < SecondsPerDay * NanosPerSecond - YearZeroNanos
  {
    var sp := Split(t, '.');
    if |sp| != 2 then Failure(WrongTimeOutput)
    else match ParseClock(sp[0])
      case Failure(_) => Failure(BadClock)
      case Success(c) =>
        ClockWithinDay(c);
        Success(ClockNanos(c) - YearZeroNanos)
  }

  /** Layout elements "15", "04" and "05" when formatting: two digits, zero-padded. */
  function TwoDigits(n: nat): (r: string)
    requires n < 100
    ensures |r| == 2 && AllDigits(r)
    ensures DigitValue(r[0]) * 10 + DigitValue(r[1]) == n
  {
    [DigitChar(n / 10), DigitChar(n % 10)]
  }

  /** Seconds since midnight at `d` nanoseconds after the Unix epoch (Dafny's `/` and `%` are floor-based here). */
  function TimeOfDay(d: int): (s: int)
    ensures 0 <= s < SecondsPerDay
  {
    (d / NanosPerSecond) % SecondsPerDay
  }

  /** `timespan(d).Format("15:04:05")`: the clock time of the Unix epoch plus `d`; the date is not printed. */
  function Format(d: int): (r: string)
    ensures |r| == 8 && r[2] == ':' && r[5] == ':'
  {
    var s := TimeOfDay(d);
    TwoDigits(s / 3600) + ":" + TwoDigits(s / 60 % 60) + ":" + TwoDigits(s % 60)
  }

  /** Go's `d /= 2` on an `int64`: division truncates toward zero. */
  function GoHalf(d: int): (r: int)
    ensures d >= 0 ==> 0 <= r && d - 1 <= 2 * r <= d
    ensures d < 0 ==> r <= 0 && d <= 2 * r <= d + 1
  {
    if d >= 0 then d / 2 else -((-d) / 2)
  }

  /**
   * The seek argument `GetScreenshotFromVideo` passes to ffmpeg: the parsed
   * duration halved and formatted; an unparsable duration is an error.
   */
  function ScreenshotSeek(probe: string): (r: Result<string, ParseError>)
    ensures r.Success? <==> ParseTime(probe).Success?
    ensures r.Success? ==> |r.value| == 8
  {
    match ParseTime(probe)
    case Failure(e) => Failure(e)
    case Success(length) => Success(Format(GoHalf(length)))
  }

  /** Formatting reads back: `time.Parse` of the printed text is the time of day printed. */
  lemma FormatParsesBack(d: int)
    ensures ParseClock(Format(d)).Success?
    ensures ClockNanos(ParseClock(Format(d)).value) == TimeOfDay(d) * NanosPerSecond
  {
    var s := TimeOfDay(d);
    PaddedClockParses(s / 3600, s / 60 % 60, s % 60);
    SexagesimalSplit(s);
  }

  /** "HH:MM:SS" with zero-padded fields parses as that time of day. */
  lemma PaddedClockParses(h: nat, m: nat, sec: nat)
    requires h < 24 && m < 60 && sec < 60
    ensures ParseClock(TwoDigits(h) + ":" + TwoDigits(m) + ":" + TwoDigits(sec)) == Success(Clock(h, m, sec, 0))
  {
    var hh, mm, ss := TwoDigits(h), TwoDigits(m), TwoDigits(sec);
    var f := hh + ":" + mm + ":" + ss;
    assert f[..2] == hh && f[2] == ':' && f[3..5] == mm && f[5] == ':' && f[6..] == ss;
    assert GetNum(f, false) == Some((h, f[2..]));
    assert f[2..][1..] == f[3..];
    assert GetNum(f[3..], true) == Some((m, f[5..]));
    assert f[5..][1..] == f[6..];
    assert GetNum(ss, true) == Some((sec, []));
  }

  /** Hours, minutes and seconds of a second count recombine to it. */
  lemma SexagesimalSplit(s: nat)
    ensures ((s / 3600 * 60 + s / 60 % 60) * 60 + s % 60) == s
  {
    var q := s / 60;
    assert s == q * 60 + s % 60;
    assert q == (q / 60) * 60 + q % 60;
    assert q / 60 == s / 3600 by {
      DivUnique(s, 3600, q / 60, (q % 60) * 60 + s % 60);
    }
  }

  /** Whole days added to a duration do not change its formatted clock time. */
  lemma FormatIgnoresWholeDays(d: int, k: int)
    ensures Format(d + k * SecondsPerDay * NanosPerSecond) == Format(d)
  {
    var e := d + k * SecondsPerDay * NanosPerSecond;
    assert e / NanosPerSecond == d / NanosPerSecond + k * SecondsPerDay;
    assert TimeOfDay(e) == TimeOfDay(d);
  }

  /**
   * The year-0 offset of `parseTime` does not show in the seek position: the
   * printed value is the clock reading halved (rounded up to the nanosecond),
   * and for a whole number of seconds it is exactly what halving the true
   * duration prints.
   */
  lemma ScreenshotSeekIsHalfClock(probe: string)
    requires ParseTime(probe).Success?
    ensures |Split(probe, '.')| == 2 && ParseClock(Split(probe, '.')[0]).Success?
    ensures var c := ClockNanos(ParseClock(Split(probe, '.')[0]).value);
      ScreenshotSeek(probe) == Success(Format((c + 1) / 2))
    ensures var clock := ParseClock(Split(probe, '.')[0]).value;
      clock.nanos == 0 ==> ScreenshotSeek(probe) == Success(Format(GoHalf(ClockNanos(clock))))
  {
    var clock := ParseClock(Split(probe, '.')[0]).value;
    assert ScreenshotSeek(probe) == Success(Format(GoHalf(ClockNanos(clock) - YearZeroNanos)));
    HalfClock(clock);
  }

  /** For a parsed time of day, the printed half of the shifted duration is the printed half of the reading. */
  lemma HalfClock(clock: Clock)
    requires clock.hour < 24 && clock.minute < 60 && clock.second < 60 && clock.nanos < NanosPerSecond
    ensures Format(GoHalf(ClockNanos(clock) - YearZeroNanos)) == Format((ClockNanos(clock) + 1) / 2)
    ensures clock.nanos == 0 ==> Format(GoHalf(ClockNanos(clock) - YearZeroNanos)) == Format(GoHalf(ClockNanos(clock)))
  {
    ClockWithinDay(clock);
    SeekOfClock(ClockNanos(clock));
    if clock.nanos == 0 {
      WholeClockHalf(clock);
    }
  }

  /** A reading of whole seconds is an even number of nanoseconds, so rounding its half up changes nothing. */
  lemma WholeClockHalf(clock: Clock)
    requires clock.nanos == 0
    ensures (ClockNanos(clock) + 1) / 2 == GoHalf(ClockNanos(clock))
  {
    WholeSecondsAreEven((clock.hour * 60 + clock.minute) * 60 + clock.second);
  }

  /** The halved shifted duration prints as the clock reading halved, rounded up. */
  lemma SeekOfClock(c: int)
    requires 0 <= c < SecondsPerDay * NanosPerSecond
    ensures Format(GoHalf(c - YearZeroNanos)) == Format((c + 1) / 2)
  {
    HalfOfShifted(c);
    FormatIgnoresWholeDays((c + 1) / 2, -183);
  }

  /** Truncating division of the shifted duration, as ceiling division of the clock reading less 183 days. */
  lemma HalfOfShifted(c: int)
    requires 0 <= c < SecondsPerDay * NanosPerSecond
    ensures GoHalf(c - YearZeroNanos) == (c + 1) / 2 - 183 * SecondsPerDay * NanosPerSecond
  {
    var half := 183 * SecondsPerDay * NanosPerSecond;
    assert YearZeroNanos == 2 * half;
    var q := c / 2;
    var r := c % 2;
    assert c == 2 * q + r;
    assert -(c - YearZeroNanos) == 2 * (half - q) - r;
    if r == 0 {
      assert (2 * (half - q)) / 2 == half - q;
    } else {
      assert (2 * (half - q) - 1) / 2 == half - q - 1;
    }
  }

  lemma WholeSecondsAreEven(secs: nat)
    ensures (secs * NanosPerSecond + 1) / 2 == (secs * NanosPerSecond) / 2 == GoHalf(secs * NanosPerSecond)
  {
    var x := secs * 500_000_000;
    assert secs * NanosPerSecond == 2 * x;
    DivUnique(2 * x + 1, 2, x, 1);
    DivUnique(2 * x, 2, x, 0);
  }

  /** The clock part "H:MM:SS" of a duration reading, the hour unpadded. */
  function ClockText(h: nat, m: nat, sec: nat): string
    requires h < 100 && m < 100 && sec < 100
  {
    NatToDecimal(h) + ":" + TwoDigits(m) + ":" + TwoDigits(sec)
  }

  /** A duration reading "H:MM:SS.fraction" as ffprobe prints it with `-sexagesimal`. */
  function Reading(h: nat, m: nat, sec: nat, tail: string): string
    requires h < 100 && m < 100 && sec < 100
  {
    ClockText(h, m, sec) + "." + tail
  }

  lemma HourPrefix(h: nat, rest: string)
    requires h < 100 && |rest| > 0 && rest[0] == ':'
    ensures GetNum(NatToDecimal(h) + rest, false) == Some((h, rest))
  {
    var hs := NatToDecimal(h);
    if h < 10 {
      assert hs == [DigitChar(h)];
    } else {
      assert NatToDecimal(h / 10) == [DigitChar(h / 10)];
      assert hs == [DigitChar(h / 10), DigitChar(h % 10)];
    }
    assert (hs + rest)[|hs|..] == rest;
  }

  lemma ClockTextParses(h: nat, m: nat, sec: nat)
    requires h < 24 && m < 60 && sec < 60
    ensures ParseClock(ClockText(h, m, sec)) == Success(Clock(h, m, sec, 0))
  {
    var rest := ":" + TwoDigits(m) + ":" + TwoDigits(sec);
    assert ClockText(h, m, sec) == NatToDecimal(h) + rest;
    HourPrefix(h, rest);
    var mm := rest[1..];
    assert GetNum(mm, true) == Some((m, mm[2..]));
    assert mm[2..][1..] == TwoDigits(sec);
    assert GetNum(TwoDigits(sec), true) == Some((sec, []));
  }

  lemma SplitReading(h: nat, m: nat, sec: nat, tail: string)
    requires h < 100 && m < 100 && sec < 100
    requires '.' !in tail
    ensures Split(Reading(h, m, sec, tail), '.') == [ClockText(h, m, sec), tail]
  {
    var hs := NatToDecimal(h);
    var clock := ClockText(h, m, sec);
    assert '.' !in clock by {
      forall i | 0 <= i < |clock| ensures clock[i] != '.' {
        if i < |hs| { assert clock[i] == hs[i]; }
      }
    }
    SplitConcat(clock, '.', tail);
    SplitWithoutSeparator(clock, '.');
    SplitWithoutSeparator(tail, '.');
  }

  /**
   * `parseTime` reads a well-formed duration as its whole seconds, dropping
   * the fraction after the period, less the 366-day year-0 offset.
   */
  lemma ReadingParses(h: nat, m: nat, sec: nat, tail: string, secs: nat)
    requires h < 24 && m < 60 && sec < 60
    requires '.' !in tail
    requires secs == (h * 60 + m) * 60 + sec
    ensures ParseTime(Reading(h, m, sec, tail)) == Success(secs * NanosPerSecond - YearZeroNanos)
  {
    SplitReading(h, m, sec, tail);
    ClockTextParses(h, m, sec);
  }

  lemma SeekOfReading(h: nat, m: nat, sec: nat, tail: string, secs: nat)
    requires h < 24 && m < 60 && sec < 60
    requires '.' !in tail
    requires secs == (h * 60 + m) * 60 + sec
    ensures ScreenshotSeek(Reading(h, m, sec, tail)) == Success(Format(GoHalf(secs * NanosPerSecond - YearZeroNanos)))
  {
    ReadingParses(h, m, sec, tail, secs);
  }

  /** Halving a reading of whole seconds: the seek position is half the seconds, rounded down. */
  lemma ScreenshotOfReading(h: nat, m: nat, sec: nat, tail: string, secs: nat)
    requires h < 24 && m < 60 && sec < 60
    requires '.' !in tail
    requires secs == (h * 60 + m) * 60 + sec
    ensures ScreenshotSeek(Reading(h, m, sec, tail)) == Success(Format(secs / 2 * NanosPerSecond))
  {
    SeekOfReading(h, m, sec, tail, secs);
    SeekOfWholeSeconds(secs);
  }

  lemma SeekOfWholeSeconds(secs: nat)
    requires secs < SecondsPerDay
    ensures Format(GoHalf(secs * NanosPerSecond - YearZeroNanos)) == Format(secs / 2 * NanosPerSecond)
  {
    var c := secs * NanosPerSecond;
    MultiplyMono(secs, SecondsPerDay - 1, NanosPerSecond);
    HalfOfShifted(c);
    WholeSecondsAreEven(secs);
    var x := c / 2;
    assert GoHalf(c - YearZeroNanos) == x + (-183) * SecondsPerDay * NanosPerSecond;
    FormatIgnoresWholeDays(x, -183);
    HalfSecondsFormat(secs);
  }

  lemma HalfSecondsFormat(secs: nat)
    ensures Format((secs * NanosPerSecond) / 2) == Format(secs / 2 * NanosPerSecond)
  {
    var q, r := secs / 2, secs % 2;
    assert secs * NanosPerSecond == q * 2 * NanosPerSecond + r * NanosPerSecond;
    assert (secs * NanosPerSecond) / 2 == q * NanosPerSecond + r * 500_000_000;
    assert (secs * NanosPerSecond) / 2 / NanosPerSecond == q;
    assert (q * NanosPerSecond) / NanosPerSecond == q;
  }

  /** A video of 0:01:23 and any fraction is previewed at 00:00:41. */
  lemma ScreenshotExample(fraction: string)
    requires '.' !in fraction
    ensures ScreenshotSeek(Reading(0, 1, 23, fraction)) == Success("00:00:41")
  {
    ScreenshotOfReading(0, 1, 23, fraction, 83);
    assert 83 / 2 * NanosPerSecond == 41_000_000_000;
    FormatExample(41_000_000_000);
  }

  lemma FormatExample(d: int)
    requires 41 * NanosPerSecond <= d < 42 * NanosPerSecond
    ensures Format(d) == "00:00:41"
  {
    DivUnique(d, NanosPerSecond, 41, d - 41 * NanosPerSecond);
    assert TimeOfDay(d) == 41;
    assert DigitChar(0) == '0' && DigitChar(4) == '4' && DigitChar(1) == '1';
    assert TwoDigits(0) == "00" && TwoDigits(41) == "41";
  }
}

=== FILE: fusion.dfy ===
/**
 * Score fusion (`isCopyrighted` in bff/http.go): turns the video and audio
 * candidate lists of a finished task into a verdict.
 *
 * Map iteration order, which Go randomises, is an argument (`order`). The
 * source's swap-remove filter loop is modelled as written by `FilterLoop`; the
 * verdict uses `KeepAtThreshold`, the filter the loop evidently means.
 */
module Fusion {
  import opened TaskModel
  import opened Sorting

  /** Fused scores below this are discarded; a score equal to it is kept. */
  const Threshold: real := 0.75

  /** What `isCopyrighted` returns: the reported reference name and the duplicate flag. */
  datatype Verdict = Verdict(name: string, duplicate: bool)

  /** No later entry of `s` has the same name as entry `i`. */
  predicate IsLastEntry(s: seq<Copyright>, i: int)
    requires 0 <= i < |s|
  {
    forall j :: i < j < |s| ==> s[j].name != s[i].name
  }

  /** The names that occur in `s`. */
  function Names(s: seq<Copyright>): set<string> {
    set i | 0 <= i < |s| :: s[i].name
  }

  /** The name-to-probability map built by assigning every entry in turn. */
  function ToMap(s: seq<Copyright>): (m: map<string, real>)
    ensures m.Keys == Names(s)
    ensures forall i :: 0 <= i < |s| && IsLastEntry(s, i) ==> m[s[i].name] == s[i].probability
    decreases |s|
  {
    if |s| == 0 then map[]
    else
      var init := s[..|s| - 1];
      var last := s[|s| - 1];
      NamesSnoc(s);
      LastEntrySnoc(s);
      ToMap(init)[last.name := last.probability]
  }

  lemma NamesSnoc(s: seq<Copyright>)
    requires |s| > 0
    ensures Names(s) == Names(s[..|s| - 1]) + {s[|s| - 1].name}
  {
    var init := s[..|s| - 1];
    forall k | k in Names(s) ensures k in Names(init) + {s[|s| - 1].name} {
      var i :| 0 <= i < |s| && s[i].name == k;
      if i < |s| - 1 { assert init[i] == s[i]; }
    }
    forall k | k in Names(init) ensures k in Names(s) {
      var i :| 0 <= i < |init| && init[i].name == k;
      assert s[i] == init[i];
    }
  }

  lemma LastEntrySnoc(s: seq<Copyright>)
    requires |s| > 0
    ensures forall i :: 0 <= i < |s| - 1 && IsLastEntry(s, i) ==>
      s[..|s| - 1][i] == s[i] && IsLastEntry(s[..|s| - 1], i) && s[i].name != s[|s| - 1].name
  {
  }

  /** The harmonic mean of two probabilities. */
  function HarmonicMean(v: real, a: real): real
    requires v + a != 0.0
  {
    2.0 * (v * a) / (v + a)
  }

  /** Every name present in both maps has a non-zero probability sum, so no division by zero occurs. */
  predicate FusionDefined(vm: map<string, real>, am: map<string, real>) {
    forall k :: k in vm && k in am ==> vm[k] + am[k] != 0.0
  }

  /** The video map after the intersection loop: common names only, each with its fused score. */
  function Fuse(vm: map<string, real>, am: map<string, real>): map<string, real>
    requires FusionDefined(vm, am)
  {
    map k | k in vm && k in am :: HarmonicMean(vm[k], am[k])
  }

  predicate Defined(video: seq<Copyright>, audio: seq<Copyright>) {
    FusionDefined(ToMap(video), ToMap(audio))
  }

  /** The fused scores of a pair of candidate lists. */
  function Fused(video: seq<Copyright>, audio: seq<Copyright>): map<string, real>
    requires Defined(video, audio)
  {
    Fuse(ToMap(video), ToMap(audio))
  }

  /**
   * What the intersection loop leaves: exactly the names both lists mention,
   * each scored by the harmonic mean of its last video and last audio entry.
   */
  lemma FusedOfLastEntries(video: seq<Copyright>, audio: seq<Copyright>)
    requires Defined(video, audio)
    ensures Fused(video, audio).Keys == Names(video) * Names(audio)
    ensures forall i, j ::
      (0 <= i < |video| && 0 <= j < |audio| && IsLastEntry(video, i) && IsLastEntry(audio, j)
       && video[i].name == audio[j].name) ==>
      video[i].probability + audio[j].probability != 0.0
      && Fused(video, audio)[video[i].name] == HarmonicMean(video[i].probability, audio[j].probability)
  {
  }

  /**
   * The slice `finProbs` built by ranging over the fused map in the given order:
   * every fused pair exactly once, in the order the range visits the names.
   */
  function FinalProbabilities(fused: map<string, real>, order: seq<string>): (fin: seq<Copyright>)
    requires Enumerates(order, fused.Keys)
    ensures forall c :: c in fin <==> c.name in fused && c.probability == fused[c.name]
    ensures forall i, j :: 0 <= i < j < |fin| ==> fin[i].name != fin[j].name
    ensures |fin| == |order| == |fused|
    ensures forall i :: 0 <= i < |fin| ==> fin[i].name == order[i]
  {
    var fin := seq(|order|, i requires 0 <= i < |order| => Copyright(order[i], fused[order[i]]));
    assert forall c: Copyright :: c.name in fused && c.probability == fused[c.name] ==> c in fin by {
      forall c: Copyright | c.name in fused && c.probability == fused[c.name] ensures c in fin {
        var i :| 0 <= i < |order| && order[i] == c.name;
        assert fin[i] == c;
      }
    }
    EnumerationSize(order, fused.Keys);
    fin
  }

  /** The evidently intended filter: exactly the entries scoring at least `Threshold`, in order. */
  function KeepAtThreshold(s: seq<Copyright>): (r: seq<Copyright>)
    ensures forall c :: c in r <==> c in s && c.probability >= Threshold
    ensures |r| <= |s|
    decreases |s|
  {
    if |s| == 0 then []
    else
      var init := s[..|s| - 1];
      var last := s[|s| - 1];
      assert s == init + [last];
      KeepAtThreshold(init) + (if last.probability >= Threshold then [last] else [])
  }

  /** The sort key of `sort.Slice` in `isCopyrighted`. */
  function Score(c: Copyright): real {
    c.probability
  }

  /** `name` has a fused score at the threshold or above, and no lower score is above it. */
  predicate IsLowestSurvivor(fused: map<string, real>, name: string) {
    && name in fused
    && fused[name] >= Threshold
    && forall k :: k in fused && fused[k] >= Threshold ==> fused[name] <= fused[k]
  }

  /** The survivors of the filter, sorted ascending by score. */
  function Survivors(fused: map<string, real>, order: seq<string>): seq<Copyright>
    requires Enumerates(order, fused.Keys)
  {
    SortBy(KeepAtThreshold(FinalProbabilities(fused, order)), Score)
  }

  /** The sorted survivors are exactly the fused pairs at or above the threshold. */
  lemma SurvivorsAreAtThreshold(fused: map<string, real>, order: seq<string>)
    requires Enumerates(order, fused.Keys)
    ensures forall c :: c in Survivors(fused, order) <==>
      c.name in fused && c.probability == fused[c.name] && c.probability >= Threshold
  {
    var fin := FinalProbabilities(fused, order);
    var kept := KeepAtThreshold(fin);
    var sorted := Survivors(fused, order);
    forall c ensures c in sorted <==> c in kept {
      assert c in sorted <==> c in multiset(sorted);
      assert c in kept <==> c in multiset(kept);
    }
    forall c: Copyright | c.name in fused && c.probability == fused[c.name] ensures c in fin {
      var i :| 0 <= i < |order| && order[i] == c.name;
      assert fin[i] == c;
    }
  }

  /** No survivor means no fused score reaches the threshold; otherwise the first survivor has the lowest surviving score. */
  lemma FirstSurvivorIsLowest(fused: map<string, real>, order: seq<string>)
    requires Enumerates(order, fused.Keys)
    ensures |Survivors(fused, order)| == 0 <==> !exists k :: k in fused && fused[k] >= Threshold
    ensures |Survivors(fused, order)| > 0 ==> IsLowestSurvivor(fused, Survivors(fused, order)[0].name)
  {
    SurvivorsAreAtThreshold(fused, order);
    LowestOfSorted(fused, Survivors(fused, order));
  }

  /** The first of an ascending list of exactly the fused pairs at or above the threshold has the lowest such score. */
  lemma LowestOfSorted(fused: map<string, real>, sorted: seq<Copyright>)
    requires forall c :: c in sorted <==> c.name in fused && c.probability == fused[c.name] && c.probability >= Threshold
    requires SortedBy(sorted, Score)
    ensures |sorted| == 0 <==> !exists k :: k in fused && fused[k] >= Threshold
    ensures |sorted| > 0 ==> IsLowestSurvivor(fused, sorted[0].name)
  {
    if exists k :: k in fused && fused[k] >= Threshold {
      var k :| k in fused && fused[k] >= Threshold;
      assert Copyright(k, fused[k]) in sorted;
    }
    if |sorted| > 0 {
      assert sorted[0] in sorted;
      forall k | k in fused && fused[k] >= Threshold ensures sorted[0].probability <= fused[k] {
        assert Copyright(k, fused[k]) in sorted;
        var j :| 0 <= j < |sorted| && sorted[j] == Copyright(k, fused[k]);
        assert j == 0 || Score(sorted[0]) <= Score(sorted[j]);
      }
    }
  }

  /** Filter, ascending sort and selection of the first survivor (bff/http.go:305-329). */
  function Select(fused: map<string, real>, order: seq<string>): (r: Verdict)
    requires Enumerates(order, fused.Keys)
    ensures r.duplicate <==> exists k :: k in fused && fused[k] >= Threshold
    ensures !r.duplicate ==> r.name == ""
    ensures r.duplicate ==> IsLowestSurvivor(fused, r.name)
  {
    var sorted := Survivors(fused, order);
    FirstSurvivorIsLowest(fused, order);
    if |sorted| == 0 then
      Verdict("", false)
    else
      Verdict(sorted[0].name, true)
  }

  /** `isCopyrighted`, with the filter loop replaced by the filter it means. */
  function IsCopyrighted(video: seq<Copyright>, audio: seq<Copyright>, order: seq<string>): (r: Verdict)
    requires Defined(video, audio)
    requires Enumerates(order, Fused(video, audio).Keys)
    ensures |video| == 0 || |audio| == 0 ==> r == Verdict("", false)
    ensures r.duplicate <==> exists k :: k in Fused(video, audio) && Fused(video, audio)[k] >= Threshold
    ensures !r.duplicate ==> r.name == ""
    ensures r.duplicate ==> IsLowestSurvivor(Fused(video, audio), r.name)
  {
    var fused := Fused(video, audio);
    if |video| == 0 || |audio| == 0 then
      assert Names(video) == {} || Names(audio) == {};
      assert fused == map[];
      Verdict("", false)
    else if |fused| == 0 then
      assert fused.Keys == {};
      Verdict("", false)
    else
      Select(fused, order)
  }

  // ---------------------------------------------------------------------------
  // The filter loop as written
  // ---------------------------------------------------------------------------

  /** How the source's filter loop ends: a Go index-out-of-range panic, or the filtered slice. */
  datatype LoopOutcome = IndexOutOfRange(index: nat, length: nat) | Filtered(kept: seq<Copyright>)

  /** Some entry other than the last scores below the threshold. */
  predicate PanicsOn(fin: seq<Copyright>) {
    exists i :: 0 <= i < |fin| - 1 && fin[i].probability < Threshold
  }

  /**
   * The swap-remove loop of `isCopyrighted` as written: it ranges over the
   * original length while the slice shrinks, so removing any entry but the
   * last makes the final iteration index past the end.
   */
  method FilterLoop(fin: seq<Copyright>) returns (out: LoopOutcome)
    ensures out.IndexOutOfRange? <==> PanicsOn(fin)
    ensures out.Filtered? ==> out.kept == KeepAtThreshold(fin)
  {
    var s := fin;
    var n := |fin|;
    var i := 0;
    // 0: nothing removed; 1: only the final entry removed; 2: an earlier entry removed
    ghost var phase := 0;
    while i < n
      invariant 0 <= i <= n && 0 <= phase <= 2
      invariant phase == 0 ==> s == fin && forall j :: 0 <= j < i ==> fin[j].probability >= Threshold
      invariant phase == 1 ==>
        && i == n && 0 < n && s == fin[..n - 1] && fin[n - 1].probability < Threshold
        && forall j :: 0 <= j < n - 1 ==> fin[j].probability >= Threshold
      invariant phase == 2 ==> |s| < n && i <= n - 1 && PanicsOn(fin)
      decreases n - i
    {
      if i >= |s| {
        return IndexOutOfRange(i, |s|);
      }
      if s[i].probability < Threshold {
        var last := |s| - 1;
        s := s[i := s[last]];
        s := s[last := Copyright("", 0.0)];
        s := s[..last];
        if phase == 0 {
          if i == n - 1 {
            phase := 1;
            assert s == fin[..n - 1];
          } else {
            phase := 2;
            assert fin[i].probability < Threshold;
          }
        }
      }
      i := i + 1;
    }
    if phase == 0 {
      AllKept(fin);
    } else {
      AllKept(fin[..n - 1]);
      DropFailingLast(fin);
    }
    return Filtered(s);
  }

  /** A final entry below the threshold contributes nothing to the kept list. */
  lemma DropFailingLast(s: seq<Copyright>)
    requires |s| > 0 && s[|s| - 1].probability < Threshold
    ensures KeepAtThreshold(s) == KeepAtThreshold(s[..|s| - 1])
  {
  }

  /** With every entry at or above the threshold, the filter keeps everything. */
  lemma {:induction false} AllKept(s: seq<Copyright>)
    requires forall j :: 0 <= j < |s| ==> s[j].probability >= Threshold
    ensures KeepAtThreshold(s) == s
    decreases |s|
  {
    if |s| > 0 {
      AllKept(s[..|s| - 1]);
      assert s == s[..|s| - 1] + [s[|s| - 1]];
    }
  }

  // ---------------------------------------------------------------------------
  // Properties
  // ---------------------------------------------------------------------------

  /** The harmonic mean is symmetric and lies between its two arguments. */
  lemma HarmonicMeanBetween(v: real, a: real)
    requires 0.0 <= v && 0.0 <= a && v + a > 0.0
    ensures HarmonicMean(v, a) == HarmonicMean(a, v)
    ensures v <= a ==> v <= HarmonicMean(v, a) <= a
    ensures a <= v ==> a <= HarmonicMean(v, a) <= v
  {
    assert v * a == a * v;
    assert a + v == v + a;
    if v <= a {
      OrderedMeanBetween(v, a);
    } else {
      OrderedMeanBetween(a, v);
    }
  }

  /** The harmonic mean of `lo <= hi` lies between them. */
  lemma OrderedMeanBetween(lo: real, hi: real)
    requires 0.0 <= lo <= hi && lo + hi > 0.0
    ensures lo <= 2.0 * (lo * hi) / (lo + hi) <= hi
  {
    assert lo * (lo + hi) == lo * lo + lo * hi;
    assert hi * (lo + hi) == lo * hi + hi * hi;
    assert lo * lo <= lo * hi by { ScaleReal(lo, hi, lo); }
    assert lo * hi <= hi * hi by { ScaleReal(lo, hi, hi); }
    QuotientBetween(2.0 * (lo * hi), lo + hi, lo, hi);
  }

  lemma ScaleReal(x: real, y: real, k: real)
    requires x <= y && 0.0 <= k
    ensures k * x <= k * y
  {
    assert k * y - k * x == k * (y - x);
  }

  lemma QuotientBetween(n: real, d: real, lo: real, hi: real)
    requires d > 0.0 && lo * d <= n <= hi * d
    ensures lo <= n / d <= hi
  {
    var q := n / d;
    assert q * d == n;
    assert (q - lo) * d == n - lo * d;
    assert (hi - q) * d == hi * d - n;
  }

  /** Swapping the two candidate lists gives the same fused pairs. */
  lemma FusedSymmetric(video: seq<Copyright>, audio: seq<Copyright>)
    requires Defined(video, audio)
    ensures Defined(audio, video)
    ensures Fused(audio, video) == Fused(video, audio)
  {
    var f1 := Fused(video, audio);
    var f2 := Fused(audio, video);
    assert f1.Keys == f2.Keys;
    forall k | k in f1 ensures f1[k] == f2[k] {
      var v := ToMap(video)[k];
      var a := ToMap(audio)[k];
      assert 2.0 * (v * a) == 2.0 * (a * v);
    }
  }

  /** Which list holds which modality cannot change the verdict or the reported score. */
  lemma VerdictSymmetric(video: seq<Copyright>, audio: seq<Copyright>, order: seq<string>)
    requires Defined(video, audio)
    requires Enumerates(order, Fused(video, audio).Keys)
    ensures Defined(audio, video) && Enumerates(order, Fused(audio, video).Keys)
    ensures IsCopyrighted(audio, video, order).duplicate == IsCopyrighted(video, audio, order).duplicate
    ensures IsCopyrighted(video, audio, order).duplicate ==>
      Fused(video, audio)[IsCopyrighted(audio, video, order).name]
        == Fused(video, audio)[IsCopyrighted(video, audio, order).name]
  {
    FusedSymmetric(video, audio);
    var fused := Fused(video, audio);
    var r1 := IsCopyrighted(video, audio, order);
    var r2 := IsCopyrighted(audio, video, order);
    if r1.duplicate {
      assert IsLowestSurvivor(fused, r1.name) && IsLowestSurvivor(fused, r2.name);
    }
  }

  /** The worked example: A fuses to 1.44/1.7 (about 0.847), the only corroborated name. */
  lemma ExampleVerdict()
    ensures Fused([Copyright("A", 0.9), Copyright("B", 0.5)], [Copyright("A", 0.8), Copyright("C", 0.6)])
      == map["A" := 1.44 / 1.7]
    ensures IsCopyrighted([Copyright("A", 0.9), Copyright("B", 0.5)], [Copyright("A", 0.8), Copyright("C", 0.6)], ["A"])
      == Verdict("A", true)
  {
    var video := [Copyright("A", 0.9), Copyright("B", 0.5)];
    var audio := [Copyright("A", 0.8), Copyright("C", 0.6)];
    var fused := Fused(video, audio);
    assert fused == map["A" := 1.44 / 1.7] by {
      assert ToMap(video) == map["A" := 0.9, "B" := 0.5];
      assert ToMap(audio) == map["A" := 0.8, "C" := 0.6];
      FuseExample();
    }
    var r := IsCopyrighted(video, audio, ["A"]);
    assert r.duplicate && IsLowestSurvivor(fused, r.name);
  }

  /** Only "A" is in both maps, and its harmonic mean is 1.44/1.7. */
  lemma FuseExample()
    ensures Fuse(map["A" := 0.9, "B" := 0.5], map["A" := 0.8, "C" := 0.6]) == map["A" := 1.44 / 1.7]
  {
    var vm, am := map["A" := 0.9, "B" := 0.5], map["A" := 0.8, "C" := 0.6];
    assert forall k :: k in vm && k in am <==> k == "A";
    assert HarmonicMean(0.9, 0.8) == 1.44 / 1.7;
  }

  /** A fused score of exactly 0.75 is kept; 0.7499 is not. */
  lemma ThresholdBoundary()
    ensures IsCopyrighted([Copyright("A", 0.75)], [Copyright("A", 0.75)], ["A"]) == Verdict("A", true)
    ensures IsCopyrighted([Copyright("A", 0.7499)], [Copyright("A", 0.7499)], ["A"]) == Verdict("", false)
  {
    var at := [Copyright("A", 0.75)];
    assert ToMap(at) == map["A" := 0.75];
    assert Fused(at, at) == map["A" := 0.75];
    var below := [Copyright("A", 0.7499)];
    assert ToMap(below) == map["A" := 0.7499];
    assert Fused(below, below) == map["A" := 0.7499];
  }

  /** Names seen by only one modality are never reported. */
  lemma NoOverlapIsNotDuplicate()
    ensures IsCopyrighted([Copyright("A", 0.99)], [Copyright("B", 0.99)], []) == Verdict("", false)
  {
    var video := [Copyright("A", 0.99)];
    var audio := [Copyright("B", 0.99)];
    assert ToMap(video).Keys == {"A"} && ToMap(audio).Keys == {"B"};
    assert Fused(video, audio) == map[];
  }

  /**
   * The filter loop as written panics on an ordinary input whenever map
   * iteration puts the sub-threshold name first, and finishes when it comes last.
   */
  lemma FilterLoopPanicExample()
    ensures var both := [Copyright("A", 0.5), Copyright("B", 0.9)];
      && Defined(both, both)
      && Fused(both, both) == map["A" := 0.5, "B" := 0.9]
      && PanicsOn(FinalProbabilities(Fused(both, both), ["A", "B"]))
      && !PanicsOn(FinalProbabilities(Fused(both, both), ["B", "A"]))
  {
    var both := [Copyright("A", 0.5), Copyright("B", 0.9)];
    assert ToMap(both) == map["A" := 0.5, "B" := 0.9];
    var fused := Fused(both, both);
    assert fused == map["A" := 0.5, "B" := 0.9];
    var first := FinalProbabilities(fused, ["A", "B"]);
    assert first[0].probability < Threshold;
    var second := FinalProbabilities(fused, ["B", "A"]);
    assert second[0].probability >= Threshold;
  }
}

=== FILE: mappers.dfy ===
/**
 * The task store's row type and its conversion into the model the HTTP layer
 * reads (bff/internal/controller/task_controller/mappers.go).
 */
module Mappers {
  import opened Wrappers
  import opened TaskModel

  /** `pgsql.TaskStatus`: the store's status enum; a NULL or unknown label is `PgOther`. */
  datatype PgStatus = PgDone | PgFail | PgInProgress | PgOther(raw: string)

  /** A copyright column: NULL (never written) or the JSON text last written to it. */
  type Column = Option<Wire>

  /** `pgsql.Task`: one row of the task table. */
  datatype PgTask = PgTask(
    taskId: int,
    videoFile: string,
    audioFile: string,
    status: PgStatus,
    videoCopyright: Column,
    audioCopyright: Column,
    videoName: string)

  /** `statusToModel`: done, fail and in-progress map across; anything else reads as failed. */
  function StatusToModel(s: PgStatus): (r: TaskStatus)
    ensures r == Done <==> s == PgDone
    ensures r == InProgress <==> s == PgInProgress
    ensures r == Failed <==> (s == PgFail || s.PgOther?)
  {
    match s
    case PgDone => Done
    case PgFail => Failed
    case PgInProgress => InProgress
    case PgOther(_) => Failed
  }

  /**
   * The candidate list `taskToModel` reads from a column: `json.Unmarshal` of
   * NULL (empty bytes) fails and leaves the zero response, whose list is empty;
   * a stored text gives the list its last `copyright` member holds, or the empty
   * list when it has none.
   */
  function DecodeColumn(c: Column): (r: seq<Copyright>)
    ensures c.None? ==> r == []
    ensures c.Some? && (forall i :: 0 <= i < |MembersOf(c.value)| ==> !SetsCopy(MembersOf(c.value)[i])) ==> r == []
    ensures c.Some? ==> forall i :: SetsCopyLast(MembersOf(c.value), i) ==> r == ListOf(MembersOf(c.value)[i].value)
  {
    match c
    case None => []
    case Some(w) => DecodeWireDecides(w); DecodeWire(w).copy
  }

  /** `taskToModel`: never fails; the video column feeds the video list and the audio column the audio list. */
  function TaskToModel(t: PgTask): (r: Result<Task, string>)
    ensures r.Success?
    ensures r.value.taskId == t.taskId
    ensures r.value.status == StatusToModel(t.status)
    ensures r.value.videoCopyright == DecodeColumn(t.videoCopyright)
    ensures r.value.audioCopyright == DecodeColumn(t.audioCopyright)
  {
    var aud := DecodeColumn(t.audioCopyright);
    var vid := DecodeColumn(t.videoCopyright);
    Success(Task(t.taskId, StatusToModel(t.status), vid, aud))
  }

  /** `taskSliceToModel`: converts row by row into a pre-sized slice, which always succeeds. */
  method TaskSliceToModel(t: seq<PgTask>) returns (r: Result<seq<Task>, string>)
    ensures r.Success?
    ensures |r.value| == |t|
    ensures forall i :: 0 <= i < |t| ==> r.value[i] == TaskToModel(t[i]).value
  {
    // make([]model.Task, len(t)): zero tasks, whose status is the zero TaskStatus, Done
    var m := seq(|t|, _ => Task(0, Done, [], []));
    var i := 0;
    while i < |t|
      invariant 0 <= i <= |t|
      invariant |m| == |t|
      invariant forall j :: 0 <= j < i ==> m[j] == TaskToModel(t[j]).value
    {
      // taskToModel never returns an error, so the loop's early return never fires
      var converted := TaskToModel(t[i]);
      m := m[i := converted.value];
      i := i + 1;
    }
    return Success(m);
  }
}

=== FILE: matcher.dfy ===
/**
 * The video worker's frame matcher (video_copy/matcher.py): the order in
 * which extracted frames are embedded, the payload and ids a reference video
 * is uploaded under, and the score a query video gets against each reference
 * from its frames' nearest-neighbour hits.
 */
module Matcher {
  import opened Wrappers
  import opened Strs
  import opened Sorting

  /** One nearest-neighbour hit: the matched frame's `video_id` payload and its cosine score. */
  datatype Hit = Hit(videoId: string, score: real)

  /** A hit scoring at or below one half counts as no match. */
  function Cut(score: real): (c: real)
    ensures c == 0.0 || (c > 0.5 && c == score)
    ensures score > 0.5 <==> c != 0.0
  {
    if score > 0.5 then score else 0.0
  }

  function MaxReal(a: real, b: real): real {
    if a < b then b else a
  }

  /** The videos named by a frame's hits. */
  function VideosOf(hits: seq<Hit>): set<string>
    decreases |hits|
  {
    if |hits| == 0 then {} else VideosOf(hits[..|hits| - 1]) + {hits[|hits| - 1].videoId}
  }

  /** A video's value in one frame: the largest cut score among the hits naming it, 0 when none does. */
  function FrameValue(hits: seq<Hit>, v: string): real
    decreases |hits|
  {
    if |hits| == 0 then 0.0
    else
      var prev := FrameValue(hits[..|hits| - 1], v);
      if hits[|hits| - 1].videoId == v then MaxReal(prev, Cut(hits[|hits| - 1].score)) else prev
  }

  /** A frame value is 0 or above one half, and at most the best score of a hit naming the video. */
  lemma {:induction false} FrameValueRange(hits: seq<Hit>, v: string, top: real)
    requires forall j :: 0 <= j < |hits| ==> hits[j].score <= top
    ensures FrameValue(hits, v) == 0.0 || 0.5 < FrameValue(hits, v) <= top
    decreases |hits|
  {
    if |hits| > 0 {
      FrameValueRange(hits[..|hits| - 1], v, top);
    }
  }

  /** A video no hit names has frame value 0. */
  lemma {:induction false} UnnamedIsZero(hits: seq<Hit>, v: string)
    requires v !in VideosOf(hits)
    ensures FrameValue(hits, v) == 0.0
    decreases |hits|
  {
    if |hits| > 0 {
      UnnamedIsZero(hits[..|hits| - 1], v);
    }
  }

  /** The sum of a video's frame values over the frames. */
  function FrameSum(frames: seq<seq<Hit>>, v: string): real
    decreases |frames|
  {
    if |frames| == 0 then 0.0 else FrameSum(frames[..|frames| - 1], v) + FrameValue(frames[|frames| - 1], v)
  }

  /** Every video named by any frame's hits. */
  function AllVideos(frames: seq<seq<Hit>>): set<string>
    decreases |frames|
  {
    if |frames| == 0 then {} else AllVideos(frames[..|frames| - 1]) + VideosOf(frames[|frames| - 1])
  }

  /** A video no frame names has a zero sum. */
  lemma {:induction false} UnnamedSumsToZero(frames: seq<seq<Hit>>, v: string)
    requires v !in AllVideos(frames)
    ensures FrameSum(frames, v) == 0.0
    decreases |frames|
  {
    if |frames| > 0 {
      UnnamedSumsToZero(frames[..|frames| - 1], v);
      UnnamedIsZero(frames[|frames| - 1], v);
    }
  }

  /** With hit scores at most `top`, a sum over `n` frames lies between 0 and `n * top`. */
  lemma {:induction false} FrameSumRange(frames: seq<seq<Hit>>, v: string, top: real)
    requires top >= 0.0
    requires forall i, j :: 0 <= i < |frames| && 0 <= j < |frames[i]| ==> frames[i][j].score <= top
    ensures 0.0 <= FrameSum(frames, v) <= |frames| as real * top
    decreases |frames|
  {
    if |frames| > 0 {
      var init: seq<seq<Hit>> := frames[..|frames| - 1];
      forall i, j | 0 <= i < |init| && 0 <= j < |init[i]| ensures init[i][j].score <= top {
        assert init[i] == frames[i];
      }
      FrameSumRange(init, v, top);
      FrameValueRange(frames[|frames| - 1], v, top);
    }
  }

  /** The inner loop of `search`: each hit raises its video's value to its cut score. */
  method FrameScores(hits: seq<Hit>) returns (image: map<string, real>)
    ensures image.Keys == VideosOf(hits)
    ensures forall v :: v in image ==> image[v] == FrameValue(hits, v)
  {
    image := map[];
    var j := 0;
    while j < |hits|
      invariant 0 <= j <= |hits|
      invariant image.Keys == VideosOf(hits[..j])
      invariant forall v :: v in image ==> image[v] == FrameValue(hits[..j], v)
    {
      assert hits[..j + 1][..j] == hits[..j];
      var h := hits[j];
      if h.videoId !in image {
        UnnamedIsZero(hits[..j], h.videoId);
      }
      var before := if h.videoId in image then image[h.videoId] else 0.0;
      image := image[h.videoId := MaxReal(before, Cut(h.score))];
      j := j + 1;
    }
    assert hits[..j] == hits;
  }

  /** A video's running score once the frame's videos outside `todo` have gained their weighted value. */
  function Added(scores: map<string, real>, image: map<string, real>, alpha: real, todo: set<string>, v: string): real {
    (if v in scores then scores[v] else 0.0) + (if v in image && v !in todo then image[v] * alpha else 0.0)
  }

  /** `next` is `scores` after every video of `image` outside `todo` has gained. */
  ghost predicate PartlyAdded(next: map<string, real>, scores: map<string, real>, image: map<string, real>, alpha: real, todo: set<string>) {
    && (forall u :: u in next <==> u in scores || (u in image && u !in todo))
    && (forall u :: u in next ==> next[u] == Added(scores, image, alpha, todo, u))
  }

  /** Adding one more video's gain moves it out of `todo`. */
  lemma AddOne(next: map<string, real>, scores: map<string, real>, image: map<string, real>, alpha: real, todo: set<string>, v: string)
    requires PartlyAdded(next, scores, image, alpha, todo) && v in todo && v in image
    ensures PartlyAdded(next[v := (if v in next then next[v] else 0.0) + image[v] * alpha], scores, image, alpha, todo - {v})
  {
    var after := next[v := (if v in next then next[v] else 0.0) + image[v] * alpha];
    forall u | u in after ensures after[u] == Added(scores, image, alpha, todo - {v}, u) {
      if u != v {
        assert next[u] == Added(scores, image, alpha, todo, u);
      }
    }
  }

  /** The second inner loop of `search`: each video of the frame gains its value times `alpha`. */
  method AddFrame(scores: map<string, real>, image: map<string, real>, alpha: real) returns (next: map<string, real>)
    ensures next.Keys == scores.Keys + image.Keys
    ensures forall v :: v in next ==>
      next[v] == (if v in scores then scores[v] else 0.0) + (if v in image then image[v] * alpha else 0.0)
  {
    next := scores;
    var todo := image.Keys;
    while todo != {}
      invariant todo <= image.Keys
      invariant PartlyAdded(next, scores, image, alpha, todo)
      decreases |todo|
    {
      var v :| v in todo;
      AddOne(next, scores, image, alpha, todo, v);
      next := next[v := (if v in next then next[v] else 0.0) + image[v] * alpha];
      todo := todo - {v};
    }
    forall u | u in next ensures next[u] == Added(scores, image, alpha, {}, u) {
    }
  }

  /** The sum of a video's frame values each weighted by `alpha`, as `search` accumulates it. */
  function WeightedSum(frames: seq<seq<Hit>>, v: string, alpha: real): real
    decreases |frames|
  {
    if |frames| == 0 then 0.0
    else WeightedSum(frames[..|frames| - 1], v, alpha) + FrameValue(frames[|frames| - 1], v) * alpha
  }

  /** Weighting each frame by `alpha` weights the sum by `alpha`. */
  lemma {:induction false} WeightedIsScaled(frames: seq<seq<Hit>>, v: string, alpha: real)
    ensures WeightedSum(frames, v, alpha) == FrameSum(frames, v) * alpha
    decreases |frames|
  {
    if |frames| > 0 {
      var init := frames[..|frames| - 1];
      WeightedIsScaled(init, v, alpha);
      Distribute(FrameSum(init, v), FrameValue(frames[|frames| - 1], v), alpha);
    }
  }

  lemma ScaleIsDivide(x: real, n: real)
    requires n > 0.0
    ensures x * (1.0 / n) == x / n
  {
  }

  lemma Distribute(a: real, b: real, c: real)
    ensures (a + b) * c == a * c + b * c
  {
  }

  /** A video no frame names has weighted sum 0. */
  lemma UnnamedWeighsZero(frames: seq<seq<Hit>>, v: string, alpha: real)
    requires v !in AllVideos(frames)
    ensures WeightedSum(frames, v, alpha) == 0.0
  {
    UnnamedSumsToZero(frames, v);
    WeightedIsScaled(frames, v, alpha);
  }

  /** A frame adds its weighted value to each video's weighted sum; absent entries stand for 0. */
  lemma WeighNext(frames: seq<seq<Hit>>, i: int, v: string, alpha: real, before: real, value: real)
    requires 0 <= i < |frames|
    requires v in AllVideos(frames[..i]) ==> before == WeightedSum(frames[..i], v, alpha)
    requires v !in AllVideos(frames[..i]) ==> before == 0.0
    requires v in VideosOf(frames[i]) ==> value == FrameValue(frames[i], v)
    requires v !in VideosOf(frames[i]) ==> value == 0.0
    ensures WeightedSum(frames[..i + 1], v, alpha) == before + value * alpha
  {
    assert frames[..i + 1][..i] == frames[..i];
    if v !in AllVideos(frames[..i]) {
      UnnamedWeighsZero(frames[..i], v, alpha);
    }
    if v !in VideosOf(frames[i]) {
      UnnamedIsZero(frames[i], v);
    }
  }

  /** `scores` holds the weighted sums over the first `n` frames. */
  predicate Accumulated(scores: map<string, real>, frames: seq<seq<Hit>>, n: int, alpha: real)
    requires 0 <= n <= |frames|
  {
    && scores.Keys == AllVideos(frames[..n])
    && forall v :: v in scores ==> scores[v] == WeightedSum(frames[..n], v, alpha)
  }

  /** One iteration of `search`'s frame loop. */
  method AccumulateFrame(scores: map<string, real>, frames: seq<seq<Hit>>, i: int, alpha: real) returns (next: map<string, real>)
    requires 0 <= i < |frames| && Accumulated(scores, frames, i, alpha)
    ensures Accumulated(next, frames, i + 1, alpha)
  {
    var image := FrameScores(frames[i]);
    next := AddFrame(scores, image, alpha);
    NextIsWeighted(scores, image, next, frames, i, alpha);
  }

  /** Adding a frame's weighted values to the scores of the frames before it gives the scores of one frame more. */
  lemma NextIsWeighted(scores: map<string, real>, image: map<string, real>, next: map<string, real>, frames: seq<seq<Hit>>, i: int, alpha: real)
    requires 0 <= i < |frames| && Accumulated(scores, frames, i, alpha)
    requires image.Keys == VideosOf(frames[i])
    requires forall v :: v in image ==> image[v] == FrameValue(frames[i], v)
    requires next.Keys == scores.Keys + image.Keys
    requires forall v :: v in next ==>
      next[v] == (if v in scores then scores[v] else 0.0) + (if v in image then image[v] * alpha else 0.0)
    ensures Accumulated(next, frames, i + 1, alpha)
  {
    assert next.Keys == AllVideos(frames[..i + 1]) by {
      assert frames[..i + 1][..i] == frames[..i];
    }
    forall v | v in next ensures next[v] == WeightedSum(frames[..i + 1], v, alpha) {
      var value := if v in image then image[v] else 0.0;
      WeighNext(frames, i, v, alpha, if v in scores then scores[v] else 0.0, value);
    }
  }

  /**
   * `search`: a video's score is its frame values averaged over all frames,
   * a frame without a hit for it counting 0; every video some hit names is
   * listed, even at score 0; no frames at all is a division by zero.
   * `frames` holds each frame's hits as the vector search returned them.
   */
  method Search(frames: seq<seq<Hit>>) returns (r: Result<map<string, real>, string>)
    ensures r.Failure? <==> |frames| == 0
    ensures r.Success? ==> r.value.Keys == AllVideos(frames)
    ensures r.Success? ==> forall v :: v in r.value ==> r.value[v] == FrameSum(frames, v) / |frames| as real
  {
    if |frames| == 0 {
      return Failure("division by zero");
    }
    var alpha := 1.0 / |frames| as real;
    var scores: map<string, real> := map[];
    var i := 0;
    while i < |frames|
      invariant 0 <= i <= |frames|
      invariant Accumulated(scores, frames, i, alpha)
    {
      scores := AccumulateFrame(scores, frames, i, alpha);
      i := i + 1;
    }
    assert frames[..i] == frames;
    forall v | v in scores ensures scores[v] == FrameSum(frames, v) / |frames| as real {
      WeightedIsScaled(frames, v, alpha);
      ScaleIsDivide(FrameSum(frames, v), |frames| as real);
    }
    return Success(scores);
  }

  /** With hit scores at most 1 (cosine similarity), every score lies in [0, 1]. */
  lemma ScoreInUnitRange(frames: seq<seq<Hit>>, v: string)
    requires |frames| > 0
    requires forall i, j :: 0 <= i < |frames| && 0 <= j < |frames[i]| ==> frames[i][j].score <= 1.0
    ensures 0.0 <= FrameSum(frames, v) / |frames| as real <= 1.0
  {
    FrameSumRange(frames, v, 1.0);
  }

  /**
   * The frame number `extract_frames` sorts by: Python `int()` of the file
   * name up to its first '.', defined when that stem is a run of ASCII digits.
   */
  function FrameNumber(name: string): Option<nat> {
    var stem := Split(name, '.')[0];
    if |stem| > 0 && AllDigits(stem) then Some(DecimalValue(stem)) else None
  }

  function FrameKey(name: string): real {
    match FrameNumber(name)
    case Some(n) => n as real
    case None => 0.0
  }

  /** Every name in the listing has a frame number. */
  predicate AllNumbered(listing: seq<string>) {
    forall i :: 0 <= i < |listing| ==> FrameNumber(listing[i]).Some?
  }

  /**
   * `extract_frames`' ordering: the directory listing sorted by frame number
   * (so "10.jpg" follows "9.jpg"); a name whose stem is not a number is the
   * `ValueError` `int()` raises.
   */
  function SortFrames(listing: seq<string>): (r: Result<seq<string>, string>)
    ensures r.Failure? <==> !AllNumbered(listing)
    ensures r.Success? ==> multiset(r.value) == multiset(listing) && AllNumbered(r.value)
    ensures r.Success? ==> forall i, j :: 0 <= i < j < |r.value| ==>
      FrameNumber(r.value[i]).value <= FrameNumber(r.value[j]).value
  {
    if !AllNumbered(listing) then Failure("invalid literal for int()")
    else
      var sorted := SortBy(listing, FrameKey);
      forall i | 0 <= i < |sorted| ensures FrameNumber(sorted[i]).Some? {
        assert sorted[i] in multiset(listing);
      }
      Success(sorted)
  }

  /** `os.path.join(directory, name)` for a name without '/'. */
  function PathJoin(directory: string, name: string): string {
    if |directory| == 0 || directory[|directory| - 1] == '/' then directory + name else directory + "/" + name
  }

  /** `extract_frames`: the frame files' paths, in frame order. */
  function ExtractFrames(listing: seq<string>, directory: string): (r: Result<seq<string>, string>)
    ensures r.Failure? <==> !AllNumbered(listing)
    ensures r.Success? ==> |r.value| == |listing|
    ensures r.Success? ==> forall i :: 0 <= i < |r.value| ==> r.value[i] == PathJoin(directory, SortFrames(listing).value[i])
  {
    match SortFrames(listing)
    case Failure(e) => Failure(e)
    case Success(names) => Success(seq(|names|, i requires 0 <= i < |names| => PathJoin(directory, names[i])))
  }

  /** The name ffmpeg's `%d.jpg` pattern gives frame `k`. */
  function FrameFile(k: nat): string {
    NatToDecimal(k) + ".jpg"
  }

  /** ffmpeg's frame names read back as their frame numbers. */
  lemma FrameFileNumber(k: nat)
    ensures FrameNumber(FrameFile(k)) == Some(k)
  {
    var digits := NatToDecimal(k);
    assert '.' !in digits by {
      forall i | 0 <= i < |digits| ensures digits[i] != '.' {
        assert IsDigit(digits[i]);
      }
    }
    assert FrameFile(k) == digits + ['.'] + "jpg";
    SplitConcat(digits, '.', "jpg");
    SplitWithoutSeparator(digits, '.');
    DecimalRoundTrip(k);
  }

  /** The files ffmpeg writes for `n` frames, in frame order: 1.jpg, 2.jpg, ... */
  function FrameFiles(n: nat): (r: seq<string>)
    ensures |r| == n
  {
    seq(n, i requires 0 <= i < n => FrameFile(i + 1))
  }

  /** However the directory lists ffmpeg's `n` frame files, they come back in frame order. */
  lemma FramesComeInOrder(listing: seq<string>, n: nat)
    requires multiset(listing) == multiset(FrameFiles(n))
    ensures SortFrames(listing) == Success(FrameFiles(n))
  {
    var files := FrameFiles(n);
    forall i | 0 <= i < n ensures FrameKey(files[i]) == (i + 1) as real {
      FrameFileNumber(i + 1);
    }
    forall i | 0 <= i < |listing| ensures FrameNumber(listing[i]).Some? {
      assert listing[i] in multiset(files);
      var j :| 0 <= j < n && files[j] == listing[i];
      FrameFileNumber(j + 1);
    }
    var sorted := SortFrames(listing).value;
    assert sorted == SortBy(listing, FrameKey);
    SortedUnique(sorted, files, FrameKey);
  }

  /** One payload entry of an uploaded reference frame. */
  datatype FramePayload = FramePayload(frame: int, videoId: string)

  /** The vectors' payloads and point ids `load_reference` uploads. */
  datatype Upload = Upload(payload: seq<FramePayload>, ids: seq<int>)

  /**
   * `load_reference`: the `i`-th embedding is uploaded as frame `i + 1` of
   * video `uuid` under point id `numPoints + i`, after the `numPoints`
   * points already in the collection.
   */
  function LoadReference(uuid: string, count: nat, numPoints: nat): (u: Upload)
    ensures |u.payload| == count && |u.ids| == count
    ensures forall i :: 0 <= i < count ==> u.payload[i].videoId == uuid
    ensures forall i, j :: 0 <= i < j < count ==> u.payload[i].frame < u.payload[j].frame && u.ids[i] < u.ids[j]
    ensures forall i :: 0 <= i < count ==> 1 <= u.payload[i].frame <= count && numPoints <= u.ids[i] < numPoints + count
  {
    Upload(seq(count, i requires 0 <= i < count => FramePayload(i + 1, uuid)),
           seq(count, i requires 0 <= i < count => numPoints + i))
  }

  /**
   * An upload's frame numbers name the frame files its embeddings came from:
   * the `i`-th path `extract_frames` returns is the file of payload frame `i`.
   */
  lemma PayloadNamesItsFrame(listing: seq<string>, n: nat, directory: string, uuid: string, numPoints: nat)
    requires multiset(listing) == multiset(FrameFiles(n))
    ensures ExtractFrames(listing, directory).Success?
    ensures forall i :: 0 <= i < n ==>
      ExtractFrames(listing, directory).value[i] == PathJoin(directory, FrameFile(LoadReference(uuid, n, numPoints).payload[i].frame))
  {
    FramesComeInOrder(listing, n);
  }

  /**
   * Two reference videos loaded one after the other, the second seeing the
   * first's points counted, get disjoint ids that together run contiguously.
   */
  lemma SuccessiveUploadsDisjoint(uuid1: string, n1: nat, uuid2: string, n2: nat, numPoints: nat)
    ensures var a, b := LoadReference(uuid1, n1, numPoints).ids, LoadReference(uuid2, n2, numPoints + n1).ids;
      (forall i, j :: 0 <= i < n1 && 0 <= j < n2 ==> a[i] != b[j])
      && forall k :: 0 <= k < n1 + n2 ==> (a + b)[k] == numPoints + k
  {
  }
}

=== FILE: sorting.dfy ===
/**
 * A sort by a real-valued key, whose contracts state a key-ordered permutation
 * and not stability: the model of Python's `sorted(xs, key=...)` and of Go's
 * `sort.Slice` (whose order among equal keys is unspecified, so any sorted
 * permutation is a faithful stand-in); and the
 * iteration orders of unordered collections.
 */
module Sorting {

  /** `s` is in non-decreasing order of `key`. */
  predicate SortedBy<T>(s: seq<T>, key: T -> real) {
    forall i, j :: 0 <= i < j < |s| ==> key(s[i]) <= key(s[j])
  }

  /** Inserts `x` before the first element whose key is not smaller than its own. */
  function Insert<T>(x: T, s: seq<T>, key: T -> real): (r: seq<T>)
    requires SortedBy(s, key)
    ensures |r| == |s| + 1
    ensures multiset(r) == multiset(s) + multiset{x}
    ensures SortedBy(r, key)
    ensures r[0] == x || (|s| > 0 && r[0] == s[0])
    decreases |s|
  {
    if |s| == 0 then [x]
    else if key(x) <= key(s[0]) then [x] + s
    else
      var tail := Insert(x, s[1..], key);
      assert s == [s[0]] + s[1..];
      assert key(s[0]) <= key(tail[0]);
      [s[0]] + tail
  }

  /** Insertion sort: a sorted permutation of `s`. */
  function SortBy<T>(s: seq<T>, key: T -> real): (r: seq<T>)
    ensures |r| == |s|
    ensures multiset(r) == multiset(s)
    ensures SortedBy(r, key)
    decreases |s|
  {
    if |s| == 0 then []
    else
      assert s == [s[0]] + s[1..];
      Insert(s[0], SortBy(s[1..], key), key)
  }

  /**
   * `order` lists every element of `keys` exactly once: one possible
   * iteration order of a Go map or a Python set.
   */
  predicate Enumerates<T>(order: seq<T>, keys: set<T>) {
    && (forall i :: 0 <= i < |order| ==> order[i] in keys)
    && (forall k :: k in keys ==> k in order)
    && (forall i, j :: 0 <= i < j < |order| ==> order[i] != order[j])
  }

  /** An enumeration lists each key once, so it is as long as the key set is large. */
  lemma {:induction false} EnumerationSize<T>(order: seq<T>, keys: set<T>)
    requires Enumerates(order, keys)
    ensures |order| == |keys|
    decreases |order|
  {
    if |order| > 0 {
      var x := order[|order| - 1];
      var init := order[..|order| - 1];
      assert forall i :: 0 <= i < |init| ==> init[i] == order[i];
      forall k | k in keys - {x} ensures k in init {
        var i :| 0 <= i < |order| && order[i] == k;
        assert init[i] == k;
      }
      EnumerationSize(init, keys - {x});
    }
  }

  /** `s` is in strictly increasing order of `key`. */
  predicate StrictlySortedBy<T>(s: seq<T>, key: T -> real) {
    forall i, j :: 0 <= i < j < |s| ==> key(s[i]) < key(s[j])
  }

  /**
   * A list sorted by `key` is determined by its elements when another
   * arrangement of them is strictly sorted: equal keys cannot be reordered.
   */
  lemma {:induction false} SortedUnique<T>(a: seq<T>, b: seq<T>, key: T -> real)
    requires multiset(a) == multiset(b)
    requires SortedBy(a, key) && StrictlySortedBy(b, key)
    ensures a == b
    decreases |a|
  {
    assert |a| == |multiset(a)| == |b|;
    if |a| > 0 {
      HeadsAgree(a, b, key);
      TailsAgree(a, b);
      SortedUnique(a[1..], b[1..], key);
    }
  }

  /** Both lists start with the element of least key. */
  lemma HeadsAgree<T>(a: seq<T>, b: seq<T>, key: T -> real)
    requires |a| > 0 && |b| > 0 && multiset(a) == multiset(b)
    requires SortedBy(a, key) && StrictlySortedBy(b, key)
    ensures a[0] == b[0]
  {
    assert a[0] in multiset(b) && b[0] in multiset(a);
    var j :| 0 <= j < |b| && b[j] == a[0];
    var k :| 0 <= k < |a| && a[k] == b[0];
    assert key(a[0]) <= key(a[k]);
    assert j == 0;
  }

  /** Removing the same first element leaves the same multiset. */
  lemma TailsAgree<T>(a: seq<T>, b: seq<T>)
    requires |a| > 0 && |b| > 0 && a[0] == b[0] && multiset(a) == multiset(b)
    ensures multiset(a[1..]) == multiset(b[1..])
  {
    assert a == [a[0]] + a[1..] && b == [b[0]] + b[1..];
    assert multiset(a) == multiset{a[0]} + multiset(a[1..]);
    assert multiset(b) == multiset{b[0]} + multiset(b[1..]);
    forall x ensures multiset(a[1..])[x] == multiset(b[1..])[x] {
      assert multiset(a)[x] == multiset{a[0]}[x] + multiset(a[1..])[x];
      assert multiset(b)[x] == multiset{b[0]}[x] + multiset(b[1..])[x];
    }
  }
}

=== FILE: strs.dfy ===
/**
 * String and sequence helpers with Python/Go semantics: `str.split` on one
 * separator character, `sep.join`, list slicing `xs[:k]`, decimal digits and
 * the `{n:04}` format specification.
 */
module Strs {

  /** Python `s.split(c)` for a one-character separator: never empty; "" splits into [""]. */
  function Split(s: string, c: char): (r: seq<string>)
    ensures |r| >= 1
    ensures forall i :: 0 <= i < |r| ==> c !in r[i]
    decreases |s|
  {
    if |s| == 0 then [""]
    else
      var rest := Split(s[1..], c);
      if s[0] == c then [""] + rest
      else [[s[0]] + rest[0]] + rest[1..]
  }

  /** Python `c.join(parts)`. */
  function Join(parts: seq<string>, c: char): string
    decreases |parts|
  {
    if |parts| == 0 then ""
    else if |parts| == 1 then parts[0]
    else parts[0] + [c] + Join(parts[1..], c)
  }

  /** Python `xs[-1]` on a non-empty list. */
  function Last<T>(xs: seq<T>): T
    requires |xs| > 0
  {
    xs[|xs| - 1]
  }

  /** Python `xs[:k]`: a negative `k` counts from the end, and the slice never fails. */
  function SliceTo<T>(xs: seq<T>, k: int): (r: seq<T>)
    ensures k >= 0 ==> |r| == (if k < |xs| then k else |xs|)
    ensures k < 0 ==> |r| == (if |xs| + k > 0 then |xs| + k else 0)
    ensures r == xs[..|r|]
  {
    if k >= 0 then (if k < |xs| then xs[..k] else xs)
    else if |xs| + k > 0 then xs[..|xs| + k]
    else []
  }

  /** A string without the separator splits into itself. */
  lemma {:induction false} SplitWithoutSeparator(s: string, c: char)
    requires c !in s
    ensures Split(s, c) == [s]
    decreases |s|
  {
    if |s| > 0 {
      assert c !in s[1..] by {
        forall i | 0 <= i < |s[1..]| ensures s[1..][i] != c {
          assert s[1..][i] == s[i + 1];
        }
      }
      SplitWithoutSeparator(s[1..], c);
      assert [s[0]] + s[1..] == s;
    }
  }

  /** Splitting distributes over a separator occurrence. */
  lemma {:induction false} SplitConcat(a: string, c: char, b: string)
    ensures Split(a + [c] + b, c) == Split(a, c) + Split(b, c)
    decreases |a|
  {
    var s := a + [c] + b;
    var rb := Split(b, c);
    if |a| == 0 {
      assert s[1..] == b;
      assert Split(s, c) == [""] + rb;
    } else {
      var ra := Split(a[1..], c);
      assert s[1..] == a[1..] + [c] + b;
      assert Split(s[1..], c) == ra + rb by {
        SplitConcat(a[1..], c, b);
      }
      if a[0] == c {
        assert Split(s, c) == [""] + (ra + rb);
        assert Split(a, c) == [""] + ra;
        SeqAssoc([""], ra, rb);
      } else {
        var rest := ra + rb;
        assert rest[0] == ra[0];
        assert rest[1..] == ra[1..] + rb;
        assert Split(s, c) == [[a[0]] + ra[0]] + (ra[1..] + rb);
        assert Split(a, c) == [[a[0]] + ra[0]] + ra[1..];
        SeqAssoc([[a[0]] + ra[0]], ra[1..], rb);
      }
    }
  }

  lemma SeqAssoc<T>(x: seq<T>, y: seq<T>, z: seq<T>)
    ensures x + (y + z) == (x + y) + z
  {
  }

  /** Joining the pieces of a split gives the original string back. */
  lemma {:induction false} JoinSplit(s: string, c: char)
    ensures Join(Split(s, c), c) == s
    decreases |s|
  {
    if |s| > 0 {
      var rest := Split(s[1..], c);
      JoinSplit(s[1..], c);
      if s[0] == c {
        var parts := [""] + rest;
        assert parts[1..] == rest;
        assert Join(parts, c) == "" + [c] + Join(rest, c);
        assert [s[0]] + s[1..] == s;
      } else {
        var parts := [[s[0]] + rest[0]] + rest[1..];
        if |rest| == 1 {
          assert Join(parts, c) == [s[0]] + rest[0];
          assert [s[0]] + s[1..] == s;
        } else {
          assert parts[1..] == rest[1..];
          assert Join(rest, c) == rest[0] + [c] + Join(rest[1..], c);
          assert Join(parts, c) == [s[0]] + rest[0] + [c] + Join(rest[1..], c);
          assert [s[0]] + s[1..] == s;
        }
      }
    }
  }

  /** Splitting a join of separator-free pieces gives the pieces back. */
  lemma {:induction false} SplitJoin(parts: seq<string>, c: char)
    requires |parts| >= 1
    requires forall i :: 0 <= i < |parts| ==> c !in parts[i]
    ensures Split(Join(parts, c), c) == parts
    decreases |parts|
  {
    if |parts| == 1 {
      SplitWithoutSeparator(parts[0], c);
    } else {
      SplitJoin(parts[1..], c);
      SplitConcat(parts[0], c, Join(parts[1..], c));
      SplitWithoutSeparator(parts[0], c);
      assert [parts[0]] + parts[1..] == parts;
    }
  }

  // ---------------------------------------------------------------------------
  // Decimal digits
  // ---------------------------------------------------------------------------

  predicate IsDigit(ch: char) {
    '0' <= ch <= '9'
  }

  predicate AllDigits(s: string) {
    forall i :: 0 <= i < |s| ==> IsDigit(s[i])
  }

  function DigitValue(ch: char): (d: nat)
    requires IsDigit(ch)
    ensures d < 10
  {
    (ch as int - '0' as int) as nat
  }

  function DigitChar(d: nat): (ch: char)
    requires d < 10
    ensures IsDigit(ch) && DigitValue(ch) == d
  {
    ('0' as int + d) as char
  }

  /** The value of a string of decimal digits, most significant first (Python `int(s)`, Go `strconv.Atoi`). */
  function DecimalValue(s: string): nat
    requires AllDigits(s)
    decreases |s|
  {
    if |s| == 0 then 0
    else DecimalValue(s[..|s| - 1]) * 10 + DigitValue(s[|s| - 1])
  }

  /** The shortest decimal rendering of `n` (Python `str(n)`, Go `strconv.Itoa`). */
  function NatToDecimal(n: nat): (r: string)
    ensures |r| >= 1 && AllDigits(r)
    ensures |r| > 1 ==> r[0] != '0'
  {
    if n < 10 then [DigitChar(n)]
    else NatToDecimal(n / 10) + [DigitChar(n % 10)]
  }

  /** Rendering a number in decimal and reading it back is the identity. */
  lemma {:induction false} DecimalRoundTrip(n: nat)
    ensures DecimalValue(NatToDecimal(n)) == n
  {
    if n >= 10 {
      DecimalRoundTrip(n / 10);
      var r := NatToDecimal(n);
      assert r[..|r| - 1] == NatToDecimal(n / 10);
    }
  }

  function Pow10(n: nat): (p: nat)
    ensures p >= 1
  {
    if n == 0 then 1 else 10 * Pow10(n - 1)
  }

  lemma Pow10Nine()
    ensures Pow10(9) == 1_000_000_000
  {
    assert Pow10(3) == 1000;
    assert Pow10(6) == 1000 * Pow10(3);
  }

  lemma {:induction false} Pow10Add(a: nat, b: nat)
    ensures Pow10(a + b) == Pow10(a) * Pow10(b)
    decreases a
  {
    if a > 0 {
      Pow10Add(a - 1, b);
    }
  }

  lemma MultiplyStrict(x: int, y: int, k: int)
    requires 0 <= x < y && k > 0
    ensures x * k < y * k
  {
  }

  lemma MultiplyMono(x: int, y: int, k: int)
    requires x <= y && k >= 0
    ensures x * k <= y * k
  {
  }

  /** Division is determined by a quotient and a remainder in range. */
  lemma DivUnique(n: int, d: int, q: int, r: int)
    requires d > 0 && 0 <= r < d && n == q * d + r
    ensures n / d == q
  {
    var q', r' := n / d, n % d;
    assert (q - q') * d == r' - r;
    if q' < q {
      MultiplyMono(1, q - q', d);
    } else if q' > q {
      MultiplyMono(q - q', -1, d);
    }
  }

  /** A string of `n` digits denotes a number below 10^n. */
  lemma {:induction false} DecimalBound(s: string)
    requires AllDigits(s)
    ensures DecimalValue(s) < Pow10(|s|)
    decreases |s|
  {
    if |s| > 0 {
      DecimalBound(s[..|s| - 1]);
    }
  }

  predicate AllZeros(z: string) {
    forall i :: 0 <= i < |z| ==> z[i] == '0'
  }

  /** Leading zeros do not change a decimal value. */
  lemma {:induction false} DecimalLeadingZeros(z: string, s: string)
    requires AllZeros(z) && AllDigits(s)
    ensures AllDigits(z + s)
    ensures DecimalValue(z + s) == DecimalValue(s)
    decreases |s| + |z|
  {
    var t := z + s;
    if |s| == 0 {
      assert t == z;
      if |z| > 0 {
        DecimalLeadingZeros(z[..|z| - 1], "");
        assert z[..|z| - 1] + "" == z[..|z| - 1];
        assert t[..|t| - 1] == z[..|z| - 1];
      }
    } else {
      DecimalLeadingZeros(z, s[..|s| - 1]);
      assert t[..|t| - 1] == z + s[..|s| - 1];
      assert t[|t| - 1] == s[|s| - 1];
    }
  }

  function Repeat(ch: char, n: nat): (r: string)
    ensures |r| == n && forall i :: 0 <= i < n ==> r[i] == ch
  {
    seq(n, _ => ch)
  }

  /** Right-justify `s` in a field of `width` characters filled with zeros. */
  function ZeroPad(s: string, width: nat): (r: string)
    requires AllDigits(s)
    ensures AllDigits(r)
    ensures |r| == (if |s| < width then width else |s|)
    ensures DecimalValue(r) == DecimalValue(s)
  {
    if |s| >= width then s
    else
      var z := Repeat('0', width - |s|);
      DecimalLeadingZeros(z, s);
      z + s
  }

  /**
   * Python's `f"{n:04}"` for an integer: at least four characters, zero fill
   * after the sign, never truncated.
   */
  function FormatInt04(n: int): (r: string)
    ensures |r| >= 4
    ensures n >= 0 ==> AllDigits(r) && DecimalValue(r) == n
    ensures n < 0 ==> r[0] == '-' && AllDigits(r[1..]) && DecimalValue(r[1..]) == -n
    ensures '_' !in r && '/' !in r && '.' !in r
    ensures n >= 0 && |r| > 4 ==> r[0] != '0'
    ensures n < 0 && |r| > 4 ==> r[1] != '0'
  {
    if n >= 0 then
      DecimalRoundTrip(n);
      ZeroPad(NatToDecimal(n), 4)
    else
      DecimalRoundTrip(-n);
      var digits := ZeroPad(NatToDecimal(-n), 3);
      assert ("-" + digits)[1..] == digits;
      "-" + digits
  }

  // ---------------------------------------------------------------------------
  // Substrings and case
  // ---------------------------------------------------------------------------

  /** `pat` occurs in `s` starting at index `i`. */
  predicate InfixAt(s: string, pat: string, i: int) {
    0 <= i <= |s| - |pat| && s[i..i + |pat|] == pat
  }

  /** Python `pat in s`. */
  predicate ContainsInfix(s: string, pat: string) {
    exists i :: 0 <= i <= |s| && InfixAt(s, pat, i)
  }

  predicate IsAsciiUpper(ch: char) {
    'A' <= ch <= 'Z'
  }

  function AsciiLowerChar(ch: char): char {
    if IsAsciiUpper(ch) then (ch as int + 32) as char else ch
  }

  /**
   * `str.lower()` restricted to the ASCII letters: each upper-case letter
   * becomes its lower-case partner, no upper-case letter is left, and every
   * other character stays where it was.
   */
  function AsciiLower(s: string): (r: string)
    ensures |r| == |s|
    ensures forall i :: 0 <= i < |s| ==> !IsAsciiUpper(r[i])
    ensures forall i :: 0 <= i < |s| && IsAsciiUpper(s[i]) ==> r[i] as int == s[i] as int + 32 && 'a' <= r[i] <= 'z'
    ensures forall i :: 0 <= i < |s| && !IsAsciiUpper(s[i]) ==> r[i] == s[i]
  {
    seq(|s|, i requires 0 <= i < |s| => AsciiLowerChar(s[i]))
  }

  /** A text without upper-case ASCII letters is its own lower-case form, and only such a text is. */
  lemma LowerFixesOnlyLowercase(s: string)
    ensures AsciiLower(s) == s <==> forall i :: 0 <= i < |s| ==> !IsAsciiUpper(s[i])
  {
    if forall i :: 0 <= i < |s| ==> !IsAsciiUpper(s[i]) {
      assert forall i :: 0 <= i < |s| ==> AsciiLower(s)[i] == s[i];
    }
  }

  /** Lowering twice is lowering once. */
  lemma LowerIdempotent(s: string)
    ensures AsciiLower(AsciiLower(s)) == AsciiLower(s)
  {
    LowerFixesOnlyLowercase(AsciiLower(s));
  }

  /** Lowering works character by character, so it distributes over concatenation. */
  lemma LowerOfConcat(a: string, b: string)
    ensures AsciiLower(a + b) == AsciiLower(a) + AsciiLower(b)
  {
    var l, r := AsciiLower(a + b), AsciiLower(a) + AsciiLower(b);
    assert forall i :: 0 <= i < |a| ==> (a + b)[i] == a[i] && r[i] == AsciiLower(a)[i];
    assert forall i :: |a| <= i < |a + b| ==> (a + b)[i] == b[i - |a|] && r[i] == AsciiLower(b)[i - |a|];
    assert forall i :: 0 <= i < |l| ==> l[i] == r[i];
  }
}

=== FILE: task_controller.dfy ===
/**
 * The task lifecycle of the orchestrator
 * (bff/internal/controller/task_controller/task_controller.go): task creation
 * with its exact-hash fast path, the dispatch of analysis requests, and the
 * two result collectors that write the workers' answers and mark a task done
 * once both have arrived.
 *
 * The system state is the task table, the queue of published analysis
 * requests and the dispatch goroutines that have been started but not yet
 * run. Every store or broker call that can fail takes an explicit failure
 * argument, and a goroutine's run is a separate step, so that every
 * interleaving of the collectors is an ordering of steps.
 */
module TaskController {
  import opened Wrappers
  import opened TaskModel
  import opened Mappers
  import opened Fusion
  import opened Sorting

  /**
   * The task table, the id the next insert receives (a database serial), and
   * the original-video table as the hash lookup sees it: content hash to the
   * video ids of the originals with that hash, in the query's row order.
   */
  datatype Store = Store(tasks: map<int, PgTask>, nextId: int, originals: map<string, seq<string>>)

  datatype InputTopic = AudioInput | VideoInput

  /** A message published to an input topic. */
  datatype Request = Request(topic: InputTopic, body: KafkaLink)

  /** A `checkForCopyright` goroutine that has been started but has not run yet. */
  datatype DispatchJob = DispatchJob(taskId: int, videoFile: string, audioFile: string)

  datatype Sys = Sys(store: Store, broker: seq<Request>, pending: seq<DispatchJob>)

  /** The outcome of uploading a video, extracting its audio track and hashing it. */
  datatype Upload = Upload(videoFile: string, audioFile: string, hash: string)

  /** The store calls `CreateTask` makes, any of which may fail. */
  datatype StoreCall = LookupCall | CreateCall | UpdateVideoCall | UpdateAudioCall

  /** `CreateTask`'s effect on the system and its `(taskID, error)` return. */
  datatype Outcome = Outcome(sys: Sys, result: Result<int, string>)

  datatype Modality = VideoResult | AudioResult

  function Other(m: Modality): Modality {
    if m == VideoResult then AudioResult else VideoResult
  }

  function ColumnOf(t: PgTask, m: Modality): Column {
    if m == VideoResult then t.videoCopyright else t.audioCopyright
  }

  /** Both copyright columns hold a non-empty text. */
  predicate BothWritten(t: PgTask) {
    t.videoCopyright.Some? && t.audioCopyright.Some?
  }

  /** Two rows agree on everything but the copyright columns. */
  predicate SameBesidesColumns(a: PgTask, b: PgTask) {
    a.taskId == b.taskId && a.videoFile == b.videoFile && a.audioFile == b.audioFile
    && a.status == b.status && a.videoName == b.videoName
  }

  // ---------------------------------------------------------------------------
  // Store updates
  // ---------------------------------------------------------------------------

  /** The row with the text `w` stored in its `m` column. */
  function Put(t: PgTask, m: Modality, w: Wire): (r: PgTask)
    ensures ColumnOf(r, m) == Some(w) && ColumnOf(r, Other(m)) == ColumnOf(t, Other(m))
    ensures SameBesidesColumns(r, t)
  {
    if m == VideoResult then t.(videoCopyright := Some(w)) else t.(audioCopyright := Some(w))
  }

  /** The row after a fault-free done check: marked done once both columns are written. */
  function MarkIfAnswered(t: PgTask): (r: PgTask)
    ensures r.videoCopyright == t.videoCopyright && r.audioCopyright == t.audioCopyright
    ensures r.status == PgDone <==> t.status == PgDone || BothWritten(t)
    ensures r.status != PgDone ==> r == t
    ensures r == t.(status := r.status)
  {
    if BothWritten(t) then t.(status := PgDone) else t
  }

  /** `UpdateTaskVideoCopyright` / `UpdateTaskAudioCopyright`: an UPDATE by id, which touches nothing when no row has the id. */
  function WriteColumn(s: Store, m: Modality, id: int, w: Wire): (r: Store)
    ensures r.nextId == s.nextId && r.originals == s.originals
    ensures r.tasks.Keys == s.tasks.Keys
    ensures forall k :: k in s.tasks && k != id ==> r.tasks[k] == s.tasks[k]
    ensures id in s.tasks ==> ColumnOf(r.tasks[id], m) == Some(w)
    ensures id in s.tasks ==> ColumnOf(r.tasks[id], Other(m)) == ColumnOf(s.tasks[id], Other(m))
    ensures id in s.tasks ==> SameBesidesColumns(r.tasks[id], s.tasks[id])
  {
    if id !in s.tasks then s
    else s.(tasks := s.tasks[id := Put(s.tasks[id], m, w)])
  }

  /** `UpdateTaskStatus`: an UPDATE by id. */
  function SetStatus(s: Store, id: int, st: PgStatus): (r: Store)
    ensures r.nextId == s.nextId && r.originals == s.originals
    ensures r.tasks.Keys == s.tasks.Keys
    ensures forall k :: k in s.tasks && k != id ==> r.tasks[k] == s.tasks[k]
    ensures id in s.tasks ==> r.tasks[id].status == st
    ensures id in s.tasks ==> r.tasks[id] == s.tasks[id].(status := st)
  {
    if id !in s.tasks then s
    else s.(tasks := s.tasks[id := s.tasks[id].(status := st)])
  }

  /** `GetTask`: the row converted to the HTTP model, or an error when no row has the id. */
  function GetTask(s: Store, id: int): (r: Result<Task, string>)
    ensures r.Success? <==> id in s.tasks
    ensures r.Success? ==> r.value.taskId == s.tasks[id].taskId
    ensures r.Success? ==> r.value.status == StatusToModel(s.tasks[id].status)
    ensures r.Success? ==> (r.value.status == Done <==> s.tasks[id].status == PgDone)
    ensures r.Success? ==> r.value.videoCopyright == DecodeColumn(s.tasks[id].videoCopyright)
    ensures r.Success? ==> r.value.audioCopyright == DecodeColumn(s.tasks[id].audioCopyright)
  {
    if id !in s.tasks then Failure("get task failed")
    else TaskToModel(s.tasks[id])
  }

  // ---------------------------------------------------------------------------
  // Task creation
  // ---------------------------------------------------------------------------

  /** `GetOrigVideosByHash`: the originals whose stored hash equals `hash`. */
  function Originals(s: Store, hash: string): seq<string> {
    if hash in s.originals then s.originals[hash] else []
  }

  /**
   * What the fast path writes into both copyright columns. `AsWritten` is the
   * marshalled bare `Copyright` the code writes; `Envelope` is a result object
   * carrying that copyright, the shape every other writer of the columns uses.
   */
  datatype FastPathEncoding = AsWritten | Envelope

  function FastPathPayload(enc: FastPathEncoding, id: int, videoId: string): (w: Wire)
    ensures enc == Envelope ==> DecodeWire(w) == KafkaResponse(id, [Copyright(videoId, 1.0)])
    ensures enc == AsWritten ==> DecodeWire(w) == KafkaResponse(0, [])
  {
    match enc
    case AsWritten => EncodeCopyright(Copyright(videoId, 1.0))
    case Envelope => EncodeResponse(KafkaResponse(id, [Copyright(videoId, 1.0)]))
  }

  /** The request to the audio worker for a task. */
  function AudioRequest(job: DispatchJob): Request {
    Request(AudioInput, KafkaLink(job.taskId, ObjectUrl(AudioBucket, job.audioFile)))
  }

  /** The request to the video worker for a task. */
  function VideoRequest(job: DispatchJob): Request {
    Request(VideoInput, KafkaLink(job.taskId, ObjectUrl(VideoBucket, job.videoFile)))
  }

  /** The fast path applies: the upload succeeded and the lookup found an original with the same hash. */
  predicate FastPathApplies(sys: Sys, upload: Result<Upload, string>, fails: set<StoreCall>) {
    upload.Success? && LookupCall !in fails && |Originals(sys.store, upload.value.hash)| > 0
  }

  /** The slow path applies: the upload succeeded and no original has the same hash. */
  predicate SlowPathApplies(sys: Sys, upload: Result<Upload, string>, fails: set<StoreCall>) {
    upload.Success? && LookupCall !in fails && |Originals(sys.store, upload.value.hash)| == 0
  }

  /** The row insert and both of the fast path's column writes succeed. */
  predicate InsertAndWritesSucceed(fails: set<StoreCall>) {
    CreateCall !in fails && UpdateVideoCall !in fails && UpdateAudioCall !in fails
  }

  /**
   * `CreateTask`. When an original has the same content hash the task is
   * created done and both copyright columns receive a 100% match against the
   * first such original; otherwise the task is created in progress, its id is
   * returned at once and a dispatch goroutine is started.
   */
  function CreateTask(sys: Sys, upload: Result<Upload, string>, videoName: string,
                      fails: set<StoreCall>, enc: FastPathEncoding): (o: Outcome)
    // nothing is touched before the task row is inserted
    ensures upload.Failure? || LookupCall in fails || CreateCall in fails ==> o.sys == sys && o.result.Failure?
    // the dispatch queue only ever grows by this task's job, and only on the slow path
    ensures o.sys.broker == sys.broker
    ensures o.sys.pending == sys.pending || o.sys.pending == sys.pending + [DispatchJob(sys.store.nextId, upload.value.videoFile, upload.value.audioFile)]
    ensures o.sys.pending != sys.pending <==> SlowPathApplies(sys, upload, fails) && CreateCall !in fails
    ensures o.sys.store.originals == sys.store.originals
    ensures o.sys.store != sys.store ==> o.sys.store.nextId == sys.store.nextId + 1
    ensures o.sys.store != sys.store ==> forall k :: k in sys.store.tasks && k != sys.store.nextId ==> k in o.sys.store.tasks && o.sys.store.tasks[k] == sys.store.tasks[k]
    // success returns the id of a freshly inserted row
    ensures o.result.Success? ==> o.result.value == sys.store.nextId && o.result.value in o.sys.store.tasks
    ensures o.result.Success? ==> var t := o.sys.store.tasks[o.result.value];
      t.taskId == o.result.value && t.videoFile == upload.value.videoFile
      && t.audioFile == upload.value.audioFile && t.videoName == videoName
    // the slow path: in progress, no results yet
    ensures SlowPathApplies(sys, upload, fails) && CreateCall !in fails ==>
      o.result == Success(sys.store.nextId)
      && o.sys.store.tasks[sys.store.nextId].status == PgInProgress
      && !o.sys.store.tasks[sys.store.nextId].videoCopyright.Some?
      && !o.sys.store.tasks[sys.store.nextId].audioCopyright.Some?
    // the fast path: done, with the match written to both columns
    ensures FastPathApplies(sys, upload, fails) && InsertAndWritesSucceed(fails) ==>
      var id := sys.store.nextId;
      var w := FastPathPayload(enc, id, Originals(sys.store, upload.value.hash)[0]);
      o.result == Success(id) && o.sys.store.tasks[id].status == PgDone
      && o.sys.store.tasks[id].videoCopyright == Some(w) && o.sys.store.tasks[id].audioCopyright == Some(w)
  {
    if upload.Failure? then Outcome(sys, Failure("failed to upload video"))
    else if LookupCall in fails then Outcome(sys, Failure("failed to compare hash with original videos"))
    else if CreateCall in fails then Outcome(sys, Failure("create task failed"))
    else
      var u := upload.value;
      var videos := Originals(sys.store, u.hash);
      var id := sys.store.nextId;
      var status := if |videos| != 0 then PgDone else PgInProgress;
      var row := PgTask(id, u.videoFile, u.audioFile, status, None, None, videoName);
      var created := sys.store.(tasks := sys.store.tasks[id := row], nextId := id + 1);
      if |videos| != 0 then
        var w := FastPathPayload(enc, id, videos[0]);
        if UpdateVideoCall in fails then Outcome(sys.(store := created), Failure("failed to update task copyright"))
        else
          var withVideo := WriteColumn(created, VideoResult, id, w);
          if UpdateAudioCall in fails then Outcome(sys.(store := withVideo), Failure("failed to update task copyright"))
          else Outcome(sys.(store := WriteColumn(withVideo, AudioResult, id, w)), Success(id))
      else
        var job := DispatchJob(id, u.videoFile, u.audioFile);
        Outcome(sys.(store := created, pending := sys.pending + [job]), Success(id))
  }

  // ---------------------------------------------------------------------------
  // Dispatch
  // ---------------------------------------------------------------------------

  /** The steps of `checkForCopyright`, in the order it performs them. */
  datatype DispatchStep = RewriteStatus | AudioUrl | VideoUrl | PublishAudio | PublishVideo

  function Rank(st: DispatchStep): nat {
    match st
    case RewriteStatus => 0
    case AudioUrl => 1
    case VideoUrl => 2
    case PublishAudio => 3
    case PublishVideo => 4
  }

  /** Step `st` took effect when the run failed at `failAt` (or did not fail). */
  predicate Completes(failAt: Option<DispatchStep>, st: DispatchStep) {
    failAt.None? || Rank(st) < Rank(failAt.value)
  }

  /**
   * `checkForCopyright`: rewrite the status to in progress, fetch both object
   * URLs, then publish the audio request and after it the video request. The
   * first failing step ends the run; the error is only logged.
   */
  function CheckForCopyright(sys: Sys, job: DispatchJob, failAt: Option<DispatchStep>): (r: Sys)
    ensures r.pending == sys.pending
    ensures |r.broker| >= |sys.broker| && r.broker[..|sys.broker|] == sys.broker
    ensures failAt.None? ==> r.broker == sys.broker + [AudioRequest(job), VideoRequest(job)]
    ensures failAt == Some(PublishVideo) ==> r.broker == sys.broker + [AudioRequest(job)]
    ensures failAt.Some? && failAt.value != PublishVideo ==> r.broker == sys.broker
    ensures failAt == Some(RewriteStatus) ==> r.store == sys.store
    ensures failAt != Some(RewriteStatus) ==> r.store.tasks.Keys == sys.store.tasks.Keys
    ensures failAt != Some(RewriteStatus) && job.taskId in sys.store.tasks ==>
      r.store.tasks[job.taskId].status == PgInProgress
      && r.store.tasks[job.taskId].videoCopyright == sys.store.tasks[job.taskId].videoCopyright
      && r.store.tasks[job.taskId].audioCopyright == sys.store.tasks[job.taskId].audioCopyright
    ensures forall k :: k in sys.store.tasks && k != job.taskId ==> k in r.store.tasks && r.store.tasks[k] == sys.store.tasks[k]
  {
    var store := if Completes(failAt, RewriteStatus) then SetStatus(sys.store, job.taskId, PgInProgress) else sys.store;
    var audio := if Completes(failAt, PublishAudio) then [AudioRequest(job)] else [];
    var video := if Completes(failAt, PublishVideo) then [VideoRequest(job)] else [];
    sys.(store := store, broker := sys.broker + audio + video)
  }

  /** The scheduler runs the `i`-th started dispatch goroutine. */
  function RunDispatch(sys: Sys, i: nat, failAt: Option<DispatchStep>): (r: Sys)
    requires i < |sys.pending|
    ensures r.pending == sys.pending[..i] + sys.pending[i + 1..]
    ensures failAt.None? ==> r.broker == sys.broker + [AudioRequest(sys.pending[i]), VideoRequest(sys.pending[i])]
  {
    CheckForCopyright(sys.(pending := sys.pending[..i] + sys.pending[i + 1..]), sys.pending[i], failAt)
  }

  // ---------------------------------------------------------------------------
  // Result collection
  // ---------------------------------------------------------------------------

  /** Which of the collector's store calls fail on one message. */
  datatype CollectorFaults = CollectorFaults(write: bool, read: bool, status: bool)

  const NoFaults := CollectorFaults(false, false, false)

  /**
   * `checkTaskDone`: re-read the row and mark it done when both copyright
   * columns are non-empty. A failed read or a missing row changes nothing.
   */
  function CheckTaskDone(s: Store, id: int, readFails: bool, statusFails: bool): (r: Store)
    ensures r.nextId == s.nextId && r.originals == s.originals
    ensures r.tasks.Keys == s.tasks.Keys
    ensures forall k :: k in s.tasks ==>
      r.tasks[k].videoCopyright == s.tasks[k].videoCopyright && r.tasks[k].audioCopyright == s.tasks[k].audioCopyright
    ensures forall k :: k in s.tasks ==>
      (r.tasks[k].status == PgDone <==> s.tasks[k].status == PgDone || (k == id && BothWritten(s.tasks[k]) && !readFails && !statusFails))
    ensures forall k :: k in s.tasks && r.tasks[k].status != PgDone ==> r.tasks[k] == s.tasks[k]
  {
    if readFails || id !in s.tasks then s
    else if BothWritten(s.tasks[id]) && !statusFails then SetStatus(s, id, PgDone)
    else s
  }

  /**
   * One iteration of the video (`m == VideoResult`) or audio collector loop:
   * decode the message, write its text into the column of task `task_id`,
   * then check whether the task is done. An undecodable message or a failed
   * write skips the rest of the iteration.
   */
  function HandleResult(s: Store, m: Modality, msg: Message, f: CollectorFaults): (r: Store)
    ensures msg.Undecodable? || f.write ==> r == s
    ensures r.nextId == s.nextId && r.originals == s.originals
    ensures r.tasks.Keys == s.tasks.Keys
    ensures msg.Json? ==> forall k :: k in s.tasks && k != DecodeWire(msg.wire).taskId ==> r.tasks[k] == s.tasks[k]
    ensures msg.Json? && !f.write ==>
      var id := DecodeWire(msg.wire).taskId;
      id in s.tasks ==>
        ColumnOf(r.tasks[id], m) == Some(msg.wire)
        && ColumnOf(r.tasks[id], Other(m)) == ColumnOf(s.tasks[id], Other(m))
        && (r.tasks[id].status == PgDone <==>
              s.tasks[id].status == PgDone || (ColumnOf(s.tasks[id], Other(m)).Some? && !f.read && !f.status))
        && (r.tasks[id].status != PgDone ==> r.tasks[id].status == s.tasks[id].status)
  {
    match DecodeMessage(msg)
    case None => s
    case Some(k) =>
      if f.write then s
      else CheckTaskDone(WriteColumn(s, m, k.taskId, msg.wire), k.taskId, f.read, f.status)
  }

  // ---------------------------------------------------------------------------
  // Properties of the collectors
  // ---------------------------------------------------------------------------

  /** A row after one result lands in its column and the done check has run without faults. */
  function Landed(t: PgTask, m: Modality, w: Wire): (r: PgTask)
    ensures ColumnOf(r, m) == Some(w) && ColumnOf(r, Other(m)) == ColumnOf(t, Other(m))
    ensures r.status == PgDone <==> t.status == PgDone || ColumnOf(t, Other(m)).Some?
  {
    MarkIfAnswered(Put(t, m, w))
  }

  /** The store after a fault-free collector iteration for task `id`. */
  function Deliver(s: Store, id: int, m: Modality, w: Wire): Store {
    if id in s.tasks then s.(tasks := s.tasks[id := Landed(s.tasks[id], m, w)]) else s
  }

  /** Without faults, a collector iteration replaces the addressed row by its landed form. */
  lemma HandleIsLanding(s: Store, m: Modality, msg: Message)
    requires msg.Json?
    ensures HandleResult(s, m, msg, NoFaults) == Deliver(s, DecodeWire(msg.wire).taskId, m, msg.wire)
  {
    var id := DecodeWire(msg.wire).taskId;
    if id in s.tasks {
      var w := WriteColumn(s, m, id, msg.wire);
      if !BothWritten(w.tasks[id]) {
        assert w.tasks[id := w.tasks[id]] == w.tasks;
      }
    }
  }

  lemma DeliverCommute(s: Store, x: int, wv: Wire, y: int, wa: Wire)
    ensures Deliver(Deliver(s, x, VideoResult, wv), y, AudioResult, wa)
         == Deliver(Deliver(s, y, AudioResult, wa), x, VideoResult, wv)
  {
    if x == y && x in s.tasks {
      var t := s.tasks[x];
      assert Landed(Landed(t, VideoResult, wv), AudioResult, wa) == Landed(Landed(t, AudioResult, wa), VideoResult, wv);
    }
  }

  /** The two collectors commute: the order in which a video and an audio result are handled does not matter. */
  lemma CollectorsCommute(s: Store, mv: Message, ma: Message)
    ensures HandleResult(HandleResult(s, VideoResult, mv, NoFaults), AudioResult, ma, NoFaults)
         == HandleResult(HandleResult(s, AudioResult, ma, NoFaults), VideoResult, mv, NoFaults)
  {
    if mv.Json? && ma.Json? {
      HandleIsLanding(s, VideoResult, mv);
      HandleIsLanding(s, AudioResult, ma);
      HandleIsLanding(HandleResult(s, VideoResult, mv, NoFaults), AudioResult, ma);
      HandleIsLanding(HandleResult(s, AudioResult, ma, NoFaults), VideoResult, mv);
      DeliverCommute(s, DecodeWire(mv.wire).taskId, mv.wire, DecodeWire(ma.wire).taskId, ma.wire);
    }
  }

  /** Handling the same result twice (a redelivery) has the effect of handling it once. */
  lemma RedeliveryIsHarmless(s: Store, m: Modality, msg: Message)
    ensures HandleResult(HandleResult(s, m, msg, NoFaults), m, msg, NoFaults) == HandleResult(s, m, msg, NoFaults)
  {
    if msg.Json? {
      var id := DecodeWire(msg.wire).taskId;
      HandleIsLanding(s, m, msg);
      HandleIsLanding(HandleResult(s, m, msg, NoFaults), m, msg);
      if id in s.tasks {
        var t := s.tasks[id];
        assert Landed(Landed(t, m, msg.wire), m, msg.wire) == Landed(t, m, msg.wire);
      }
    }
  }

  /** A collector step, split at the point where the loop calls `checkTaskDone`. */
  datatype Event = Write(m: Modality, w: Wire) | Check(id: int)

  function Apply(s: Store, e: Event): Store {
    match e
    case Write(m, w) => WriteColumn(s, m, DecodeWire(w).taskId, w)
    case Check(id) => CheckTaskDone(s, id, false, false)
  }

  function Run(s: Store, es: seq<Event>): Store
    decreases |es|
  {
    if |es| == 0 then s else Run(Apply(s, es[0]), es[1..])
  }

  /** `t` interleaves `a` and `b`, keeping the order within each. */
  predicate Interleaving(t: seq<Event>, a: seq<Event>, b: seq<Event>)
    decreases |t|
  {
    if |t| == 0 then |a| == 0 && |b| == 0
    else
      || (|a| > 0 && t[0] == a[0] && Interleaving(t[1..], a[1..], b))
      || (|b| > 0 && t[0] == b[0] && Interleaving(t[1..], a, b[1..]))
  }

  /** The six ways to interleave two two-step sequences. */
  lemma {:induction false} TwoByTwo(t: seq<Event>, a0: Event, a1: Event, b0: Event, b1: Event)
    requires Interleaving(t, [a0, a1], [b0, b1])
    ensures t == [a0, a1, b0, b1] || t == [a0, b0, a1, b1] || t == [a0, b0, b1, a1]
         || t == [b0, a0, a1, b1] || t == [b0, a0, b1, a1] || t == [b0, b1, a0, a1]
  {
    assert |t| > 0;
    var a := [a0, a1];
    var b := [b0, b1];
    if t[0] == a0 && Interleaving(t[1..], a[1..], b) {
      OneByTwo(t[1..], a1, b0, b1);
    } else {
      assert t[0] == b0 && Interleaving(t[1..], a, b[1..]);
      TwoByOne(t[1..], a0, a1, b1);
    }
  }

  lemma {:induction false} OneByTwo(t: seq<Event>, a0: Event, b0: Event, b1: Event)
    requires Interleaving(t, [a0], [b0, b1])
    ensures t == [a0, b0, b1] || t == [b0, a0, b1] || t == [b0, b1, a0]
  {
    var a := [a0];
    var b := [b0, b1];
    assert |t| > 0;
    if t[0] == a0 && Interleaving(t[1..], a[1..], b) {
      NoneByTwo(t[1..], b0, b1);
    } else {
      assert t[0] == b0 && Interleaving(t[1..], a, b[1..]);
      OneByOne(t[1..], a0, b1);
    }
  }

  lemma {:induction false} TwoByOne(t: seq<Event>, a0: Event, a1: Event, b0: Event)
    requires Interleaving(t, [a0, a1], [b0])
    ensures t == [a0, a1, b0] || t == [a0, b0, a1] || t == [b0, a0, a1]
  {
    var a := [a0, a1];
    var b := [b0];
    assert |t| > 0;
    if t[0] == a0 && Interleaving(t[1..], a[1..], b) {
      OneByOne(t[1..], a1, b0);
    } else {
      assert t[0] == b0 && Interleaving(t[1..], a, b[1..]);
      assert b[1..] == [];
      InterleavingSwap(t[1..], a, []);
      NoneByTwo(t[1..], a0, a1);
    }
  }

  lemma {:induction false} OneByOne(t: seq<Event>, a0: Event, b0: Event)
    requires Interleaving(t, [a0], [b0])
    ensures t == [a0, b0] || t == [b0, a0]
  {
    var a := [a0];
    var b := [b0];
    assert |t| > 0;
    if t[0] == a0 && Interleaving(t[1..], a[1..], b) {
      NoneByOne(t[1..], b0);
    } else {
      assert t[0] == b0 && Interleaving(t[1..], a, b[1..]);
      assert b[1..] == [];
      InterleavingSwap(t[1..], a, []);
      NoneByOne(t[1..], a0);
    }
  }

  lemma {:induction false} NoneByTwo(t: seq<Event>, b0: Event, b1: Event)
    requires Interleaving(t, [], [b0, b1])
    ensures t == [b0, b1]
  {
    var b := [b0, b1];
    assert |t| > 0 && t[0] == b0 && Interleaving(t[1..], [], b[1..]);
    NoneByOne(t[1..], b1);
  }

  lemma {:induction false} NoneByOne(t: seq<Event>, b0: Event)
    requires Interleaving(t, [], [b0])
    ensures t == [b0]
  {
    var b := [b0];
    assert |t| > 0 && t[0] == b0 && Interleaving(t[1..], [], b[1..]);
    assert |t[1..]| == 0;
  }

  /** Interleaving is symmetric in its two operands. */
  lemma {:induction false} InterleavingSwap(t: seq<Event>, a: seq<Event>, b: seq<Event>)
    requires Interleaving(t, a, b)
    ensures Interleaving(t, b, a)
    decreases |t|
  {
    if |t| > 0 {
      if |a| > 0 && t[0] == a[0] && Interleaving(t[1..], a[1..], b) {
        InterleavingSwap(t[1..], a[1..], b);
      } else {
        InterleavingSwap(t[1..], a, b[1..]);
      }
    }
  }

  /** The event is about task `id`. */
  predicate Targets(e: Event, id: int) {
    match e
    case Write(_, w) => DecodeWire(w).taskId == id
    case Check(k) => k == id
  }

  /** An event's effect on the row it is about. */
  function StepRow(t: PgTask, e: Event): PgTask {
    match e
    case Write(m, w) => Put(t, m, w)
    case Check(_) => MarkIfAnswered(t)
  }

  function RowRun(t: PgTask, es: seq<Event>): PgTask
    decreases |es|
  {
    if |es| == 0 then t else RowRun(StepRow(t, es[0]), es[1..])
  }

  lemma ApplyOnRow(s: Store, id: int, e: Event)
    requires id in s.tasks && Targets(e, id)
    ensures Apply(s, e) == s.(tasks := s.tasks[id := StepRow(s.tasks[id], e)])
  {
    if e.Check? && !BothWritten(s.tasks[id]) {
      assert s.tasks[id := s.tasks[id]] == s.tasks;
    }
  }

  /** Events about one task only change that task's row. */
  lemma {:induction false} RunOnRow(s: Store, id: int, es: seq<Event>)
    requires id in s.tasks
    requires forall i :: 0 <= i < |es| ==> Targets(es[i], id)
    ensures Run(s, es) == s.(tasks := s.tasks[id := RowRun(s.tasks[id], es)])
    decreases |es|
  {
    if |es| > 0 {
      ApplyOnRow(s, id, es[0]);
      var s1 := Apply(s, es[0]);
      RunOnRow(s1, id, es[1..]);
      assert s1.tasks[id] == StepRow(s.tasks[id], es[0]);
    }
  }

  /** `RowRun` over four events, step by step. */
  lemma FourSteps(t: PgTask, es: seq<Event>)
    requires |es| == 4
    ensures RowRun(t, es) == StepRow(StepRow(StepRow(StepRow(t, es[0]), es[1]), es[2]), es[3])
  {
    var t1 := StepRow(t, es[0]);
    var t2 := StepRow(t1, es[1]);
    var t3 := StepRow(t2, es[2]);
    assert es[1..][0] == es[1] && es[1..][1..] == es[2..];
    assert es[2..][0] == es[2] && es[2..][1..] == es[3..];
    assert es[3..][0] == es[3] && es[3..][1..] == [];
    assert RowRun(t, es) == RowRun(t1, es[1..]);
    assert RowRun(t1, es[1..]) == RowRun(t2, es[2..]);
    assert RowRun(t2, es[2..]) == RowRun(t3, es[3..]);
    assert RowRun(t3, es[3..]) == RowRun(StepRow(t3, es[3]), []);
  }

  /** The row of task `id` once both results have been written, in either order, and checked. */
  predicate FinishedWith(s: Store, id: int, wv: Wire, wa: Wire) {
    id in s.tasks && s.tasks[id].status == PgDone
    && s.tasks[id].videoCopyright == Some(wv) && s.tasks[id].audioCopyright == Some(wa)
  }

  /**
   * However the two collector goroutines interleave their write and check
   * steps for one task, the task ends done with both results stored and no
   * other row changes.
   */
  lemma BothResultsEndDone(s: Store, wv: Wire, wa: Wire, t: seq<Event>)
    requires DecodeWire(wv).taskId == DecodeWire(wa).taskId
    requires DecodeWire(wv).taskId in s.tasks
    requires Interleaving(t, [Write(VideoResult, wv), Check(DecodeWire(wv).taskId)],
                             [Write(AudioResult, wa), Check(DecodeWire(wa).taskId)])
    ensures FinishedWith(Run(s, t), DecodeWire(wv).taskId, wv, wa)
    ensures forall k :: k in s.tasks && k != DecodeWire(wv).taskId ==> k in Run(s, t).tasks && Run(s, t).tasks[k] == s.tasks[k]
  {
    BothEndDoneAt(s, DecodeWire(wv).taskId, wv, wa, t);
  }

  /** The same, for the task both results name. */
  lemma BothEndDoneAt(s: Store, id: int, wv: Wire, wa: Wire, t: seq<Event>)
    requires id in s.tasks
    requires Targets(Write(VideoResult, wv), id) && Targets(Write(AudioResult, wa), id)
    requires Interleaving(t, [Write(VideoResult, wv), Check(id)], [Write(AudioResult, wa), Check(id)])
    ensures FinishedWith(Run(s, t), id, wv, wa)
    ensures forall k :: k in s.tasks && k != id ==> k in Run(s, t).tasks && Run(s, t).tasks[k] == s.tasks[k]
  {
    var a0, a1, b0, b1 := Write(VideoResult, wv), Check(id), Write(AudioResult, wa), Check(id);
    TwoByTwo(t, a0, a1, b0, b1);
    assert forall i :: 0 <= i < |t| ==> t[i] == a0 || t[i] == a1 || t[i] == b0 || t[i] == b1;
    RunOnRow(s, id, t);
    RowEndsDone(s.tasks[id], wv, wa, id, t);
  }

  /** Each of the six orders of the two (write, check) pairs leaves the row done with both results. */
  lemma RowEndsDone(row: PgTask, wv: Wire, wa: Wire, id: int, t: seq<Event>)
    requires var a0, a1, b0, b1 := Write(VideoResult, wv), Check(id), Write(AudioResult, wa), Check(id);
      t == [a0, a1, b0, b1] || t == [a0, b0, a1, b1] || t == [a0, b0, b1, a1]
      || t == [b0, a0, a1, b1] || t == [b0, a0, b1, a1] || t == [b0, b1, a0, a1]
    ensures RowRun(row, t).status == PgDone
    ensures RowRun(row, t).videoCopyright == Some(wv) && RowRun(row, t).audioCopyright == Some(wa)
  {
    FourSteps(row, t);
  }

  // ---------------------------------------------------------------------------
  // The "done means answered" invariant
  // ---------------------------------------------------------------------------

  /** Every task marked done has both copyright columns written. */
  predicate DoneMeansAnswered(s: Store) {
    forall k :: k in s.tasks && s.tasks[k].status == PgDone ==> BothWritten(s.tasks[k])
  }

  /** The collectors keep the invariant, whatever fails. */
  lemma CollectorKeepsDoneMeansAnswered(s: Store, m: Modality, msg: Message, f: CollectorFaults)
    requires DoneMeansAnswered(s)
    ensures DoneMeansAnswered(HandleResult(s, m, msg, f))
  {
    var r := HandleResult(s, m, msg, f);
    forall k | k in r.tasks && r.tasks[k].status == PgDone ensures BothWritten(r.tasks[k]) {
      if msg.Json? && !f.write && k == DecodeWire(msg.wire).taskId {
        assert ColumnOf(r.tasks[k], m).Some? && ColumnOf(r.tasks[k], Other(m)).Some?;
      }
    }
  }

  /** A dispatch run keeps the invariant, whatever fails. */
  lemma DispatchKeepsDoneMeansAnswered(sys: Sys, i: nat, failAt: Option<DispatchStep>)
    requires i < |sys.pending|
    requires DoneMeansAnswered(sys.store)
    ensures DoneMeansAnswered(RunDispatch(sys, i, failAt).store)
  {
  }

  /** Task creation keeps the invariant unless one of the fast path's column writes fails. */
  lemma CreateKeepsDoneMeansAnswered(sys: Sys, upload: Result<Upload, string>, videoName: string,
                                     fails: set<StoreCall>, enc: FastPathEncoding)
    requires DoneMeansAnswered(sys.store)
    requires sys.store.nextId !in sys.store.tasks
    requires UpdateVideoCall !in fails && UpdateAudioCall !in fails
    ensures DoneMeansAnswered(CreateTask(sys, upload, videoName, fails, enc).sys.store)
  {
  }

  /**
   * A failed column write on the fast path leaves a task marked done with no
   * answer stored, and the caller never learns its id.
   */
  lemma FastPathWriteFailureLeavesDoneTask()
    ensures var sys := Sys(Store(map[], 7, map["h" := ["orig"]]), [], []);
      var o := CreateTask(sys, Success(Upload("v.mp4", "a.mp3", "h")), "clip", {UpdateVideoCall}, AsWritten);
      o.result.Failure? && !DoneMeansAnswered(o.sys.store)
      && GetTask(o.sys.store, 7) == Success(Task(7, Done, [], []))
  {
    var sys := Sys(Store(map[], 7, map["h" := ["orig"]]), [], []);
    var o := CreateTask(sys, Success(Upload("v.mp4", "a.mp3", "h")), "clip", {UpdateVideoCall}, AsWritten);
    assert o.sys.store.tasks[7].status == PgDone && !BothWritten(o.sys.store.tasks[7]);
  }

  // ---------------------------------------------------------------------------
  // The fast path's verdict
  // ---------------------------------------------------------------------------

  /**
   * As written, the task the fast path creates reads back with two empty
   * candidate lists, so the verdict the HTTP layer computes for it is "not a
   * duplicate" although an identical original was found.
   */
  lemma FastPathVerdictIsEmpty(sys: Sys, upload: Result<Upload, string>, videoName: string, fails: set<StoreCall>)
    requires FastPathApplies(sys, upload, fails)
    requires InsertAndWritesSucceed(fails)
    ensures var o := CreateTask(sys, upload, videoName, fails, AsWritten);
      o.result.Success? && GetTask(o.sys.store, o.result.value).Success?
      && var task := GetTask(o.sys.store, o.result.value).value;
      task.status == Done && task.videoCopyright == [] && task.audioCopyright == []
      && Defined(task.videoCopyright, task.audioCopyright)
      && Enumerates([], Fused(task.videoCopyright, task.audioCopyright).Keys)
      && IsCopyrighted(task.videoCopyright, task.audioCopyright, []) == Verdict("", false)
  {
    assert ToMap([]) == map[];
  }

  /**
   * With the result envelope as payload, the fast path's task reads back with
   * the original as a 100% match in both lists, and the verdict names it.
   */
  lemma FastPathEnvelopeVerdict(sys: Sys, upload: Result<Upload, string>, videoName: string, fails: set<StoreCall>)
    requires FastPathApplies(sys, upload, fails)
    requires InsertAndWritesSucceed(fails)
    ensures var o := CreateTask(sys, upload, videoName, fails, Envelope);
      var orig := Originals(sys.store, upload.value.hash)[0];
      o.result.Success? && GetTask(o.sys.store, o.result.value).Success?
      && var task := GetTask(o.sys.store, o.result.value).value;
      task.status == Done
      && task.videoCopyright == [Copyright(orig, 1.0)] && task.audioCopyright == [Copyright(orig, 1.0)]
      && Defined(task.videoCopyright, task.audioCopyright)
      && Enumerates([orig], Fused(task.videoCopyright, task.audioCopyright).Keys)
      && IsCopyrighted(task.videoCopyright, task.audioCopyright, [orig]) == Verdict(orig, true)
  {
    var orig := Originals(sys.store, upload.value.hash)[0];
    var one := [Copyright(orig, 1.0)];
    assert ToMap(one) == map[orig := 1.0];
    assert Fused(one, one) == map[orig := 1.0];
    var v := IsCopyrighted(one, one, [orig]);
    assert v.duplicate && IsLowestSurvivor(Fused(one, one), v.name);
  }
}

=== FILE: task_model.dfy ===
/**
 * The entities of the orchestrator (bff/internal/model/task.go) and the JSON
 * texts that travel between it, the workers and the task store.
 *
 * JSON is modelled by the structure of the text rather than by its bytes: an
 * object is its members in text order, and a value is told apart only as far
 * as `json.Unmarshal` into a `KafkaResponse` needs.
 */
module TaskModel {
  import opened Wrappers
  import Strs

  /** `model.Copyright`: one candidate reference with its match probability. */
  datatype Copyright = Copyright(name: string, probability: real)

  /** `model.TaskStatus` as the HTTP layer sees it. */
  datatype TaskStatus = Done | InProgress | Failed

  /** `model.Task`: what `GetTask` returns. */
  datatype Task = Task(taskId: int, status: TaskStatus, videoCopyright: seq<Copyright>, audioCopyright: seq<Copyright>)

  /** `model.KafkaResponse`: a worker's result, `{task_id, copyright}`. */
  datatype KafkaResponse = KafkaResponse(taskId: int, copy: seq<Copyright>)

  /** The two object-storage buckets. */
  datatype Bucket = VideoBucket | AudioBucket

  /** A presigned URL for an object, as returned by the storage client. */
  datatype ObjectUrl = ObjectUrl(bucket: Bucket, key: string)

  /** `model.KafkaLink`: an analysis request, `{task_id, link}`. */
  datatype KafkaLink = KafkaLink(taskId: int, link: ObjectUrl)

  /** A JSON value, as far as decoding a `KafkaResponse` tells values apart. */
  datatype Value =
    | Integer(n: int)                  // a number written without fraction or exponent
    | Decimal(x: real)                 // any other number
    | Text(s: string)
    | Flag(b: bool)
    | Candidates(cs: seq<Copyright>)   // an array of copyright objects
    | Null

  /** One `"key": value` member of a JSON object. */
  datatype Member = Member(key: string, value: Value)

  /** A JSON text: an object with its members in text order, or the literal `null`. */
  datatype Json = Object(members: seq<Member>) | NullLiteral

  /** The tags of `KafkaResponse`'s two fields. */
  const TaskIdTag := "task_id"
  const CopyrightTag := "copyright"

  /** `encoding/json` selects a field for a key that equals its tag up to letter case. */
  predicate Selects(key: string, tag: string) {
    Strs.AsciiLower(key) == tag
  }

  /** The fields of `KafkaResponse`, and none for a key matching neither tag. */
  datatype Target = IdField | CopyField | NoField

  /** The field a key selects; no key selects both, as the tags differ in length. */
  function TargetOf(key: string): Target {
    if Selects(key, TaskIdTag) then IdField
    else if Selects(key, CopyrightTag) then CopyField
    else NoField
  }

  /** The member stores an integer into `TaskID`. */
  predicate SetsId(m: Member) {
    TargetOf(m.key) == IdField && m.value.Integer?
  }

  /** The member stores into `Copy` (a `null` stores the nil slice). */
  predicate SetsCopy(m: Member) {
    TargetOf(m.key) == CopyField
  }

  /** The member's value has the type of the field its key selects; `null` fits any field. */
  predicate Fits(m: Member) {
    match TargetOf(m.key)
    case IdField => m.value.Integer? || m.value.Null?
    case CopyField => m.value.Candidates? || m.value.Null?
    case NoField => true
  }

  /** `json.Unmarshal` into a `KafkaResponse` reports no type error. */
  predicate Accepted(j: Json) {
    j.Object? ==> forall i :: 0 <= i < |j.members| ==> Fits(j.members[i])
  }

  /**
   * A JSON text that `json.Unmarshal` accepts into a `KafkaResponse`. Texts it
   * rejects, whether malformed or mistyped, are `Message.Undecodable`.
   */
  type Wire = j: Json | Accepted(j) witness NullLiteral

  function MembersOf(j: Json): seq<Member> {
    if j.Object? then j.members else []
  }

  /** `ms[i]` stores the id and no later member does. */
  predicate SetsIdLast(ms: seq<Member>, i: int) {
    0 <= i < |ms| && SetsId(ms[i]) && forall j :: i < j < |ms| ==> !SetsId(ms[j])
  }

  /** `ms[i]` stores the list and no later member does. */
  predicate SetsCopyLast(ms: seq<Member>, i: int) {
    0 <= i < |ms| && SetsCopy(ms[i]) && forall j :: i < j < |ms| ==> !SetsCopy(ms[j])
  }

  /** The list a fitting `copyright` value stores: its candidates, or nil for `null`. */
  function ListOf(v: Value): seq<Copyright> {
    if v.Candidates? then v.cs else []
  }

  /** Storing one member into the response decoded so far. */
  function StoreMember(k: KafkaResponse, m: Member): KafkaResponse {
    if SetsId(m) then k.(taskId := m.value.n)
    else if SetsCopy(m) then k.(copy := ListOf(m.value))
    else k
  }

  /** Decoding the members in text order into the zero `KafkaResponse`. */
  function DecodeMembers(ms: seq<Member>): KafkaResponse
    decreases |ms|
  {
    if |ms| == 0 then KafkaResponse(0, [])
    else StoreMember(DecodeMembers(ms[..|ms| - 1]), ms[|ms| - 1])
  }

  /** The id no member stores keeps its zero value; otherwise the last member storing it decides it. */
  lemma IdDecided(ms: seq<Member>)
    ensures (forall i :: 0 <= i < |ms| ==> !SetsId(ms[i])) ==> DecodeMembers(ms).taskId == 0
    ensures forall i :: SetsIdLast(ms, i) ==> DecodeMembers(ms).taskId == ms[i].value.n
  {
    if forall i :: 0 <= i < |ms| ==> !SetsId(ms[i]) {
      IdUnset(ms);
    }
    forall i | SetsIdLast(ms, i) ensures DecodeMembers(ms).taskId == ms[i].value.n {
      IdLast(ms, i);
    }
  }

  /** An id no member stores keeps its zero value. */
  lemma {:induction false} IdUnset(ms: seq<Member>)
    requires forall i :: 0 <= i < |ms| ==> !SetsId(ms[i])
    ensures DecodeMembers(ms).taskId == 0
    decreases |ms|
  {
    if |ms| > 0 {
      var init := ms[..|ms| - 1];
      assert forall i :: 0 <= i < |init| ==> init[i] == ms[i];
      IdUnset(init);
      StoreId(DecodeMembers(init), ms[|ms| - 1]);
    }
  }

  /** The last member storing the id decides it. */
  lemma {:induction false} IdLast(ms: seq<Member>, i: int)
    requires SetsIdLast(ms, i)
    ensures DecodeMembers(ms).taskId == ms[i].value.n
    decreases |ms|
  {
    var init := ms[..|ms| - 1];
    StoreId(DecodeMembers(init), ms[|ms| - 1]);
    if i < |ms| - 1 {
      assert forall j :: 0 <= j < |init| ==> init[j] == ms[j];
      assert SetsIdLast(init, i);
      IdLast(init, i);
    }
  }

  /** Storing a member changes the id exactly when the member stores it. */
  lemma StoreId(k: KafkaResponse, m: Member)
    ensures StoreMember(k, m).taskId == if SetsId(m) then m.value.n else k.taskId
  {
  }

  /** The list no member stores stays empty; otherwise the last member storing it decides it. */
  lemma CopyDecided(ms: seq<Member>)
    ensures (forall i :: 0 <= i < |ms| ==> !SetsCopy(ms[i])) ==> DecodeMembers(ms).copy == []
    ensures forall i :: SetsCopyLast(ms, i) ==> DecodeMembers(ms).copy == ListOf(ms[i].value)
  {
    if forall i :: 0 <= i < |ms| ==> !SetsCopy(ms[i]) {
      CopyUnset(ms);
    }
    forall i | SetsCopyLast(ms, i) ensures DecodeMembers(ms).copy == ListOf(ms[i].value) {
      CopyLast(ms, i);
    }
  }

  /** A list no member stores stays empty. */
  lemma {:induction false} CopyUnset(ms: seq<Member>)
    requires forall i :: 0 <= i < |ms| ==> !SetsCopy(ms[i])
    ensures DecodeMembers(ms).copy == []
    decreases |ms|
  {
    if |ms| > 0 {
      var init := ms[..|ms| - 1];
      assert forall i :: 0 <= i < |init| ==> init[i] == ms[i];
      CopyUnset(init);
      StoreCopy(DecodeMembers(init), ms[|ms| - 1]);
    }
  }

  /** The last member storing the list decides it. */
  lemma {:induction false} CopyLast(ms: seq<Member>, i: int)
    requires SetsCopyLast(ms, i)
    ensures DecodeMembers(ms).copy == ListOf(ms[i].value)
    decreases |ms|
  {
    var init := ms[..|ms| - 1];
    StoreCopy(DecodeMembers(init), ms[|ms| - 1]);
    if i < |ms| - 1 {
      assert forall j :: 0 <= j < |init| ==> init[j] == ms[j];
      assert SetsCopyLast(init, i);
      CopyLast(init, i);
    }
  }

  /** Storing a member changes the list exactly when the member stores it. */
  lemma StoreCopy(k: KafkaResponse, m: Member)
    ensures StoreMember(k, m).copy == if SetsCopy(m) then ListOf(m.value) else k.copy
  {
  }

  /** `json.Unmarshal(text, &k)` on a text it accepts, into the zero `k`. */
  function DecodeWire(w: Wire): KafkaResponse {
    DecodeMembers(MembersOf(w))
  }

  /**
   * What `json.Unmarshal` makes of an accepted text: unknown keys are ignored,
   * a field no member stores keeps its zero value, and the last member storing
   * a field decides it.
   */
  lemma DecodeWireDecides(w: Wire)
    ensures (forall i :: 0 <= i < |MembersOf(w)| ==> !SetsId(MembersOf(w)[i])) ==> DecodeWire(w).taskId == 0
    ensures forall i :: SetsIdLast(MembersOf(w), i) ==> DecodeWire(w).taskId == MembersOf(w)[i].value.n
    ensures (forall i :: 0 <= i < |MembersOf(w)| ==> !SetsCopy(MembersOf(w)[i])) ==> DecodeWire(w).copy == []
    ensures forall i :: SetsCopyLast(MembersOf(w), i) ==> DecodeWire(w).copy == ListOf(MembersOf(w)[i].value)
  {
    IdDecided(MembersOf(w));
    CopyDecided(MembersOf(w));
  }

  /** `json.Marshal` of a `KafkaResponse`, as the workers publish it. */
  function EncodeResponse(k: KafkaResponse): (w: Wire)
    ensures DecodeWire(w) == k
  {
    TagsAreLowerCase();
    var w: Json := Object([Member(TaskIdTag, Integer(k.taskId)), Member(CopyrightTag, Candidates(k.copy))]);
    assert SetsIdLast(w.members, 0) && SetsCopyLast(w.members, 1);
    DecodeWireDecides(w);
    w
  }

  /**
   * `json.Marshal` of a bare `Copyright`: its fields carry no tags, so its keys
   * are the field names, and neither selects a field of `KafkaResponse`.
   */
  function EncodeCopyright(c: Copyright): (w: Wire)
    ensures DecodeWire(w) == KafkaResponse(0, [])
  {
    var w: Json := Object([Member("Name", Text(c.name)), Member("Probability", Decimal(c.probability))]);
    assert forall i :: 0 <= i < |w.members| ==> |Strs.AsciiLower(w.members[i].key)| != |TaskIdTag|;
    assert forall i :: 0 <= i < |w.members| ==> |Strs.AsciiLower(w.members[i].key)| != |CopyrightTag|;
    DecodeWireDecides(w);
    w
  }

  /** A message value read from a result topic: a text `json.Unmarshal` accepts, or one it rejects. */
  datatype Message = Json(wire: Wire) | Undecodable(raw: string)

  /** `json.Unmarshal` of a message value: `None` is the error return. */
  function DecodeMessage(m: Message): Option<KafkaResponse> {
    match m
    case Json(w) => Some(DecodeWire(w))
    case Undecodable(_) => None
  }

  /** A worker's published result reads back as exactly that result. */
  lemma WorkerResultDecodes(k: KafkaResponse)
    ensures DecodeMessage(Json(EncodeResponse(k))) == Some(k)
  {
  }

  /** `null` decodes to the zero response. */
  lemma NullDecodesToZero()
    ensures DecodeWire(NullLiteral) == KafkaResponse(0, [])
  {
  }

  /**
   * Keys match their tags whatever their letter case, and the last member wins:
   * `{"TASK_ID": 1, "Task_Id": 7, "Copyright": null}` decodes to id 7 and no candidates.
   */
  lemma CaseInsensitiveLastWins()
    ensures Accepted(Object([Member("TASK_ID", Integer(1)), Member("Task_Id", Integer(7)), Member("Copyright", Null)]))
    ensures DecodeWire(Object([Member("TASK_ID", Integer(1)), Member("Task_Id", Integer(7)), Member("Copyright", Null)]))
      == KafkaResponse(7, [])
  {
    var ms := [Member("TASK_ID", Integer(1)), Member("Task_Id", Integer(7)), Member("Copyright", Null)];
    assert Strs.AsciiLower("TASK_ID") == TaskIdTag;
    assert Strs.AsciiLower("Task_Id") == TaskIdTag;
    assert Strs.AsciiLower("Copyright") == CopyrightTag;
    assert SetsIdLast(ms, 1) && SetsCopyLast(ms, 2);
    DecodeWireDecides(Object(ms));
  }

  /** A `task_id` written as a string is a type error, so the text is not accepted. */
  lemma MistypedIdRejected(id: string)
    ensures !Accepted(Object([Member("task_id", Text(id))]))
  {
    TagsAreLowerCase();
    var j := Object([Member("task_id", Text(id))]);
    assert !Fits(j.members[0]);
  }

  /** A `task_id` written as a fractional number does not fit the int64 field, so the text is not accepted. */
  lemma FractionalIdRejected(x: real)
    ensures !Accepted(Object([Member("task_id", Decimal(x))]))
  {
    TagsAreLowerCase();
    var j := Object([Member("task_id", Decimal(x))]);
    assert !Fits(j.members[0]);
  }

  /** Each tag selects its own field when written as it is. */
  lemma TagsAreLowerCase()
    ensures TargetOf(TaskIdTag) == IdField && TargetOf(CopyrightTag) == CopyField
  {
    Strs.LowerFixesOnlyLowercase(TaskIdTag);
    Strs.LowerFixesOnlyLowercase(CopyrightTag);
    assert forall i :: 0 <= i < |TaskIdTag| ==> !Strs.IsAsciiUpper(TaskIdTag[i]);
    assert forall i :: 0 <= i < |CopyrightTag| ==> !Strs.IsAsciiUpper(CopyrightTag[i]);
  }
}

=== FILE: tmk.dfy ===
/**
 * The TMK worker's text handling (tmk_full.py): reading the cluster indices
 * and video ids out of `tmk-clusterize-parallel`'s output, and classifying
 * `tmk-compare-two-tmks`' output as similar or not.
 */
module Tmk {
  import opened Wrappers
  import opened Strs

  /** Python `str.isspace` for one character. */
  predicate IsSpace(c: char) {
    || c == ' ' || ('\t' <= c <= '\r') || ('\U{1c}' <= c <= '\U{1f}')
    || c == '\U{85}' || c == '\U{a0}' || c == '\U{1680}' || ('\U{2000}' <= c <= '\U{200a}')
    || c == '\U{2028}' || c == '\U{2029}' || c == '\U{202f}' || c == '\U{205f}' || c == '\U{3000}'
  }

  /** Everything in `s` is whitespace. */
  predicate AllSpace(s: string) {
    forall k :: 0 <= k < |s| ==> IsSpace(s[k])
  }

  /** `str.lstrip()`: the suffix left after dropping leading whitespace. */
  function StripStart(s: string): (r: string)
    ensures |r| <= |s| && r == s[|s| - |r|..]
    ensures AllSpace(s[..|s| - |r|])
    ensures |r| == 0 || !IsSpace(r[0])
    decreases |s|
  {
    if |s| > 0 && IsSpace(s[0]) then
      var r := StripStart(s[1..]);
      assert s[..|s| - |r|] == [s[0]] + s[1..][..|s| - 1 - |r|];
      r
    else s
  }

  /** `str.rstrip()`: the prefix left after dropping trailing whitespace. */
  function StripEnd(s: string): (r: string)
    ensures |r| <= |s| && r == s[..|r|]
    ensures AllSpace(s[|r|..])
    ensures |r| == 0 || !IsSpace(r[|r| - 1])
    decreases |s|
  {
    if |s| > 0 && IsSpace(s[|s| - 1]) then
      var r := StripEnd(s[..|s| - 1]);
      assert s[|r|..] == s[..|s| - 1][|r|..] + [s[|s| - 1]];
      r
    else s
  }

  /** `str.strip()`. */
  function Strip(s: string): (r: string)
    ensures |r| == 0 || (!IsSpace(r[0]) && !IsSpace(r[|r| - 1]))
    ensures AllSpace(s) ==> r == ""
  {
    var t := StripStart(s);
    assert AllSpace(s) ==> t == [] by {
      if AllSpace(s) {
        BlankStartsEmpty(s, t);
      }
    }
    StripEnd(t)
  }

  /** Dropping leading whitespace from a blank text leaves nothing. */
  lemma BlankStartsEmpty(s: string, t: string)
    requires AllSpace(s) && |t| <= |s| && t == s[|s| - |t|..] && (|t| == 0 || !IsSpace(t[0]))
    ensures t == []
  {
  }

  /**
   * What `strip` leaves is the part of `s` between its leading and its
   * trailing whitespace; with `Strip`'s own contract, it neither begins nor
   * ends with whitespace, so that part is determined.
   */
  lemma StripIsTrimmedSlice(s: string)
    ensures exists i ::
              && 0 <= i <= |s| - |Strip(s)| && Strip(s) == s[i..i + |Strip(s)|]
              && AllSpace(s[..i]) && AllSpace(s[i + |Strip(s)|..])
  {
    var t := StripStart(s);
    var r := StripEnd(t);
    var i := |s| - |t|;
    StripParts(s, t, r, i);
    assert r == Strip(s);
  }

  /** Cutting leading whitespace and then trailing whitespace leaves a slice of the original between the two. */
  lemma StripParts(s: string, t: string, r: string, i: int)
    requires i == |s| - |t| && 0 <= i && t == s[i..] && AllSpace(s[..i])
    requires |r| <= |t| && r == t[..|r|] && AllSpace(t[|r|..])
    ensures 0 <= i <= |s| - |r| && r == s[i..i + |r|] && AllSpace(s[..i]) && AllSpace(s[i + |r|..])
  {
    assert s[i + |r|..] == t[|r|..];
  }

  /** The line boundaries of Python `str.splitlines` ("\r\n" counts as one). */
  predicate IsLineBreak(c: char) {
    || c == '\n' || c == '\r' || c == '\U{b}' || c == '\U{c}' || ('\U{1c}' <= c <= '\U{1e}')
    || c == '\U{85}' || c == '\U{2028}' || c == '\U{2029}'
  }

  /** The first line boundary at or after `i`, or `|s|`. */
  function BreakIndex(s: string, i: nat): (k: nat)
    requires i <= |s|
    ensures i <= k <= |s|
    ensures k < |s| ==> IsLineBreak(s[k])
    ensures forall j :: i <= j < k ==> !IsLineBreak(s[j])
    decreases |s| - i
  {
    if i == |s| || IsLineBreak(s[i]) then i else BreakIndex(s, i + 1)
  }

  /** No line boundary anywhere in `s`. */
  predicate OneLine(s: string) {
    forall j :: 0 <= j < |s| ==> !IsLineBreak(s[j])
  }

  /** Python `str.splitlines()`: no trailing empty line, and "" gives no lines. */
  function SplitLines(s: string): (r: seq<string>)
    ensures forall i :: 0 <= i < |r| ==> OneLine(r[i])
    ensures |s| == 0 <==> r == []
    decreases |s|
  {
    if |s| == 0 then []
    else
      var k := BreakIndex(s, 0);
      if k == |s| then [s]
      else
        var w := if s[k] == '\r' && k + 1 < |s| && s[k + 1] == '\n' then 2 else 1;
        [s[..k]] + SplitLines(s[k + w..])
  }

  /**
   * Lines joined by "\n" split back into themselves, provided none holds a
   * boundary and the last one is not empty (a trailing "\n" ends a line, it
   * does not start one).
   */
  lemma {:induction false} SplitLinesJoin(lines: seq<string>)
    requires |lines| > 0 && |lines[|lines| - 1]| > 0
    requires forall i :: 0 <= i < |lines| ==> OneLine(lines[i])
    ensures SplitLines(Join(lines, '\n')) == lines
    decreases |lines|
  {
    var s := Join(lines, '\n');
    if |lines| == 1 {
      assert s == lines[0];
      assert BreakIndex(s, 0) == |s|;
    } else {
      var rest := Join(lines[1..], '\n');
      assert s == lines[0] + ['\n'] + rest;
      var k := BreakIndex(s, 0);
      assert forall j :: 0 <= j < |lines[0]| ==> s[j] == lines[0][j];
      assert s[|lines[0]|] == '\n';
      assert k == |lines[0]|;
      assert s[..k] == lines[0];
      assert s[k + 1..] == rest;
      SplitLinesJoin(lines[1..]);
    }
  }

  /** The two character classes of the cluster-line pattern: `\d` (ASCII) and `[a-f0-9\-]`. */
  datatype CharClass = Digits | UuidChars

  predicate InClass(k: CharClass, c: char) {
    match k
    case Digits => IsDigit(c)
    case UuidChars => IsUuidChar(c)
  }

  /** The length of the run of characters of class `k` that starts at `i`. */
  function Run(s: string, i: nat, k: CharClass): (n: nat)
    requires i <= |s|
    ensures i + n <= |s|
    ensures forall j :: i <= j < i + n ==> InClass(k, s[j])
    ensures i + n < |s| ==> !InClass(k, s[i + n])
    decreases |s| - i
  {
    if i < |s| && InClass(k, s[i]) then 1 + Run(s, i + 1, k) else 0
  }

  /** The regex class `[a-f0-9\-]`. */
  predicate IsUuidChar(c: char) {
    ('a' <= c <= 'f') || ('0' <= c <= '9') || c == '-'
  }

  /** What the pattern captures from a line: `clidx`, `clusz` and the video id. */
  datatype ClusterLine = ClusterLine(clidx: nat, clusz: nat, uuid: string)

  /**
   * The fixed head of the pattern, `clidx=(\d+),clusz=(\d+),filename=`, at
   * the start of the line: the two numbers and where the rest begins. A
   * digit run always stops at the ',' that follows it, so no backtracking
   * can change the runs.
   */
  function Header(line: string): (r: Option<(nat, nat, nat)>)
    ensures r.Some? ==> r.value.2 <= |line|
  {
    if !InfixAt(line, "clidx=", 0) then None
    else match Field(line, 6, ",clusz=")
      case None => None
      case Some((clidx, p2)) =>
        match Field(line, p2, ",filename=")
        case None => None
        case Some((clusz, p)) => Some((clidx, clusz, p))
  }

  /** A non-empty run of digits at `i` followed by `tag`: its value and where the text after `tag` begins. */
  function Field(line: string, i: nat, tag: string): (r: Option<(nat, nat)>)
    requires i <= |line|
    ensures r.Some? ==> r.value.1 <= |line|
  {
    var n := Run(line, i, Digits);
    if n == 0 || !InfixAt(line, tag, i + n) then None
    else Some((DecimalValue(line[i..i + n]), i + n + |tag|))
  }

  function UuidAt(line: string, q: int): (r: Option<string>)
    ensures r.Some? ==> 0 <= q < |line| && line[q] == '/' && |r.value| > 0
  {
    if 0 <= q < |line| && line[q] == '/' then
      var n := Run(line, q + 1, UuidChars);
      if n > 0 && InfixAt(line, ".tmk", q + 1 + n) then Some(line[q + 1..q + 1 + n]) else None
    else None
  }

  /** The greedy `.*`: the rightmost '/' in `[lo, hi)` where the tail matches. */
  function LastUuid(line: string, lo: nat, hi: nat): (r: Option<(nat, string)>)
    ensures r.None? <==> forall q :: lo <= q < hi ==> UuidAt(line, q).None?
    ensures r.Some? ==> lo <= r.value.0 < hi && UuidAt(line, r.value.0) == Some(r.value.1)
    ensures r.Some? ==> forall q :: r.value.0 < q < hi ==> UuidAt(line, q).None?
    decreases hi - lo
  {
    if hi <= lo then None
    else
      var u := UuidAt(line, hi - 1);
      if u.Some? then Some((hi - 1, u.value))
      else
        var r := LastUuid(line, lo, hi - 1);
        assert forall q :: hi - 1 <= q < hi ==> UuidAt(line, q) == u;
        r
  }

  /** The first '\n' at or after `i`, or `|s|`: where `.` stops matching. */
  function NewlineIndex(s: string, i: nat): (k: nat)
    requires i <= |s|
    ensures i <= k <= |s| && (k < |s| ==> s[k] == '\n')
    ensures forall j :: i <= j < k ==> s[j] != '\n'
    decreases |s| - i
  {
    if i == |s| || s[i] == '\n' then i else NewlineIndex(s, i + 1)
  }

  /**
   * `re.match` of the cluster-line pattern: anchored at the start of the
   * line but not at its end; `.*` runs up to the rightmost '/' that the
   * tail matches after, without crossing a '\n'.
   */
  function MatchLine(line: string): (r: Option<ClusterLine>)
    ensures r.Some? ==> Header(line).Some? && |r.value.uuid| > 0
    ensures r.Some? ==> forall j :: 0 <= j < |r.value.uuid| ==> IsUuidChar(r.value.uuid[j])
  {
    match Header(line)
    case None => None
    case Some((clidx, clusz, p)) =>
      match PathUuid(line, p)
      case None => None
      case Some(u) => Some(ClusterLine(clidx, clusz, u))
  }

  /** The pattern after "filename=": any text up to the last matching '/' before a '\n', then the id and ".tmk". */
  function PathUuid(line: string, p: nat): (r: Option<string>)
    requires p <= |line|
    ensures r.Some? ==> |r.value| > 0 && forall j :: 0 <= j < |r.value| ==> IsUuidChar(r.value[j])
  {
    match LastUuid(line, p, NewlineIndex(line, p))
    case None => None
    case Some((q, u)) =>
      assert u == line[q + 1..q + 1 + |u|];
      Some(u)
  }

  /** The lines `parse_tmk_cluster_output` walks: the stripped output, split into lines. */
  function Lines(output: string): seq<string> {
    SplitLines(Strip(output))
  }

  /** What the pattern makes of each line. */
  function Matches(lines: seq<string>): (ms: seq<Option<ClusterLine>>)
    ensures |ms| == |lines|
    ensures forall i :: 0 <= i < |lines| ==> ms[i] == MatchLine(lines[i])
  {
    seq(|lines|, i requires 0 <= i < |lines| => MatchLine(lines[i]))
  }

  /** The cluster indices of the lines that matched. */
  function Indices(ms: seq<Option<ClusterLine>>): set<nat>
    decreases |ms|
  {
    if |ms| == 0 then {}
    else
      var m := ms[|ms| - 1];
      Indices(ms[..|ms| - 1]) + (if m.Some? then {m.value.clidx} else {})
  }

  /** The ids of the matched lines of cluster `c`, in line order, repeats kept. */
  function UuidsOf(ms: seq<Option<ClusterLine>>, c: nat): seq<string>
    decreases |ms|
  {
    if |ms| == 0 then []
    else
      var m := ms[|ms| - 1];
      UuidsOf(ms[..|ms| - 1], c) + (if m.Some? && m.value.clidx == c then [m.value.uuid] else [])
  }

  /** A cluster index is present exactly when its list of ids is non-empty. */
  lemma {:induction false} IndexedIffListed(ms: seq<Option<ClusterLine>>, c: nat)
    ensures c in Indices(ms) <==> |UuidsOf(ms, c)| > 0
    decreases |ms|
  {
    if |ms| > 0 {
      IndexedIffListed(ms[..|ms| - 1], c);
    }
  }

  /** Ids are gathered line by line: the ids of two runs of lines are the first's followed by the second's. */
  lemma {:induction false} UuidsOfAppend(a: seq<Option<ClusterLine>>, b: seq<Option<ClusterLine>>, c: nat)
    ensures UuidsOf(a + b, c) == UuidsOf(a, c) + UuidsOf(b, c)
    decreases |b|
  {
    if |b| > 0 {
      var b' := b[..|b| - 1];
      assert (a + b)[..|a + b| - 1] == a + b';
      assert (a + b)[|a + b| - 1] == b[|b| - 1];
      UuidsOfAppend(a, b', c);
    } else {
      assert a + b == a;
    }
  }

  /** `clusters` holds what the first `n` lines contribute. */
  predicate Parsed(clusters: map<nat, seq<string>>, ms: seq<Option<ClusterLine>>, n: int)
    requires 0 <= n <= |ms|
  {
    && clusters.Keys == Indices(ms[..n])
    && forall c :: c in clusters ==> clusters[c] == UuidsOf(ms[..n], c)
  }

  /** One line's effect: a match appends its id to its cluster's list, starting the list if need be. */
  function AddLine(clusters: map<nat, seq<string>>, m: Option<ClusterLine>): map<nat, seq<string>> {
    if m.None? then clusters
    else
      var c := m.value.clidx;
      var started := if c !in clusters then clusters[c := []] else clusters;
      started[c := started[c] + [m.value.uuid]]
  }

  /** Adding line `i` extends what the first `i` lines contributed to the first `i + 1`. */
  lemma ParseStep(clusters: map<nat, seq<string>>, ms: seq<Option<ClusterLine>>, i: int)
    requires 0 <= i < |ms| && Parsed(clusters, ms, i)
    ensures Parsed(AddLine(clusters, ms[i]), ms, i + 1)
  {
    assert ms[..i + 1][..i] == ms[..i];
    if ms[i].Some? && ms[i].value.clidx !in clusters {
      IndexedIffListed(ms[..i], ms[i].value.clidx);
    }
  }

  /**
   * `parse_tmk_cluster_output`: every matching line appends its id to the
   * list of its cluster index; other lines are skipped. The captured
   * cluster size is not used.
   */
  method ParseClusterOutput(output: string) returns (clusters: map<nat, seq<string>>)
    ensures clusters.Keys == Indices(Matches(Lines(output)))
    ensures forall c :: c in clusters ==> clusters[c] == UuidsOf(Matches(Lines(output)), c) && |clusters[c]| > 0
  {
    var lines := Lines(output);
    ghost var ms := Matches(lines);
    clusters := map[];
    var i := 0;
    while i < |lines|
      invariant 0 <= i <= |lines|
      invariant Parsed(clusters, ms, i)
    {
      var m := MatchLine(lines[i]);
      ParseStep(clusters, ms, i);
      clusters := AddLine(clusters, m);
      i := i + 1;
    }
    assert ms[..i] == ms;
    forall c | c in clusters ensures |clusters[c]| > 0 {
      IndexedIffListed(ms, c);
    }
  }

  /** Empty or all-whitespace output has no lines, so no clusters. */
  lemma BlankOutputHasNoClusters(output: string)
    requires AllSpace(output)
    ensures Lines(output) == [] && Indices(Matches(Lines(output))) == {}
  {
  }

  /** The pattern is anchored: only a line that begins with "clidx=" matches. */
  lemma MatchIsAnchored(line: string)
    ensures MatchLine(line).Some? ==> InfixAt(line, "clidx=", 0)
  {
  }

  /** So a line that looks like a cluster line after leading text that does not begin with 'c' is not one. */
  lemma LeadingTextIsNoMatch(prefix: string, line: string)
    requires |prefix| > 0 && prefix[0] != 'c'
    ensures MatchLine(prefix + line).None?
  {
    var s := prefix + line;
    assert s[0] == prefix[0] && "clidx="[0] == 'c';
    assert |s| < 6 || s[0..6][0] != "clidx="[0];
  }

  /** A run of exactly `n` characters satisfying `p` starts at `i`. */
  lemma {:induction false} RunIs(s: string, i: nat, n: nat, k: CharClass)
    requires i + n <= |s|
    requires forall j :: i <= j < i + n ==> InClass(k, s[j])
    requires i + n == |s| || !InClass(k, s[i + n])
    ensures Run(s, i, k) == n
    decreases n
  {
    if n > 0 {
      RunIs(s, i + 1, n - 1, k);
    }
  }

  /**
   * The line the clustering tool prints for a file `dir/id.tmk` in cluster
   * `cd` of size `zd` (both as numerals):
   * `clidx=<cd>,clusz=<zd>,filename=<dir>/<id>.tmk`.
   */
  function ClusterLineText(cd: string, zd: string, dir: string, id: string): string {
    HeadText(cd, zd) + (dir + ("/" + (id + ".tmk")))
  }

  /** Everything up to the path of a printed line. */
  function HeadText(cd: string, zd: string): (h: string)
    ensures |h| == 23 + |cd| + |zd|
  {
    "clidx=" + (cd + (",clusz=" + (zd + ",filename=")))
  }

  lemma PrefixAt(m: string, r: string)
    ensures InfixAt(m + r, m, 0)
  {
    assert (m + r)[..|m|] == m;
  }

  /** Facts about a suffix carry over to the whole string, shifted by the prefix. */
  lemma ShiftInfix(x: string, y: string, m: string, k: int, j: int)
    requires InfixAt(y, m, k) && j == |x| + k
    ensures InfixAt(x + y, m, j)
  {
    assert (x + y)[|x| + k..|x| + k + |m|] == y[k..k + |m|];
  }

  lemma {:induction false} ShiftRun(x: string, y: string, k: nat, c: CharClass, j: nat)
    requires k <= |y| && j == |x| + k
    ensures Run(x + y, j, c) == Run(y, k, c)
    decreases |y| - k
  {
    if k < |y| {
      assert (x + y)[|x| + k] == y[k];
      ShiftRun(x, y, k + 1, c, j + 1);
    }
  }

  /** A decimal numeral followed by a non-digit is a digit run of exactly its length. */
  lemma NumeralRun(d: string, b: string)
    requires AllDigits(d) && |b| > 0 && !IsDigit(b[0])
    ensures Run(d + b, 0, Digits) == |d| && InfixAt(d + b, d, 0)
  {
    var s := d + b;
    assert forall j :: 0 <= j < |d| ==> s[j] == d[j];
    assert s[|d|] == b[0];
    RunIs(s, 0, |d|, Digits);
    PrefixAt(d, b);
  }

  /** The numeral `d` stands at `i` as a whole digit run. */
  predicate NumeralAt(s: string, i: nat, d: string)
    requires i <= |s|
  {
    Run(s, i, Digits) == |d| && InfixAt(s, d, i)
  }

  /** What `Header` tests for, at the places it tests them, with numerals `cd` and `zd`. */
  predicate HeaderFacts(s: string, cd: string, zd: string) {
    && 13 + |cd| <= |s|
    && InfixAt(s, "clidx=", 0)
    && Run(s, 6, Digits) == |cd| && InfixAt(s, cd, 6)
    && InfixAt(s, ",clusz=", 6 + |cd|)
    && Run(s, 13 + |cd|, Digits) == |zd| && InfixAt(s, zd, 13 + |cd|)
    && InfixAt(s, ",filename=", 13 + |cd| + |zd|)
  }

  /** `Header` assembled from the tag at the start and its two fields. */
  lemma HeaderOfFields(s: string, a: nat, p2: nat, b: nat, p: nat)
    requires InfixAt(s, "clidx=", 0) && 6 <= |s|
    requires Field(s, 6, ",clusz=") == Some((a, p2)) && p2 <= |s|
    requires Field(s, p2, ",filename=") == Some((b, p))
    ensures Header(s) == Some((a, b, p))
  {
  }

  /** A field reads as the numeral the line holds at `i`, when the tag follows it directly. */
  lemma FieldReads(s: string, i: nat, d: string, tag: string)
    requires i <= |s| && |d| > 0
    requires Run(s, i, Digits) == |d| && InfixAt(s, d, i)
    requires InfixAt(s, tag, i + |d|)
    ensures Field(s, i, tag) == Some((DecimalValue(d), i + |d| + |tag|))
  {
  }

  /** A numeral carries over past a prefix. */
  lemma ShiftNumeral(x: string, y: string, k: nat, d: string, j: nat)
    requires k <= |y| && NumeralAt(y, k, d) && j == |x| + k
    ensures NumeralAt(x + y, j, d)
  {
    ShiftRun(x, y, k, Digits, j);
    ShiftInfix(x, y, d, k, j);
  }

  /** `<zd>,filename=`: the numeral and the separator after it. */
  lemma SizeField(zd: string)
    requires AllDigits(zd)
    ensures NumeralAt(zd + ",filename=", 0, zd)
    ensures InfixAt(zd + ",filename=", ",filename=", |zd|)
  {
    var t4 := ",filename=";
    assert t4[0] == ',';
    NumeralRun(zd, t4);
    assert InfixAt(t4, t4, 0);
    ShiftInfix(zd, t4, ",filename=", 0, |zd|);
  }

  /** `,clusz=<zd>,filename=`, given what the suffix after the tag holds. */
  lemma SizeTag(zd: string, t3: string)
    requires |zd| <= |t3| && NumeralAt(t3, 0, zd) && InfixAt(t3, ",filename=", |zd|)
    ensures InfixAt(",clusz=" + t3, ",clusz=", 0)
    ensures NumeralAt(",clusz=" + t3, 7, zd)
    ensures InfixAt(",clusz=" + t3, ",filename=", 7 + |zd|)
  {
    PrefixAt(",clusz=", t3);
    ShiftNumeral(",clusz=", t3, 0, zd, 7);
    ShiftInfix(",clusz=", t3, ",filename=", |zd|, 7 + |zd|);
  }

  /** `<cd>,clusz=...`, given what the suffix after the index holds. */
  lemma IndexField(cd: string, zd: string, t2: string)
    requires AllDigits(cd) && |t2| > 0 && t2[0] == ',' && 7 <= |t2|
    requires InfixAt(t2, ",clusz=", 0) && NumeralAt(t2, 7, zd) && InfixAt(t2, ",filename=", 7 + |zd|)
    ensures NumeralAt(cd + t2, 0, cd)
    ensures InfixAt(cd + t2, ",clusz=", |cd|)
    ensures NumeralAt(cd + t2, |cd| + 7, zd)
    ensures InfixAt(cd + t2, ",filename=", |cd| + 7 + |zd|)
  {
    NumeralRun(cd, t2);
    ShiftInfix(cd, t2, ",clusz=", 0, |cd|);
    ShiftNumeral(cd, t2, 7, zd, |cd| + 7);
    ShiftInfix(cd, t2, ",filename=", 7 + |zd|, |cd| + 7 + |zd|);
  }

  /** `clidx=<cd>...`, given what the suffix after the tag holds. */
  lemma IndexTag(cd: string, zd: string, t1: string)
    requires |cd| + 7 <= |t1|
    requires NumeralAt(t1, 0, cd) && InfixAt(t1, ",clusz=", |cd|)
    requires NumeralAt(t1, |cd| + 7, zd) && InfixAt(t1, ",filename=", |cd| + 7 + |zd|)
    ensures HeaderFacts("clidx=" + t1, cd, zd)
  {
    var s := "clidx=" + t1;
    assert InfixAt(s, "clidx=", 0) by { PrefixAt("clidx=", t1); }
    assert NumeralAt(s, 6, cd) by { ShiftNumeral("clidx=", t1, 0, cd, 6); }
    assert InfixAt(s, ",clusz=", 6 + |cd|) by { ShiftInfix("clidx=", t1, ",clusz=", |cd|, 6 + |cd|); }
    assert NumeralAt(s, 13 + |cd|, zd) by { ShiftNumeral("clidx=", t1, |cd| + 7, zd, 13 + |cd|); }
    assert InfixAt(s, ",filename=", 13 + |cd| + |zd|) by {
      ShiftInfix("clidx=", t1, ",filename=", |cd| + 7 + |zd|, 13 + |cd| + |zd|);
    }
  }

  /** The printed head holds what `Header` tests for. */
  lemma HeadFacts(cd: string, zd: string)
    requires AllDigits(cd) && AllDigits(zd)
    ensures HeaderFacts(HeadText(cd, zd), cd, zd)
  {
    var t3 := zd + ",filename=";
    var t2 := ",clusz=" + t3;
    SizeField(zd);
    SizeTag(zd, t3);
    IndexField(cd, zd, t2);
    IndexTag(cd, zd, cd + t2);
  }

  /** The printed head's tag and fields, each read off the head alone. */
  lemma HeadFields(cd: string, zd: string)
    requires |cd| > 0 && |zd| > 0 && AllDigits(cd) && AllDigits(zd)
    ensures InfixAt(HeadText(cd, zd), "clidx=", 0)
    ensures Field(HeadText(cd, zd), 6, ",clusz=") == Some((DecimalValue(cd), 13 + |cd|))
    ensures Field(HeadText(cd, zd), 13 + |cd|, ",filename=") == Some((DecimalValue(zd), 23 + |cd| + |zd|))
  {
    var h := HeadText(cd, zd);
    HeadFacts(cd, zd);
    FieldReads(h, 6, cd, ",clusz=");
    FieldReads(h, 13 + |cd|, zd, ",filename=");
  }

  /** A field that ends inside `h` reads the same whatever follows `h`. */
  lemma ExtendField(h: string, u: string, i: nat, tag: string)
    requires i <= |h| && |tag| > 0 && !IsDigit(tag[0])
    requires Field(h, i, tag).Some?
    ensures Field(h + u, i, tag) == Field(h, i, tag)
  {
    var s := h + u;
    var n := Run(h, i, Digits);
    assert h[i + n] == tag[0];
    assert forall j :: i <= j <= i + n ==> s[j] == h[j];
    RunIs(s, i, n, Digits);
    assert s[i + n..i + n + |tag|] == h[i + n..i + n + |tag|];
    assert s[i..i + n] == h[i..i + n];
  }

  /** Text found in `h` is found at the same place in `h + u`. */
  lemma ExtendInfix(h: string, u: string, m: string, k: int)
    requires InfixAt(h, m, k)
    ensures InfixAt(h + u, m, k)
  {
    assert (h + u)[k..k + |m|] == h[k..k + |m|];
  }

  /** The printed head, followed by any path, reads back its numerals. */
  lemma HeadHeader(cd: string, zd: string, u: string)
    requires |cd| > 0 && |zd| > 0 && AllDigits(cd) && AllDigits(zd)
    ensures Header(HeadText(cd, zd) + u) == Some((DecimalValue(cd), DecimalValue(zd), |HeadText(cd, zd)|))
  {
    var h := HeadText(cd, zd);
    HeadFields(cd, zd);
    ExtendInfix(h, u, "clidx=", 0);
    ExtendField(h, u, 6, ",clusz=");
    ExtendField(h, u, 13 + |cd|, ",filename=");
    HeaderOfFields(h + u, DecimalValue(cd), 13 + |cd|, DecimalValue(zd), 23 + |cd| + |zd|);
  }

  /** `UuidAt` in closed form, given the run after the '/'. */
  lemma UuidFound(s: string, q: nat, n: nat)
    requires q < |s| && s[q] == '/' && Run(s, q + 1, UuidChars) == n
    ensures UuidAt(s, q) == if n > 0 && InfixAt(s, ".tmk", q + 1 + n) then Some(s[q + 1..q + 1 + n]) else None
  {
  }

  /** The '/' that opens a suffix opens the same id in the whole string. */
  lemma ShiftUuid(x: string, y: string, id: string)
    requires |y| > 0 && UuidAt(y, 0) == Some(id)
    ensures UuidAt(x + y, |x|) == Some(id)
  {
    var s := x + y;
    var n := Run(y, 1, UuidChars);
    assert n > 0 && InfixAt(y, ".tmk", 1 + n) && id == y[1..1 + n] by {
      UuidFound(y, 0, n);
    }
    assert s[|x|] == '/' by {
      UuidFound(y, 0, n);
    }
    assert Run(s, |x| + 1, UuidChars) == n by {
      ShiftRun(x, y, 1, UuidChars, |x| + 1);
    }
    assert InfixAt(s, ".tmk", |x| + 1 + n) by {
      ShiftInfix(x, y, ".tmk", 1 + n, |x| + 1 + n);
    }
    assert s[|x| + 1..|x| + 1 + n] == id;
    UuidFound(s, |x|, n);
  }

  /** The tail `/<id>.tmk` of a printed line: its '/' opens `id`, and no '/' or '\n' follows it. */
  lemma TailOfClusterLine(id: string)
    requires |id| > 0 && forall j :: 0 <= j < |id| ==> IsUuidChar(id[j])
    ensures ("/" + (id + ".tmk"))[0] == '/' && UuidAt("/" + (id + ".tmk"), 0) == Some(id)
    ensures forall k :: 0 < k < |"/" + (id + ".tmk")| ==> ("/" + (id + ".tmk"))[k] != '/' && ("/" + (id + ".tmk"))[k] != '\n'
  {
    var t := "/" + (id + ".tmk");
    assert forall j :: 1 <= j < 1 + |id| ==> t[j] == id[j - 1];
    assert t[1 + |id|] == '.';
    RunIs(t, 1, |id|, UuidChars);
    assert t[1 + |id|..1 + |id| + 4] == ".tmk";
    assert t[1..1 + |id|] == id;
    forall k | 0 < k < |t| ensures t[k] != '/' && t[k] != '\n' {
      if k < 1 + |id| {
        assert IsUuidChar(id[k - 1]);
      } else {
        assert t[k] == ".tmk"[k - 1 - |id|];
      }
    }
  }

  /**
   * `MatchLine` on a line whose header ends at `p`: the greedy `.*` stops at
   * the '/' at `q` when its tail matches and no '/' follows it, provided no
   * '\n' cuts the scan short.
   */
  lemma ScanStopsAt(s: string, p: nat, q: nat, id: string)
    requires p <= q < |s| && UuidAt(s, q) == Some(id)
    requires forall k :: q < k < |s| ==> s[k] != '/'
    requires forall j :: p <= j < |s| ==> s[j] != '\n'
    ensures PathUuid(s, p) == Some(id)
  {
    assert NewlineIndex(s, p) == |s|;
    forall k | q < k < |s| ensures UuidAt(s, k).None? {
    }
    var found := LastUuid(s, p, |s|);
    assert found.Some? && found.value.0 == q;
  }

  /** A path `dir` + `tail` after `head`: the characters the scan sees. */
  lemma PathChars(head: string, dir: string, tail: string)
    requires '\n' !in dir && |tail| > 0 && tail[0] == '/'
    requires forall k :: 0 < k < |tail| ==> tail[k] != '/' && tail[k] != '\n'
    ensures var s := head + (dir + tail);
      (forall k :: |head| + |dir| < k < |s| ==> s[k] != '/') &&
      (forall j :: |head| <= j < |s| ==> s[j] != '\n')
  {
    var s := head + (dir + tail);
    var p := |head|;
    var q := p + |dir|;
    forall k | q < k < |s| ensures s[k] != '/' {
      assert s[k] == tail[k - q];
    }
    forall j | p <= j < |s| ensures s[j] != '\n' {
      if j < q {
        assert s[j] == dir[j - p];
      } else {
        assert s[j] == tail[j - q];
      }
    }
  }

  /** The '/' that opens the tail, seen from the whole line. */
  lemma PathTail(head: string, dir: string, tail: string, id: string)
    requires |tail| > 0 && UuidAt(tail, 0) == Some(id)
    ensures UuidAt(head + (dir + tail), |head| + |dir|) == Some(id)
  {
    assert head + (dir + tail) == (head + dir) + tail;
    ShiftUuid(head + dir, tail, id);
  }

  /** After any head, a directory without '\n' followed by the tail yields the tail's id. */
  lemma PathReads(head: string, dir: string, tail: string, id: string)
    requires '\n' !in dir && |tail| > 0 && tail[0] == '/' && UuidAt(tail, 0) == Some(id)
    requires forall k :: 0 < k < |tail| ==> tail[k] != '/' && tail[k] != '\n'
    ensures PathUuid(head + (dir + tail), |head|) == Some(id)
  {
    PathTail(head, dir, tail, id);
    PathChars(head, dir, tail);
    ScanStopsAt(head + (dir + tail), |head|, |head| + |dir|, id);
  }

  /** A line matches when both its header and its path read back. */
  lemma MatchOfParts(s: string, a: nat, b: nat, p: nat, id: string)
    requires Header(s) == Some((a, b, p)) && PathUuid(s, p) == Some(id)
    ensures MatchLine(s) == Some(ClusterLine(a, b, id))
  {
  }

  /**
   * The lines the clustering tool prints read back as what was printed: the
   * two numerals as their values and the id after the directory's last '/'.
   */
  lemma ClusterLineRoundTrip(cd: string, zd: string, dir: string, id: string)
    requires |cd| > 0 && |zd| > 0 && AllDigits(cd) && AllDigits(zd)
    requires |id| > 0 && forall j :: 0 <= j < |id| ==> IsUuidChar(id[j])
    requires '\n' !in dir
    ensures MatchLine(ClusterLineText(cd, zd, dir, id)) == Some(ClusterLine(DecimalValue(cd), DecimalValue(zd), id))
  {
    var tail := "/" + (id + ".tmk");
    HeadHeader(cd, zd, dir + tail);
    TailOfClusterLine(id);
    PathReads(HeadText(cd, zd), dir, tail, id);
    MatchOfParts(HeadText(cd, zd) + (dir + tail), DecimalValue(cd), DecimalValue(zd), |HeadText(cd, zd)|, id);
  }

  // ---------------------------------------------------------------------------
  // compare_two_tmks: reading the comparison tool's verdict
  // ---------------------------------------------------------------------------

  /** Every output that says "not similar" also says "similar", four characters in. */
  lemma NotSimilarSaysSimilar(o: string)
    requires ContainsInfix(o, "not similar")
    ensures ContainsInfix(o, "similar")
  {
    var i :| 0 <= i <= |o| && InfixAt(o, "not similar", i);
    assert o[i + 4..i + 11] == o[i..i + 11][4..11];
    assert InfixAt(o, "similar", i + 4);
  }

  /**
   * `compare_two_tmks` as written: the lower-cased standard output is first
   * searched for "similar", then for "not similar"; a timeout or any other
   * failure of the run (`stdout` is None) is None. Since "not similar"
   * contains "similar", the second test can never decide, and the result is
   * never False.
   */
  function CompareOutcome(stdout: Option<string>): (r: Option<bool>)
    ensures r != Some(false)
    ensures r == Some(true) <==> stdout.Some? && ContainsInfix(AsciiLower(stdout.value), "similar")
  {
    match stdout
    case None => None
    case Some(out) =>
      var o := AsciiLower(out);
      if ContainsInfix(o, "similar") then Some(true)
      else if ContainsInfix(o, "not similar") then
        NotSimilarSaysSimilar(o);
        assert false;
        Some(false)
      else None
  }

  /**
   * The verdict the docstring promises: True if similar, False if not
   * similar, None if the run failed or said neither; "not similar" is
   * tested first so that it is not read as "similar".
   */
  function CompareIntended(stdout: Option<string>): (r: Option<bool>)
    ensures r == Some(false) <==> stdout.Some? && ContainsInfix(AsciiLower(stdout.value), "not similar")
    ensures r.None? <==> stdout.None? || !ContainsInfix(AsciiLower(stdout.value), "similar")
  {
    match stdout
    case None => None
    case Some(out) =>
      var o := AsciiLower(out);
      if ContainsInfix(o, "not similar") then
        NotSimilarSaysSimilar(o);
        Some(false)
      else if ContainsInfix(o, "similar") then Some(true)
      else None
  }

  /** The two readings agree on every output except those that say "not similar". */
  lemma CompareDiffersOnlyOnNotSimilar(stdout: Option<string>)
    ensures CompareOutcome(stdout) != CompareIntended(stdout)
        <==> stdout.Some? && ContainsInfix(AsciiLower(stdout.value), "not similar")
  {
  }

  /** The tool printing "Not similar" is reported as similar. */
  lemma NotSimilarReadAsSimilar()
    ensures CompareOutcome(Some("Not similar")) == Some(true)
    ensures CompareIntended(Some("Not similar")) == Some(false)
  {
    var o := AsciiLower("Not similar");
    assert o == "not similar";
    assert InfixAt(o, "not similar", 0);
  }
}

=== FILE: video_clipper.dfy ===
/**
 * The audio worker's clip planner (wav2vec/video_clipper.py): the start
 * times of the sliding windows an audio track is cut into, and the file name
 * each clip is written under.
 */
module VideoClipper {
  import opened Wrappers
  import opened Strs

  /** Python `int(x)` on a float: truncation toward zero. */
  function Trunc(x: real): (n: int)
    ensures x >= 0.0 ==> n as real <= x < n as real + 1.0
    ensures x < 0.0 ==> n as real - 1.0 < x <= n as real
  {
    if x >= 0.0 then x.Floor else -((-x).Floor)
  }

  /** Python `range(start, stop, step)` for a non-zero step. */
  function PyRange(start: int, stop: int, step: int): (r: seq<int>)
    requires step != 0
    decreases if step > 0 then stop - start else start - stop
  {
    if step > 0 then
      (if start >= stop then [] else [start] + PyRange(start + step, stop, step))
    else
      (if start <= stop then [] else [start] + PyRange(start + step, stop, step))
  }

  /** The closed form of an ascending range: the k-th value is `start + k * step`, and values stop short of `stop`. */
  lemma {:induction false} PyRangeAscending(start: int, stop: int, step: int)
    requires step > 0
    ensures |PyRange(start, stop, step)| == (if stop <= start then 0 else (stop - start - 1) / step + 1)
    ensures forall k :: 0 <= k < |PyRange(start, stop, step)| ==> PyRange(start, stop, step)[k] == start + k * step
    decreases stop - start
  {
    if start < stop {
      PyRangeAscending(start + step, stop, step);
      var r := PyRange(start, stop, step);
      var rest := PyRange(start + step, stop, step);
      assert r == [start] + rest;
      if stop <= start + step {
        assert (stop - start - 1) / step == 0;
      } else {
        assert (stop - start - step - 1) / step + 1 == (stop - start - 1) / step by {
          DivShift(stop - start - step - 1, step);
        }
      }
      forall k | 0 < k < |r| ensures r[k] == start + k * step {
        assert r[k] == rest[k - 1];
      }
    }
  }

  lemma DivShift(a: int, b: int)
    requires b > 0
    ensures (a + b) / b == a / b + 1
  {
    var q, r := a / b, a % b;
    assert a + b == (q + 1) * b + r;
    DivUnique(a + b, b, q + 1, r);
  }

  /**
   * `_calculate_segment_times`: window starts 0, step, 2*step, ... while a
   * window of `clipSeconds` still ends within the whole seconds of the track;
   * a zero step is the `ValueError` that `range` raises.
   */
  function SegmentTimes(totalDuration: real, clipSeconds: int, step: int): (r: Result<seq<int>, string>)
    ensures r.Failure? <==> step == 0
    ensures r.Success? && step > 0 ==> forall i :: 0 <= i < |r.value| ==>
      r.value[i] == i * step && 0 <= r.value[i] && r.value[i] + clipSeconds <= Trunc(totalDuration)
    ensures r.Success? && step > 0 ==>
      |r.value| == (if Trunc(totalDuration) < clipSeconds then 0 else (Trunc(totalDuration) - clipSeconds) / step + 1)
  {
    if step == 0 then Failure("range() arg 3 must not be zero")
    else
      var whole := Trunc(totalDuration);
      var stop := whole - clipSeconds + 1;
      if step > 0 then
        WindowsWithinTrack(whole, clipSeconds, step);
        Success(PyRange(0, stop, step))
      else
        Success(PyRange(0, stop, step))
  }

  /** Every window the ascending range yields starts at a multiple of the step and ends within the track. */
  lemma WindowsWithinTrack(whole: int, clipSeconds: int, step: int)
    requires step > 0
    ensures |PyRange(0, whole - clipSeconds + 1, step)| == (if whole < clipSeconds then 0 else (whole - clipSeconds) / step + 1)
    ensures forall i :: 0 <= i < |PyRange(0, whole - clipSeconds + 1, step)| ==>
      PyRange(0, whole - clipSeconds + 1, step)[i] == i * step &&
      0 <= PyRange(0, whole - clipSeconds + 1, step)[i] &&
      PyRange(0, whole - clipSeconds + 1, step)[i] + clipSeconds <= whole
  {
    var stop := whole - clipSeconds + 1;
    PyRangeAscending(0, stop, step);
    var r := PyRange(0, stop, step);
    forall i | 0 <= i < |r| ensures r[i] == i * step && 0 <= r[i] && r[i] + clipSeconds <= whole {
      var q := (stop - 1) / step;
      assert i <= q;
      MultiplyMono(i, q, step);
      MultiplyMono(0, i, step);
      assert q * step <= stop - 1;
    }
  }

  /**
   * `_run_ffmpeg_command`'s output name, `{name}_{start:04}_{end:04}.wav`,
   * where the end is the start plus the clip length.
   */
  function ClipName(audioName: string, start: int, clipSeconds: int): (r: string)
    ensures |r| >= |audioName| + 14
    ensures r[..|audioName| + 1] == audioName + "_"
    ensures r[|r| - 4..] == ".wav"
  {
    audioName + "_" + FormatInt04(start) + "_" + FormatInt04(start + clipSeconds) + ".wav"
  }

  /**
   * The two '_'-separated fields before ".wav" are the window's start and end,
   * the start plus the clip length, each printed as `FormatInt04` prints it
   * (so, for a non-negative time, digits reading back that time).
   */
  lemma ClipTimesReadBack(audioName: string, start: int, clipSeconds: int)
    ensures var r := ClipName(audioName, start, clipSeconds);
      var parts := Split(r[..|r| - 4], '_');
      && |parts| >= 3
      && parts[|parts| - 2] == FormatInt04(start)
      && parts[|parts| - 1] == FormatInt04(start + clipSeconds)
  {
    var a, b := FormatInt04(start), FormatInt04(start + clipSeconds);
    StemOfClip(audioName, a, b);
    SplitStem(audioName, a, b);
  }

  /** Dropping ".wav" from a clip name leaves `name_a_b`. */
  lemma StemOfClip(name: string, a: string, b: string)
    ensures var r := name + "_" + a + "_" + b + ".wav";
      |r| >= 4 && r[..|r| - 4] == name + ['_'] + (a + ['_'] + b)
  {
    var r := name + "_" + a + "_" + b + ".wav";
    assert r == (name + ['_'] + (a + ['_'] + b)) + ".wav";
  }

  /** `name_a_b` splits at '_' into the pieces of `name`, then `a`, then `b`. */
  lemma SplitStem(name: string, a: string, b: string)
    requires '_' !in a && '_' !in b
    ensures Split(name + ['_'] + (a + ['_'] + b), '_') == Split(name, '_') + [a, b]
  {
    SplitConcat(name, '_', a + ['_'] + b);
    SplitConcat(a, '_', b);
    SplitWithoutSeparator(a, '_');
    SplitWithoutSeparator(b, '_');
  }

  /** Windows of a ten-second clip every second over a 12.9-second track start at 0, 1 and 2. */
  lemma SegmentExample()
    ensures SegmentTimes(12.9, 10, 1) == Success([0, 1, 2])
  {
    var n := Trunc(12.9);
    assert n as real <= 12.9 < n as real + 1.0;
    assert n == 12;
    assert PyRange(3, 3, 1) == [];
    assert PyRange(2, 3, 1) == [2];
    assert PyRange(1, 3, 1) == [1, 2];
    assert PyRange(0, 3, 1) == [0, 1, 2];
    assert SegmentTimes(12.9, 10, 1) == Success(PyRange(0, 3, 1));
  }
}

=== FILE: wav2vec.dfy ===
/**
 * The audio worker's result handling (wav2vec/wav2vec.py): recovering the
 * source audio from a matched clip's file name, scoring each indexed audio by
 * the share of query clips that matched it, picking the best ten, and
 * merging overlapping time intervals.
 */
module Wav2Vec {
  import opened Wrappers
  import opened Strs
  import opened Sorting
  import opened VideoClipper

  /**
   * `extract_audio_name`: the last path component, split on '_', without its
   * last two pieces, joined back with '_'. The slice bound in the source is
   * the length of a one-element list minus three, that is -2.
   */
  function ExtractAudioName(filename: string): (r: string)
    ensures |Split(Last(Split(filename, '/')), '_')| <= 2 ==> r == ""
  {
    Join(SliceTo(Split(Last(Split(filename, '/')), '_'), -2), '_')
  }

  /**
   * Clip names round-trip: the audio name a clip was cut from is recovered
   * from the clip's path, whatever directory it sits in and whatever its
   * window, as long as the name itself has no '/'.
   */
  lemma ClipNameRoundTrip(dir: string, name: string, start: int, clipSeconds: int)
    requires '/' !in name
    ensures ExtractAudioName(dir + "/" + ClipName(name, start, clipSeconds)) == name
  {
    var a, b := FormatInt04(start), FormatInt04(start + clipSeconds);
    var tail := b + ".wav";
    var clip := ClipName(name, start, clipSeconds);
    ClipShape(name, a, b, tail, clip);
    LastComponent(dir, clip);
    ClipPieces(name, a, tail);
    JoinSplit(name, '_');
  }

  lemma ClipShape(name: string, a: string, b: string, tail: string, clip: string)
    requires '/' !in name && '/' !in a && '/' !in b && '_' !in b
    requires tail == b + ".wav" && clip == name + "_" + a + "_" + tail
    ensures clip == name + ['_'] + (a + ['_'] + tail)
    ensures '/' !in clip && '_' !in tail
  {
    assert ".wav" == ['.', 'w', 'a', 'v'];
  }

  /** The last '/'-component of `dir + "/" + leaf` is the leaf when it has no '/'. */
  lemma LastComponent(dir: string, leaf: string)
    requires '/' !in leaf
    ensures Last(Split(dir + "/" + leaf, '/')) == leaf
  {
    assert dir + "/" + leaf == dir + ['/'] + leaf;
    SplitConcat(dir, '/', leaf);
    SplitWithoutSeparator(leaf, '/');
  }

  /** Cutting `name_a_tail` at '_' and dropping the last two pieces leaves the pieces of `name`. */
  lemma ClipPieces(name: string, a: string, tail: string)
    requires '_' !in a && '_' !in tail
    ensures SliceTo(Split(name + ['_'] + (a + ['_'] + tail), '_'), -2) == Split(name, '_')
  {
    SplitConcat(name, '_', a + ['_'] + tail);
    SplitConcat(a, '_', tail);
    SplitWithoutSeparator(a, '_');
    SplitWithoutSeparator(tail, '_');
    var parts := Split(name + ['_'] + (a + ['_'] + tail), '_');
    assert parts == Split(name, '_') + [a] + [tail];
  }

  /** The non-empty audio names extracted from one query clip's matches. */
  function NamesOf(matches: seq<string>): (r: set<string>)
    ensures "" !in r
    decreases |matches|
  {
    if |matches| == 0 then {}
    else
      var name := ExtractAudioName(matches[|matches| - 1]);
      NamesOf(matches[..|matches| - 1]) + (if name != "" then {name} else {})
  }

  /** A name is among `NamesOf(matches)` exactly when some match yields it. */
  lemma {:induction false} NamesOfMeaning(matches: seq<string>, name: string)
    ensures name in NamesOf(matches) <==>
      name != "" && exists i :: 0 <= i < |matches| && ExtractAudioName(matches[i]) == name
    decreases |matches|
  {
    if |matches| > 0 {
      var init := matches[..|matches| - 1];
      var last := ExtractAudioName(matches[|matches| - 1]);
      assert NamesOf(matches) == NamesOf(init) + (if last != "" then {last} else {});
      NamesOfMeaning(init, name);
      assert forall i :: 0 <= i < |init| ==> init[i] == matches[i];
    }
  }

  /** Every name extracted from the matches of all query clips. */
  function AllNames(data: seq<seq<string>>): set<string>
    decreases |data|
  {
    if |data| == 0 then {} else AllNames(data[..|data| - 1]) + NamesOf(data[|data| - 1])
  }

  /** The number of query clips whose matches name `name` at least once. */
  function Mentions(data: seq<seq<string>>, name: string): (n: nat)
    ensures n <= |data|
    decreases |data|
  {
    if |data| == 0 then 0
    else Mentions(data[..|data| - 1], name) + (if name in NamesOf(data[|data| - 1]) then 1 else 0)
  }

  /** A name is mentioned by some query clip exactly when it is among all names. */
  lemma {:induction false} MentionedIffNamed(data: seq<seq<string>>, name: string)
    ensures name in AllNames(data) <==> Mentions(data, name) >= 1
    decreases |data|
  {
    if |data| > 0 {
      MentionedIffNamed(data[..|data| - 1], name);
    }
  }

  /**
   * One pass of `count_audio_matches`' inner loop: every name the clip's
   * matches yield gains one, however many of the matches name it.
   */
  method CountClip(count: map<string, nat>, matches: seq<string>) returns (next: map<string, nat>)
    ensures next.Keys == count.Keys + NamesOf(matches)
    ensures forall n :: n in next ==>
      next[n] == (if n in count then count[n] else 0) + (if n in NamesOf(matches) then 1 else 0)
  {
    next := count;
    var seen: set<string> := {};
    var j := 0;
    while j < |matches|
      invariant 0 <= j <= |matches|
      invariant seen == NamesOf(matches[..j])
      invariant next.Keys == count.Keys + seen
      invariant forall n :: n in next ==>
        next[n] == (if n in count then count[n] else 0) + (if n in seen then 1 else 0)
    {
      assert matches[..j + 1][..j] == matches[..j];
      var name := ExtractAudioName(matches[j]);
      if name != "" && name !in seen {
        seen := seen + {name};
        next := next[name := (if name in next then next[name] else 0) + 1];
      }
      j := j + 1;
    }
    assert matches[..j] == matches;
  }

  /** A count between one and the total makes a share in (0, 1]. */
  lemma ShareBounds(c: nat, d: nat)
    requires 1 <= c <= d
    ensures 0.0 < c as real / d as real <= 1.0
  {
  }

  /**
   * `count_audio_matches`: for every extracted audio name, the share of query
   * clips (dictionary entries, empty ones included) whose matches name it,
   * each clip counting once however many of its matches name the same audio.
   * `data` lists the dictionary's values in iteration order.
   */
  method CountAudioMatches(data: seq<seq<string>>) returns (scores: map<string, real>)
    ensures scores.Keys == AllNames(data)
    ensures forall n :: n in scores ==> scores[n] == Mentions(data, n) as real / |data| as real
    ensures forall n :: n in scores ==> 0.0 < scores[n] <= 1.0
  {
    var count: map<string, nat> := map[];
    var i := 0;
    while i < |data|
      invariant 0 <= i <= |data|
      invariant count.Keys == AllNames(data[..i])
      invariant forall n :: n in count ==> count[n] == Mentions(data[..i], n)
    {
      forall n | n !in count ensures Mentions(data[..i], n) == 0 {
        MentionedIffNamed(data[..i], n);
      }
      count := CountClip(count, data[i]);
      assert data[..i + 1][..i] == data[..i];
      i := i + 1;
    }
    assert data[..i] == data;
    forall n | n in count ensures 0.0 < count[n] as real / |data| as real <= 1.0 {
      MentionedIffNamed(data, n);
      ShareBounds(count[n], |data|);
    }
    scores := map n | n in count :: count[n] as real / |data| as real;
  }

  /** The sort key of `get_top_k_audio`: descending score is ascending negated score. */
  function NegScore(p: (string, real)): real {
    -p.1
  }

  /**
   * `get_top_k_audio`: the `k` best-scoring pairs, best first. Python's
   * `sorted(..., reverse=True)` is stable, as is an ascending sort on the
   * negated score; a negative `k` drops that many from the end.
   */
  function GetTopKAudio(scored: seq<(string, real)>, k: int): (r: seq<(string, real)>)
    ensures k >= 0 ==> |r| == (if k < |scored| then k else |scored|)
    ensures multiset(r) <= multiset(scored)
    ensures forall i, j :: 0 <= i < j < |r| ==> r[i].1 >= r[j].1
    ensures forall p, q :: p in multiset(scored) - multiset(r) && q in r ==> p.1 <= q.1
  {
    var sorted := SortBy(scored, NegScore);
    var r := SliceTo(sorted, k);
    TopPrefix(sorted, |r|);
    r
  }

  /** A prefix of a descending list holds no pair scoring below one left out. */
  lemma TopPrefix(sorted: seq<(string, real)>, m: nat)
    requires m <= |sorted| && SortedBy(sorted, NegScore)
    ensures multiset(sorted[..m]) <= multiset(sorted)
    ensures forall i, j :: 0 <= i < j < m ==> sorted[..m][i].1 >= sorted[..m][j].1
    ensures forall p, q :: p in multiset(sorted) - multiset(sorted[..m]) && q in sorted[..m] ==> p.1 <= q.1
  {
    assert sorted == sorted[..m] + sorted[m..];
    assert multiset(sorted) == multiset(sorted[..m]) + multiset(sorted[m..]);
    forall i, j | 0 <= i < j < m ensures sorted[..m][i].1 >= sorted[..m][j].1 {
      assert NegScore(sorted[i]) <= NegScore(sorted[j]);
    }
    forall p, q | p in multiset(sorted) - multiset(sorted[..m]) && q in sorted[..m] ensures p.1 <= q.1 {
      assert p in multiset(sorted[m..]);
      var j :| 0 <= j < |sorted[m..]| && sorted[m..][j] == p;
      var i :| 0 <= i < m && sorted[..m][i] == q;
      assert NegScore(sorted[i]) <= NegScore(sorted[m + j]);
    }
  }

  function Start(t: (int, int)): real {
    t.0 as real
  }

  function Max(a: int, b: int): int {
    if a < b then b else a
  }

  /** Interval `t` lies inside interval `u`. */
  predicate Within(t: (int, int), u: (int, int)) {
    u.0 <= t.0 && t.1 <= u.1
  }

  /** Interval `t` lies inside one of `merged`. */
  predicate Inside(t: (int, int), merged: seq<(int, int)>) {
    exists j :: 0 <= j < |merged| && Within(t, merged[j])
  }

  /** Interval `u` starts where one of `tuples` starts and ends where one of them ends. */
  predicate BoundsFrom(u: (int, int), tuples: seq<(int, int)>) {
    && (exists t :: t in tuples && t.0 == u.0)
    && (exists t :: t in tuples && t.1 == u.1)
  }

  /** The interval after position `m` starts more than 100 past its end. */
  predicate GapAfter(merged: seq<(int, int)>, m: int)
    requires 0 <= m < |merged| - 1
  {
    merged[m].1 + 100 < merged[m + 1].0
  }

  /** Consecutive merged intervals are more than 100 apart. */
  predicate Separated(merged: seq<(int, int)>) {
    forall m :: 0 <= m < |merged| - 1 ==> GapAfter(merged, m)
  }

  /** Interval `k` of `xs` lies inside one of `merged`. */
  predicate CoveredAt(merged: seq<(int, int)>, xs: seq<(int, int)>, k: int)
    requires 0 <= k < |xs|
  {
    exists m :: 0 <= m < |merged| && Within(xs[k], merged[m])
  }

  /** Each of the first `n` intervals of `xs` lies inside one of `merged`. */
  predicate Covers(merged: seq<(int, int)>, xs: seq<(int, int)>, n: int)
    requires 0 <= n <= |xs|
  {
    forall k :: 0 <= k < n ==> CoveredAt(merged, xs, k)
  }

  /** Interval `m` of `merged` starts where, and ends where, one of the first `n` intervals of `xs` does. */
  predicate SourcedAt(merged: seq<(int, int)>, xs: seq<(int, int)>, n: int, m: int)
    requires 0 <= n <= |xs| && 0 <= m < |merged|
  {
    && (exists k :: 0 <= k < n && xs[k].0 == merged[m].0)
    && (exists k :: 0 <= k < n && xs[k].1 == merged[m].1)
  }

  /** Every start and every end of `merged` is a start or an end among the first `n` intervals of `xs`. */
  predicate Sourced(merged: seq<(int, int)>, xs: seq<(int, int)>, n: int)
    requires 0 <= n <= |xs|
  {
    forall m :: 0 <= m < |merged| ==> SourcedAt(merged, xs, n, m)
  }

  /** One step of the merge loop: widen the last interval or append `cur`. */
  function Absorb(merged: seq<(int, int)>, cur: (int, int)): (r: seq<(int, int)>)
    requires |merged| >= 1
    ensures |r| == |merged| || |r| == |merged| + 1
    ensures merged[|merged| - 1].0 <= cur.0 ==> r[|r| - 1].0 <= cur.0
  {
    var last := merged[|merged| - 1];
    if cur.0 - 50 <= last.1 + 50 then merged[|merged| - 1 := (last.0, Max(last.1, cur.1))]
    else merged + [cur]
  }

  /** A step keeps the intervals more than 100 apart. */
  lemma AbsorbSeparated(merged: seq<(int, int)>, cur: (int, int))
    requires |merged| >= 1 && Separated(merged)
    ensures Separated(Absorb(merged, cur))
  {
    var r := Absorb(merged, cur);
    forall m | 0 <= m < |r| - 1 ensures GapAfter(r, m) {
      if m < |merged| - 1 {
        assert GapAfter(merged, m);
        assert r[m] == merged[m] && r[m + 1].0 == merged[m + 1].0;
      }
    }
  }

  /** A step keeps the intervals in order of start when the next one starts no earlier than the last. */
  lemma AbsorbSorted(merged: seq<(int, int)>, cur: (int, int))
    requires |merged| >= 1 && SortedBy(merged, Start)
    requires merged[|merged| - 1].0 <= cur.0
    ensures SortedBy(Absorb(merged, cur), Start)
  {
    var r := Absorb(merged, cur);
    forall i, j | 0 <= i < j < |r| ensures Start(r[i]) <= Start(r[j]) {
      if j < |merged| {
        assert r[i].0 == merged[i].0 && r[j].0 == merged[j].0;
      } else {
        assert r[j] == cur && r[i] == merged[i];
        assert Start(merged[i]) <= Start(merged[|merged| - 1]);
      }
    }
  }

  /** A step covers the next interval and keeps covering the earlier ones. */
  lemma AbsorbCovers(merged: seq<(int, int)>, xs: seq<(int, int)>, n: int)
    requires |merged| >= 1 && 0 <= n < |xs| && Covers(merged, xs, n)
    requires merged[|merged| - 1].0 <= xs[n].0
    ensures Covers(Absorb(merged, xs[n]), xs, n + 1)
  {
    var r := Absorb(merged, xs[n]);
    forall k | 0 <= k < n + 1 ensures CoveredAt(r, xs, k) {
      if k < n {
        assert CoveredAt(merged, xs, k);
        var m :| 0 <= m < |merged| && Within(xs[k], merged[m]);
        assert Within(xs[k], r[m]);
      } else {
        assert Within(xs[k], r[|r| - 1]);
      }
    }
  }

  /** A step takes every new bound from the intervals seen so far. */
  lemma AbsorbSourced(merged: seq<(int, int)>, xs: seq<(int, int)>, n: int)
    requires |merged| >= 1 && 0 <= n < |xs| && Sourced(merged, xs, n)
    ensures Sourced(Absorb(merged, xs[n]), xs, n + 1)
  {
    var r := Absorb(merged, xs[n]);
    var n' := n + 1;
    forall m | 0 <= m < |r| ensures SourcedAt(r, xs, n', m) {
      if m < |merged| {
        assert SourcedAt(merged, xs, n, m);
        var k :| 0 <= k < n && xs[k].0 == merged[m].0;
        assert xs[k].0 == r[m].0;
        if r[m].1 == merged[m].1 {
          var k' :| 0 <= k' < n && xs[k'].1 == merged[m].1;
          assert xs[k'].1 == r[m].1;
        } else {
          assert xs[n].1 == r[m].1;
        }
      } else {
        assert xs[n] == r[m];
      }
    }
  }

  /** Every interval has its start at or before its end. */
  predicate Proper(xs: seq<(int, int)>) {
    forall k :: 0 <= k < |xs| ==> xs[k].0 <= xs[k].1
  }

  /** Point `x` lies within 50 of one of the first `n` intervals of `xs`. */
  predicate NearSome(x: int, xs: seq<(int, int)>, n: int) {
    exists k :: 0 <= k < n && k < |xs| && xs[k].0 - 50 <= x <= xs[k].1 + 50
  }

  /** Every point of interval `m` of `merged` lies within 50 of one of the first `n` intervals of `xs`. */
  predicate NearAt(merged: seq<(int, int)>, xs: seq<(int, int)>, n: int, m: int)
    requires 0 <= m < |merged|
  {
    forall x :: merged[m].0 <= x <= merged[m].1 ==> NearSome(x, xs, n)
  }

  /** No merged interval bridges a gap wider than 100 between the first `n` intervals of `xs`. */
  predicate Near(merged: seq<(int, int)>, xs: seq<(int, int)>, n: int) {
    forall m :: 0 <= m < |merged| ==> NearAt(merged, xs, n, m)
  }

  /** Point `x` lies within 50 of one of `tuples`. */
  predicate NearInput(x: int, tuples: seq<(int, int)>) {
    exists t :: t in tuples && t.0 - 50 <= x <= t.1 + 50
  }

  /** Every point of interval `u` lies within 50 of one of `tuples`: `u` bridges no gap wider than 100. */
  predicate CloseTo(u: (int, int), tuples: seq<(int, int)>) {
    forall x :: u.0 <= x <= u.1 ==> NearInput(x, tuples)
  }

  /**
   * A step merges only across a gap of at most 100: a point the widened last
   * interval gains lies within 50 of that interval's old end, which some
   * earlier interval supplies, or of the new interval itself.
   */
  lemma AbsorbNear(merged: seq<(int, int)>, xs: seq<(int, int)>, n: int)
    requires |merged| >= 1 && 0 <= n < |xs| && Proper(xs)
    requires Sourced(merged, xs, n) && Near(merged, xs, n)
    ensures Near(Absorb(merged, xs[n]), xs, n + 1)
  {
    var r := Absorb(merged, xs[n]);
    var cur, last := xs[n], merged[|merged| - 1];
    var n' := n + 1;
    forall m | 0 <= m < |r| ensures NearAt(r, xs, n', m) {
      forall x | r[m].0 <= x <= r[m].1 ensures NearSome(x, xs, n') {
        if m < |merged| && x <= merged[m].1 {
          assert NearAt(merged, xs, n, m);
          assert merged[m].0 == r[m].0;
          assert NearSome(x, xs, n);
          var k :| 0 <= k < n && k < |xs| && xs[k].0 - 50 <= x <= xs[k].1 + 50;
        } else if m == |merged| {
          assert r[m] == cur;
          assert cur.0 - 50 <= x <= cur.1 + 50;
        } else {
          assert m == |merged| - 1 && r[m] == (last.0, Max(last.1, cur.1));
          assert SourcedAt(merged, xs, n, m);
          var k :| 0 <= k < n && xs[k].1 == last.1;
          if x <= last.1 + 50 {
            assert xs[k].0 - 50 <= x <= xs[k].1 + 50;
          } else {
            assert cur.0 - 50 <= x <= cur.1 + 50;
          }
        }
      }
    }
  }

  /** The loop starts from the first interval alone. */
  lemma MergeStart(xs: seq<(int, int)>)
    requires |xs| >= 1
    ensures Separated([xs[0]]) && Covers([xs[0]], xs, 1) && Sourced([xs[0]], xs, 1)
  {
    assert Within(xs[0], [xs[0]][0]);
    assert CoveredAt([xs[0]], xs, 0);
    assert SourcedAt([xs[0]], xs, 1, 0);
  }

  /** The merge loop over intervals already sorted by start. */
  method MergeSorted(sorted: seq<(int, int)>) returns (merged: seq<(int, int)>)
    requires |sorted| >= 1 && SortedBy(sorted, Start)
    ensures 1 <= |merged| <= |sorted|
    ensures Separated(merged) && Covers(merged, sorted, |sorted|) && Sourced(merged, sorted, |sorted|)
    ensures SortedBy(merged, Start)
    ensures Proper(sorted) ==> Near(merged, sorted, |sorted|)
  {
    merged := [sorted[0]];
    MergeStart(sorted);
    assert NearAt(merged, sorted, 1, 0) by {
      forall x | merged[0].0 <= x <= merged[0].1 ensures NearSome(x, sorted, 1) {
        assert sorted[0].0 - 50 <= x <= sorted[0].1 + 50;
      }
    }
    var i := 1;
    while i < |sorted|
      invariant 1 <= i <= |sorted|
      invariant 1 <= |merged| <= i
      invariant Separated(merged) && Covers(merged, sorted, i) && Sourced(merged, sorted, i)
      invariant merged[|merged| - 1].0 <= sorted[i - 1].0
      invariant SortedBy(merged, Start)
      invariant Proper(sorted) ==> Near(merged, sorted, i)
    {
      if Proper(sorted) {
        AbsorbNear(merged, sorted, i);
      }
      assert Start(sorted[i - 1]) <= Start(sorted[i]);
      AbsorbSorted(merged, sorted[i]);
      AbsorbSeparated(merged, sorted[i]);
      AbsorbCovers(merged, sorted, i);
      AbsorbSourced(merged, sorted, i);
      merged := Absorb(merged, sorted[i]);
      i := i + 1;
    }
  }

  /**
   * `merge_tuples`: sorts the intervals by start and folds each into the last
   * merged one when its start, less 50, reaches the last end plus 50 (a gap of
   * at most 100), widening that end; otherwise it starts a new interval. An
   * empty list fails on `sorted_tuples[0]`.
   */
  method MergeTuples(tuples: seq<(int, int)>) returns (r: Result<seq<(int, int)>, string>)
    ensures r.Failure? <==> |tuples| == 0
    ensures r.Success? ==> 1 <= |r.value| <= |tuples|
    ensures r.Success? ==> Separated(r.value)
    ensures r.Success? ==> SortedBy(r.value, Start)
    ensures r.Success? ==> forall t :: t in tuples ==> Inside(t, r.value)
    ensures r.Success? ==> forall j :: 0 <= j < |r.value| ==> BoundsFrom(r.value[j], tuples)
    ensures r.Success? && Proper(tuples) ==> forall j :: 0 <= j < |r.value| ==> CloseTo(r.value[j], tuples)
  {
    if |tuples| == 0 {
      return Failure("list index out of range");
    }
    var sorted := SortBy(tuples, Start);
    var merged := MergeSorted(sorted);
    CoverOfPermutation(tuples, sorted, merged);
    if Proper(tuples) {
      ProperSorted(tuples, sorted);
      NearOfPermutation(tuples, sorted, merged);
    }
    r := Success(merged);
  }

  /** Covering and taking bounds from the sorted intervals is covering and taking bounds from the inputs. */
  lemma CoverOfPermutation(tuples: seq<(int, int)>, sorted: seq<(int, int)>, merged: seq<(int, int)>)
    requires multiset(sorted) == multiset(tuples)
    requires Covers(merged, sorted, |sorted|) && Sourced(merged, sorted, |sorted|)
    ensures forall t :: t in tuples ==> Inside(t, merged)
    ensures forall j :: 0 <= j < |merged| ==> BoundsFrom(merged[j], tuples)
  {
    forall t | t in tuples ensures Inside(t, merged) {
      assert t in multiset(sorted);
      var k :| 0 <= k < |sorted| && sorted[k] == t;
      assert CoveredAt(merged, sorted, k);
    }
    forall j | 0 <= j < |merged| ensures BoundsFrom(merged[j], tuples) {
      assert SourcedAt(merged, sorted, |sorted|, j);
      var k :| 0 <= k < |sorted| && sorted[k].0 == merged[j].0;
      var k' :| 0 <= k' < |sorted| && sorted[k'].1 == merged[j].1;
      assert sorted[k] in multiset(tuples) && sorted[k'] in multiset(tuples);
    }
  }

  /** Being near one of the sorted intervals is being near one of the inputs. */
  lemma NearOfPermutation(tuples: seq<(int, int)>, sorted: seq<(int, int)>, merged: seq<(int, int)>)
    requires multiset(sorted) == multiset(tuples) && Near(merged, sorted, |sorted|)
    ensures forall j :: 0 <= j < |merged| ==> CloseTo(merged[j], tuples)
  {
    forall j | 0 <= j < |merged| ensures CloseTo(merged[j], tuples) {
      assert NearAt(merged, sorted, |sorted|, j);
      forall x | merged[j].0 <= x <= merged[j].1 ensures NearInput(x, tuples) {
        assert NearSome(x, sorted, |sorted|);
        var k :| 0 <= k < |sorted| && sorted[k].0 - 50 <= x <= sorted[k].1 + 50;
        assert sorted[k] in multiset(tuples);
      }
    }
  }

  /**
   * The closeness clause rules out merging too much: for [(0, 10), (200, 210)]
   * the source keeps two intervals, and the single hull (0, 210) is not close
   * to the inputs, since the point 100 lies more than 50 from both.
   */
  lemma HullIsNotClose()
    ensures Proper([(0, 10), (200, 210)])
    ensures !CloseTo((0, 210), [(0, 10), (200, 210)])
  {
    var tuples := [(0, 10), (200, 210)];
    assert forall t :: t in tuples ==> t == (0, 10) || t == (200, 210);
    assert !NearInput(100, tuples);
  }

  /** A permutation of intervals with their start at or before their end has the same property. */
  lemma ProperSorted(tuples: seq<(int, int)>, sorted: seq<(int, int)>)
    requires Proper(tuples) && multiset(sorted) == multiset(tuples)
    ensures Proper(sorted)
  {
    forall k | 0 <= k < |sorted| ensures sorted[k].0 <= sorted[k].1 {
      assert sorted[k] in multiset(tuples);
      var i :| 0 <= i < |tuples| && tuples[i] == sorted[k];
    }
  }

  /** What `process_search_results` returns: `{}` when no query clip matched anything, else the top list. */
  datatype SearchOutcome = EmptyDict | TopK(top: seq<(string, real)>)

  /** The number of matches over all query clips. */
  function TotalMatches(data: seq<seq<string>>): nat
    decreases |data|
  {
    if |data| == 0 then 0 else TotalMatches(data[..|data| - 1]) + |data[|data| - 1]|
  }

  /** There are no matches at all exactly when every query clip's list is empty. */
  lemma {:induction false} NoMatchesIffAllEmpty(data: seq<seq<string>>)
    ensures TotalMatches(data) == 0 <==> forall i :: 0 <= i < |data| ==> |data[i]| == 0
    decreases |data|
  {
    if |data| > 0 {
      var init := data[..|data| - 1];
      NoMatchesIffAllEmpty(init);
      if TotalMatches(data) == 0 {
        forall i | 0 <= i < |data| ensures |data[i]| == 0 {
          if i < |init| { assert data[i] == init[i]; }
        }
      }
    }
  }

  /** The share of query clips naming `name`, as `count_audio_matches` computes it. */
  function Share(data: seq<seq<string>>, name: string): real {
    if |data| == 0 then 0.0 else Mentions(data, name) as real / |data| as real
  }

  /**
   * The pairs of `count_audio_matches`' result set, listed in the iteration
   * order `order`: each name with the number of query clips naming it divided
   * by the number of query clips.
   */
  function ScoredPairs(data: seq<seq<string>>, order: seq<string>): (r: seq<(string, real)>)
    ensures |r| == |order|
    ensures forall i :: 0 <= i < |order| ==> r[i].0 == order[i]
    ensures |data| > 0 ==> forall i :: 0 <= i < |order| ==> r[i].1 == Mentions(data, order[i]) as real / |data| as real
  {
    seq(|order|, i requires 0 <= i < |order| => (order[i], Share(data, order[i])))
  }

  /**
   * Listed in any iteration order of the result set, the scored pairs are
   * exactly the pairs of `count_audio_matches`' dict: a pair occurs exactly
   * when it names an indexed audio with its share of the query clips, and no
   * name occurs twice.
   */
  lemma ScoredPairsExactly(data: seq<seq<string>>, order: seq<string>)
    requires Enumerates(order, AllNames(data))
    ensures forall p :: p in ScoredPairs(data, order) <==>
      p.0 in AllNames(data) && |data| > 0 && p.1 == Mentions(data, p.0) as real / |data| as real
    ensures forall i, j :: 0 <= i < j < |order| ==> ScoredPairs(data, order)[i].0 != ScoredPairs(data, order)[j].0
  {
    var pairs := ScoredPairs(data, order);
    forall p | p in pairs
      ensures p.0 in AllNames(data) && |data| > 0 && p.1 == Mentions(data, p.0) as real / |data| as real
    {
      var j :| 0 <= j < |pairs| && pairs[j] == p;
      ScoredPairNamed(data, order, j);
    }
    forall p: (string, real) | p.0 in AllNames(data) && |data| > 0 && p.1 == Mentions(data, p.0) as real / |data| as real
      ensures p in pairs
    {
      var j :| 0 <= j < |order| && order[j] == p.0;
      assert pairs[j] == p;
    }
  }

  /** The pair at position `j` names an indexed audio, which makes the query clips non-empty. */
  lemma ScoredPairNamed(data: seq<seq<string>>, order: seq<string>, j: int)
    requires Enumerates(order, AllNames(data)) && 0 <= j < |order|
    ensures ScoredPairs(data, order)[j] == (order[j], Mentions(data, order[j]) as real / |data| as real)
    ensures order[j] in AllNames(data) && |data| > 0
  {
    assert |data| == 0 ==> AllNames(data) == {};
  }

  /** Every scored pair names an indexed audio and carries a share in (0, 1]. */
  lemma ScoredPairsInRange(data: seq<seq<string>>, order: seq<string>)
    requires Enumerates(order, AllNames(data))
    ensures forall j :: 0 <= j < |order| ==> ScoredPairs(data, order)[j].0 in AllNames(data)
    ensures forall j :: 0 <= j < |order| ==> 0.0 < ScoredPairs(data, order)[j].1 <= 1.0
  {
    forall j | 0 <= j < |order| ensures 0.0 < ScoredPairs(data, order)[j].1 <= 1.0 {
      var n := order[j];
      MentionedIffNamed(data, n);
      ShareBounds(Mentions(data, n), |data|);
    }
  }

  /** Whatever the top list keeps is one of the scored pairs, so it names an indexed audio with a share in (0, 1]. */
  lemma TopSharesInRange(data: seq<seq<string>>, order: seq<string>, top: seq<(string, real)>)
    requires Enumerates(order, AllNames(data))
    requires multiset(top) <= multiset(ScoredPairs(data, order))
    ensures forall p :: p in top ==> p.0 in AllNames(data) && 0.0 < p.1 <= 1.0
  {
    var pairs := ScoredPairs(data, order);
    ScoredPairsInRange(data, order);
    forall p | p in top ensures p.0 in AllNames(data) && 0.0 < p.1 <= 1.0 {
      assert p in multiset(pairs);
      var j :| 0 <= j < |pairs| && pairs[j] == p;
    }
  }

  /**
   * `process_search_results`: `{}` when no query clip has any match, else the
   * ten best (name, share) pairs. `data` lists the dictionary's values and
   * `order` the result set's iteration order. The most frequent clip hash the
   * source also computes is never used and is not modelled.
   */
  method ProcessSearchResults(data: seq<seq<string>>, order: seq<string>) returns (r: SearchOutcome)
    requires Enumerates(order, AllNames(data))
    ensures r.EmptyDict? <==> forall i :: 0 <= i < |data| ==> |data[i]| == 0
    ensures r.TopK? ==> r.top == GetTopKAudio(ScoredPairs(data, order), 10)
    ensures r.TopK? ==> |r.top| == (if |order| < 10 then |order| else 10)
    ensures r.TopK? ==> forall p :: p in r.top ==> p.0 in AllNames(data) && 0.0 < p.1 <= 1.0
  {
    var total := 0;
    var i := 0;
    while i < |data|
      invariant 0 <= i <= |data|
      invariant total == TotalMatches(data[..i])
    {
      assert data[..i + 1][..i] == data[..i];
      total := total + |data[i]|;
      i := i + 1;
    }
    assert data[..i] == data;
    NoMatchesIffAllEmpty(data);
    if total == 0 {
      return EmptyDict;
    }
    var scores := CountAudioMatches(data);
    var pairs := seq(|order|, j requires 0 <= j < |order| => (order[j], scores[order[j]]));
    assert pairs == ScoredPairs(data, order) by {
      forall j | 0 <= j < |order| ensures pairs[j] == ScoredPairs(data, order)[j] {
        assert order[j] in scores;
      }
    }
    var top := GetTopKAudio(pairs, 10);
    TopSharesInRange(data, order, top);
    return TopK(top);
  }
}

=== FILE: wrappers.dfy ===
/** Failure-carrying result types shared by every module of the model. */
module Wrappers {

  /** A value that may be absent: Go's "not found", Python's `None`. */
  datatype Option<+T> = None | Some(value: T)

  /** The outcome of an operation that can fail: a Go `(value, error)` pair or a raised Python exception. */
  datatype Result<+R, +E> = Success(value: R) | Failure(error: E)
}
